=== FILE: README.md ===
# love-build-tools, modelled in Dafny

love-build-tools builds LÖVE and LÖVR games and manages Lua language-server
addons. This project models its core and proves properties about it:

- **Versions** (`version.dfy`, with `decimal.dfy` for Rust's `usize`
  parsing and printing). `major.minor[.patch]` versions are printed,
  parsed, read with an optional leading `v`, and ordered.
- **Configuration** (`config.dfy`). Covers the frameworks, the targets,
  their printed names and where a framework is cached.
- **Release assets** (`asset.dfy`, `release.dfy`):
  - the regular expression that classifies a published asset name by platform;
  - the choice of the asset for the host;
  - `Release::install`, a small state machine over the cache directory. It
    has an `.archive` directory, a `.<name>-version` marker file and a
    flattened, extracted tree. Its properties are in `install_props.dfy`.
- **The build pipeline** (`build.dfy`, `archive.dfy`). This is
  `Builder::bundle` for every target:
  - install the framework;
  - make the output directory;
  - copy the framework's `.dll` files;
  - zip the project's `src` tree and append it to the framework's
    executable;
  - zip the output directory.

  The zip writer `Archive` is a class whose list of written entries grows
  as `add_file` and `add_dir` walk the filesystem.
- **Addons** (`addon.dfy`, `lock.dfy`, `gittree.dfy`):
  - addon sources `name[@checksum]` and `https://github.com/<owner>/<repo>[@checksum]`;
  - the addon's name and clone URL;
  - merging two descriptions of an addon;
  - the lock file's table of addons, a class with a map field;
  - decoding the file modes of a git tree listing.

The filesystem is a value: a map from paths to files and directories, kept
well formed (`Fs.Wf`). Each operation returns the new map or an I/O error.
The order in which a directory is listed is the operating system's choice.
It is a parameter, a *lister*, and the walks are proved against set-based
descriptions that hold whatever that order is. The network, the zip codec
and the host platform are parameters too.

## Model

| member | source | states |
|---|---|---|
| Versions.ParsePrinted | src/version.rs:46-59 | Parsing the printed form of any version gives that version back |
| Versions.ToString | src/version.rs:46-59 | The printed form is non-empty, starts with a digit and holds only digits and dots |
| Versions.FromStr | src/version.rs:86-108 | The empty string fails as `Empty`. An accepted string starts with a digit or `+`, and one without a `.` has minor 0 and no patch |
| Versions.Deserialize | src/version.rs:70-84 | A string `FromStr` accepts deserializes to the same version |
| Versions.DeserializePrinted | src/version.rs:70-84 | Deserializing a printed version, with or without one leading `v`, gives it back |
| Versions.FromStrRejectsPrefix | src/version.rs:86-108 | `FromStr` itself refuses a leading `v`, and deserialization strips only one |
| Versions.MajorOnly | src/version.rs:90-102 | A single number is the major version, with minor 0 and no patch |
| Versions.FourPartsRejected | src/version.rs:90-106 | Everything after the second `.` is the patch, so a third `.` is always refused |
| Versions.DotIsNoDigit | src/version.rs:103-104 | A number containing `.` never parses |
| Versions.EmptyRejected | src/version.rs:93-97 | The empty string and an empty major part fail as `Empty` |
| Versions.IndexOf | src/version.rs:90 | The first `c` in `s`, or `|s|` when there is none |
| Versions.SplitAtDot | src/version.rs:90 | Splitting `a.b`, where `a` has no dot, gives `a` and `b` |
| Versions.SplitNoDot | src/version.rs:90 | A string without a dot is one part |
| Versions.Less | src/version.rs:5-10 | The derived order compares the major number first, then the minor, and never relates a version to itself |
| Versions.LessIrreflexive | src/version.rs:5 | The derived order is irreflexive |
| Versions.LessTransitive | src/version.rs:5 | The derived order is transitive |
| Versions.LessTotal | src/version.rs:5 | The derived order is total |
| Versions.AbsentPatchSortsFirst | src/version.rs:5-10 | A version without a patch sorts below the same version with any patch, and differs from it |
| Versions.ConstantsOrdered | src/version.rs:13-43 | Each framework's minimum is at most its latest version, and the constants print as "11.0" and "0.17.0" |
| Decimal.ParseUsize | src/version.rs:93-104 | `usize` parsing succeeds exactly on an optional `+` and one or more digits whose value fits in 64 bits; it fails with `Empty` exactly on the empty string |
| Decimal.Accumulate | src/version.rs:96 | The digit loop succeeds exactly when all characters are digits and the value fits; it never reports `Empty` |
| Decimal.ToDecimalDigits | src/version.rs:48-57 | A printed number is a non-empty digit string whose value is the number |
| Decimal.ParsePrintedUsize | src/version.rs:48-57 | Printing a `usize` and parsing it gives it back |
| Decimal.ParseStopsAtNonDigit | src/version.rs:96-104 | A number followed by a non-digit fails with `InvalidDigit` |
| Decimal.EmptyNeverParses | src/version.rs:96 | `""` fails with `Empty`, and `"+"` fails with `InvalidDigit` |
| Decimal.DigitChar | src/version.rs:48-57 | Every digit value has a digit character that reads back as it |
| Config.InstallPath | src/config.rs:119-122 | `<data>/<target name>/<framework name>` |
| Config.ExePath | src/config.rs:124-127 | `<framework>.exe` directly inside the install path |
| Config.NewConfig | src/config.rs:35-44 | A new configuration names the project, has no icon and has empty build and target tables |
| Config.ParseFrameworkExactly | src/config.rs:65-84 | Parsing accepts exactly the printed names, and fails on every other string |
| Config.ParseFramework | src/config.rs:65-75 | Exactly "love" and "lovr" parse; any other string fails with "invalid framework: " and the string |
| Config.FrameworkName | src/config.rs:77-84 | The printed name parses back to the framework |
| Config.Owner | src/config.rs:86-93 | The owner is one non-empty URL path segment |
| Config.Repo | src/config.rs:95-101 | The repository is named after the framework |
| Config.MinVersion | src/config.rs:103-109 | The minimum version is never above the latest one |
| Config.Latest | src/config.rs:111-117 | The latest versions print as "11.5" and "0.17.0" |
| Config.TargetName | src/config.rs:182-192 | A target prints as a non-empty lower-case word |
| Config.DefaultTarget | src/config.rs:167-180 | The default target is the platform of the host |
| Config.MinNotAboveLatest | src/config.rs:103-117 | Each framework's minimum version is at most its latest |
| Config.TargetNamesDistinct | src/config.rs:182-192 | Distinct targets print distinct names |
| Config.FrameworkTables | src/config.rs:86-117 | The owner, repository, minimum and latest version of each framework |
| AssetNames.ParseNeverFails | src/git/release.rs:285-309 | Parsing an asset name never fails and keeps the name; the type is `Other` when nothing matches, else the platform of the leftmost match's word |
| AssetNames.ParseAssetName | src/git/release.rs:285-309 | Parsing keeps the name, and the type is `Other` exactly when nothing was captured |
| AssetNames.Classify | src/git/release.rs:291-302 | The `match` on a captured word never reaches its error arms and gives the word's platform, or `Other` without a capture |
| AssetNames.FirstCaptureIsLeftmost | src/git/release.rs:291 | The capture is that of the leftmost position where the pattern matches |
| AssetNames.FirstCaptureSearches | src/git/release.rs:291 | Finding the first capture is a leftmost search over the captures at each position |
| AssetNames.LeftmostFound | src/git/release.rs:291 | A leftmost search finds nothing exactly when there is nothing to find, and otherwise the first value, with nothing before it |
| AssetNames.OtherIffNoMatch | src/git/release.rs:289-302 | A name is `Other` exactly when the pattern matches nowhere in it |
| AssetNames.TokensTyped | src/git/release.rs:293-297 | Every word the pattern captures maps to a platform |
| AssetNames.TokensPrefixFree | src/git/release.rs:289 | No operating-system word starts another, so the alternation finds the word present |
| AssetNames.TokensDiffer | src/git/release.rs:289 | Any two operating-system words differ in their first three letters |
| AssetNames.DigitsEnd | src/git/release.rs:289 | The end of a digit run: digits up to it, a non-digit or the end at it |
| AssetNames.GroupsEnd | src/git/release.rs:289 | The `(\.\d+)*` groups end where no further `.digit` follows |
| AssetNames.OsAt | src/git/release.rs:289 | The alternation tries the words in order and returns one of them |
| AssetNames.VersionEnd | src/git/release.rs:289 | A matched version part lies past the engine name and `-` |
| AssetNames.CaptureAt | src/git/release.rs:289 | A match at a position captures one of the listed words |
| AssetNames.FirstCapture | src/git/release.rs:291 | The leftmost capture is one of the listed words |
| AssetNames.VersionSpan | src/git/release.rs:289 | A printed version followed by a separator and a word is taken whole by the greedy version part |
| AssetNames.PublishedNameClassified | src/git/release.rs:289-302 | A published name `love-11.5-win64.zip` (any engine, optional `v`, version, separator, word, archive kind) is classified by its word |
| AssetNames.PublishedLayout | src/git/release.rs:289 | Where the parts of a published name lie |
| AssetNames.ClassifiedByLayout | src/git/release.rs:289-302 | A name laid out as published is captured at 0 with its word |
| Releases.GetPlatformAsset | src/git/release.rs:68-91 | No asset is chosen exactly when none is built for the host; a chosen asset is the first one that is |
| Releases.ExtractDirIsInstallPath | src/git/release.rs:100-174 | The extracted tree lies where the configuration looks for the framework |
| Releases.ArchiveFile | src/git/release.rs:106-108 | The downloaded asset lies in `<data>/<os>/.archive` under its own name |
| Releases.MarkerFile | src/git/release.rs:100-107 | The marker lies in `<data>/<os>` and is neither `.archive` nor `<name>/` |
| Releases.AppImageFile | src/git/release.rs:235-238 | The renamed AppImage is `.archive/<name>.AppImage`, the asset slot of that name |
| Releases.TrimStart | src/git/release.rs:147 | Leading whitespace removed: the result is a suffix that does not start with whitespace |
| Releases.TrimEnd | src/git/release.rs:147 | Trailing whitespace removed: the result is a prefix that does not end with whitespace |
| Releases.Trim | src/git/release.rs:147 | The trimmed text starts and ends with non-whitespace, and text without whitespace is kept whole |
| Releases.TrimPrinted | src/git/release.rs:147-156 | Trimming a printed version changes nothing |
| Releases.PrintedIsAscii | src/git/release.rs:156 | A printed version is ASCII text |
| Releases.ReadMarker | src/git/release.rs:137-149 | Reading the marker fails only as unreadable text or as an invalid version |
| Releases.MarkerRoundTrip | src/git/release.rs:137-161 | The marker saved for a tag reads back as that tag |
| Releases.ReadEncoded | src/git/release.rs:137-149 | Reading the ASCII encoding of a string parses the trimmed string |
| Releases.ExtractItem | src/git/release.rs:182-217 | An entry without an enclosed name changes nothing; any other is made as a directory or written as a file directly inside the extraction directory |
| Releases.MakeChildDir | src/git/release.rs:191-199 | Making a child directory adds exactly that directory and keeps the tree well formed |
| Releases.WriteChildFile | src/git/release.rs:200-216 | Writing a child file sets exactly that file to the entry's content and keeps the tree well formed |
| Releases.Extract | src/git/release.rs:182-232 | Extracting keeps the tree well formed and `<name>/` a directory. A failing entry stops the loop, and what the entries before it wrote stays |
| Releases.ExtractFailure | src/git/release.rs:182-217 | A failed extraction stopped at some entry: the entries before it were extracted in full, and that entry fails on the state they left |
| Releases.ExtractFootprint | src/git/release.rs:182-232 | Extraction adds or replaces only the entries directly inside the directory that the archive names, and leaves every other path as it was |
| Releases.ExtractSkipsUnenclosed | src/git/release.rs:186-189 | Entries without an enclosed name are skipped |
| Releases.Enclosed | src/git/release.rs:186-189 | The entries with an enclosed name, in order |
| Releases.ExtractAll | src/git/release.rs:182-232 | The loop over the entries computes `Extract`, including the state reached when an entry fails |
| Releases.PrepareArchive | src/git/release.rs:110-115 | `.archive` is made only when nothing exists at that path |
| Releases.Fetch | src/git/release.rs:117-135 | A download writes exactly the downloaded bytes to `.archive/<asset>`, and fails with `Network` when there is no download |
| Releases.UpdateMarker | src/git/release.rs:137-162 | A saved marker holds the tag's bytes; a failure is never `ZipInvalid` |
| Releases.ResetDir | src/git/release.rs:174-180 | Afterwards `<name>/` is a directory |
| Releases.Unpack | src/git/release.rs:164-232 | Unpacking keeps the tree well formed, and a failure that is not an I/O error (an archive that does not open) changes nothing |
| Releases.RenameAppImage | src/git/release.rs:233-240 | Renaming keeps the tree well formed |
| Releases.InstallSpec | src/git/release.rs:93-255 | Installing keeps the tree well formed |
| Releases.FromArchive | src/git/release.rs:117-135 | The asset is downloaded exactly when its file is missing |
| Releases.FromAsset | src/git/release.rs:137-162 | The stage after the download keeps the tree well formed and the download flag |
| Releases.FromMarker | src/git/release.rs:164-244 | A failed last stage changes nothing unless it is an I/O error of a `.zip` unpack, which keeps what it wrote |
| Releases.Install | src/git/release.rs:93-116 | The step-by-step install, with its `work_done` flag, computes `InstallSpec` |
| Releases.InstallAsset | src/git/release.rs:117-136 | From `.archive` on, the install computes the download stage `FromArchive` |
| Releases.InstallMarked | src/git/release.rs:137-162 | From the cached asset on, the install computes the marker stage `FromAsset` |
| Releases.InstallUnpacked | src/git/release.rs:164-255 | The unpack or rename stage and the final result compute `FromMarker`, including the state a failed extraction leaves |
| InstallProperties.NoHostAssetChangesNothing | src/git/release.rs:246-251 | Without an asset for the host, install fails and touches nothing |
| InstallProperties.FetchedIffMissing | src/git/release.rs:110-135 | The asset is downloaded exactly when `.archive/<asset>` does not exist |
| InstallProperties.UpToDateChangesNothing | src/git/release.rs:137-154 | A marker that reads as the tag ends the install with nothing changed, nothing downloaded and no message |
| InstallProperties.UpToDateAfterDownload | src/git/release.rs:117-154 | After a download, a marker that reads as the tag still ends the install; only the asset was written |
| InstallProperties.MarkerKeptByDownload | src/git/release.rs:133-150 | Writing the asset leaves the marker as it was |
| InstallProperties.MarkerSavedBeforeExtraction | src/git/release.rs:155-173 | When the archive cannot be opened, the new marker is already saved |
| InstallProperties.ZipInvalidAfterArchive | src/git/release.rs:155-173 | The same, from the download stage on |
| InstallProperties.ZipInvalidLeavesMarker | src/git/release.rs:155-173 | The same, from the marker stage on |
| InstallProperties.TargetsAreChildren | src/git/release.rs:192-204 | Every entry lands directly inside the extraction directory |
| InstallProperties.ResetDirEmpties | src/git/release.rs:174-180 | `<name>/` ends up empty, and nothing apart from it changes |
| InstallProperties.UnpackResult | src/git/release.rs:164-232 | After a successful unpack, `<name>/` holds exactly the enclosed entries of the archive, flattened, and every path apart from it is unchanged |
| InstallProperties.UnpackKeeps | src/git/release.rs:164-232 | Unpacking, successful or not, changes nothing apart from `<name>/` |
| InstallProperties.UnpackFailure | src/git/release.rs:172-217 | When an entry fails, `<name>/` is a directory holding exactly the targets of the entries before it, and the install fails with that entry's I/O error |
| InstallProperties.PartialExtraction | src/git/release.rs:182-217 | Extracting into an empty directory and failing at an entry leaves exactly the targets of the entries before it |
| InstallProperties.FailureAfterMarkerNotRepaired | src/git/release.rs:137-217 | After the marker is saved, a failed unpack leaves the marker reading as the tag, so the next install of the release ends at once as a success, without message or repair |
| InstallProperties.MarkerApart | src/git/release.rs:100-108 | The marker is apart from `<name>/`, and is neither the asset nor the renamed AppImage |
| InstallProperties.ArchiveApart | src/git/release.rs:106-108 | The cached asset is apart from `<name>/` unless the framework is called `.archive` |
| InstallProperties.FromMarkerKeeps | src/git/release.rs:164-240 | The last stage, whether it succeeds or fails, keeps every path apart from `<name>/`, except the two an AppImage rename touches |
| InstallProperties.FromAssetPass | src/git/release.rs:137-244 | After the marker stage succeeds, the marker reads as the tag and a cached non-AppImage asset stays |
| InstallProperties.FromArchivePass | src/git/release.rs:117-244 | The same, from the download stage on |
| InstallProperties.InstalledMarkerReadsTag | src/git/release.rs:93-255 | A successful install leaves a marker that reads as the tag, and keeps the asset unless it is an AppImage |
| InstallProperties.SecondInstallIsNoOp | src/git/release.rs:93-255 | Installing the same release again right after a success changes nothing and downloads nothing |
| InstallProperties.PrepareKeepsMarker | src/git/release.rs:110-115 | Making `.archive` never touches the marker |
| InstallProperties.AppImageStageRenames | src/git/release.rs:233-240 | An out-of-date marker sends an AppImage through the rename |
| InstallProperties.AppImageDownloadedAgain | src/git/release.rs:117-135 | After an AppImage is installed, the archive file is gone, so the next install of the same release downloads it again |
| Fs.ReadDir | src/build/mod.rs:161 | `read_dir` lists only entries of the directory |
| Fs.ReadDirLists | src/build/mod.rs:161 | With a lister like the OS's, `read_dir` lists each entry of the directory exactly once |
| Fs.CreateDirAll | src/build/mod.rs:155 | `create_dir_all` makes the path and its missing ancestors, or fails when a file is in the way |
| Fs.RemoveDirAll | src/build/mod.rs:152-154 | `remove_dir_all` removes the directory and everything below it |
| Fs.WriteFile | src/git/release.rs:133 | Writing succeeds exactly when the parent is a directory and the path is not one; the file then holds the data |
| Fs.ReadFile | src/build/mod.rs:183 | Reading succeeds exactly on a file and gives its content |
| Fs.AppendFile | src/build/mod.rs:182-183 | Appending succeeds exactly on a file and puts the data at its end |
| Fs.CopyFile | src/build/mod.rs:163 | Copying succeeds exactly when the source is a file and the target can be written; the target then holds the source's content |
| Fs.RenameFile | src/git/release.rs:235-239 | Renaming moves the file and replaces any file at the target; renaming to itself changes nothing |
| Fs.DecodeEncoded | src/git/release.rs:139 | ASCII text encoded as bytes reads back as itself |
| Fs.CreateChildDir | src/git/release.rs:192 | Inside a directory, `create_dir_all` of a child adds only that child |
| Archives.JoinNames | src/build/mod.rs:271-275 | A relative name is text exactly when every component is UTF-8 |
| Archives.Walk | src/build/mod.rs:264-265 | A walk succeeds only over a directory |
| Archives.WalkList | src/build/mod.rs:265-290 | No listing gives no entries, and an error at the first listed entry ends the walk with that error |
| Archives.WalkCollects | src/build/mod.rs:264-292 | A walk succeeds exactly when the directory is one and every reached name is UTF-8. It writes an entry for every reached path and for no other path (files with their content, directories as directory entries), never the archive itself, whatever the listing order |
| Archives.ListingReachesAll | src/build/mod.rs:265 | Listing a directory reaches every path a walk of it emits |
| Archives.WalkListCollects | src/build/mod.rs:265-290 | The same, for the rest of one listing |
| Archives.StepArchive | src/build/mod.rs:266-268 | The archive's own file is skipped |
| Archives.StepBadName | src/build/mod.rs:271-275 | A name that is not UTF-8 stops the walk |
| Archives.StepEntry | src/build/mod.rs:279-285 | A file, or a directory of a flat walk, is written as one entry |
| Archives.StepDeep | src/build/mod.rs:284-288 | A directory of a recursive walk is written as its entry, then its own walk |
| Archives.Archive.constructor | src/build/mod.rs:233-250 | A new archive has its layout and no entries |
| Archives.Archive.AddFile | src/build/mod.rs:252-262 | Adding a file appends one entry with its whole content. A non-UTF-8 name fails and adds nothing; an unreadable file fails after its entry was started, leaving that entry empty |
| Archives.Archive.AddDir | src/build/mod.rs:264-292 | `add_dir` appends exactly the entries of the walk, or fails with the walk's error |
| Archives.Archive.AddListing | src/build/mod.rs:265-290 | The loop over the listed entries appends the walk of that listing |
| Archives.Archive.AddListedAt | src/build/mod.rs:266-289 | One turn of the loop, after the entries of the earlier turns, moves the walk of the rest of the listing one entry on, or stops with that walk's error |
| Archives.Archive.AddListed | src/build/mod.rs:266-289 | One iteration of the loop appends that entry's piece of the walk |
| Archives.Archive.Finish | src/build/mod.rs:294-296 | The encoded entries become the archive file's content |
| Archives.Open | src/build/mod.rs:233-250 | Opening creates or truncates the archive file, or fails and changes nothing |
| Build.FindRelease | src/build/mod.rs:131 | The first release tagged with the version, or none when no release is |
| Build.InstallOutcomes | src/build/mod.rs:114-143 | The install ends with a failed fetch, with a version below the minimum even when the release exists, or with no tagged release, and none of these changes the filesystem; otherwise it is the release's install |
| Build.EnsureInstalled | src/build/mod.rs:114-143 | The filesystem stays well formed |
| Build.InstallsFirstTagged | src/build/mod.rs:131-142 | Past the checks, the installed release is the first one tagged with the build's version, and the reported outcome is that release's install outcome: a pass, or its error as `InstallFailed` |
| Build.OutputPath | src/build/mod.rs:146-150 | `root/build/<framework>/<target>` |
| Build.OutputDir | src/build/mod.rs:145-158 | Afterwards the output directory exists and is empty, and nothing apart from it and its ancestors has changed |
| Build.CopyDlls | src/build/mod.rs:161-165 | Copies the listed `.dll` entries in order; the first failure stops the loop |
| Build.IsDll | src/build/mod.rs:162 | A name ending in `.dll` has the extension `dll` exactly when something precedes the `.dll` |
| Build.CopyFilesSpec | src/build/mod.rs:160-168 | `copy_files` reads the framework's install directory and copies its `.dll` entries |
| Build.CopyFiles | src/build/mod.rs:160-168 | The loop computes `CopyFilesSpec` |
| Build.CopyDllsResult | src/build/mod.rs:161-165 | When every copy succeeds, each `.dll` file is copied into the destination under its name, with its content, and nothing else changes |
| Build.CopyFilesCopiesDlls | src/build/mod.rs:160-168 | After a successful `copy_files`, the destination holds a copy of every `.dll` entry of the installed framework, and nothing else has changed |
| Build.ZipSpec | src/build/mod.rs:176-178 | A written archive file holds the encoding of the entries the walk collects; a failure to create the file changes nothing |
| Build.WriteZip | src/build/mod.rs:176-178 | Opening, walking and finishing an archive computes `ZipSpec` |
| Build.ZipContents | src/build/mod.rs:176-178 | An archive is written exactly when its file can be created, the directory is one and every name is UTF-8. It holds an entry for every reached path, for no other path, and none for itself |
| Build.FuseSpec | src/build/mod.rs:170-191 | A target other than Win64 panics |
| Build.Fuse | src/build/mod.rs:180-205 | After the payload is written, the executable is copied and the payload appended; customizing panics off Windows |
| Build.BuildExecutable | src/build/mod.rs:170-208 | The stages compute `FuseSpec` |
| Build.FusedExecutable | src/build/mod.rs:176-184 | Once the build is not failed, `<project>.exe` holds the cached executable's bytes immediately followed by the payload's, and both sources are unchanged |
| Build.NameSuffixesDiffer | src/build/mod.rs:171-172 | The executable and the payload file have different names |
| Build.PackageSpec | src/build/mod.rs:210-222 | Packaging panics exactly when the target is not Win64 |
| Build.Package | src/build/mod.rs:210-222 | The stages compute `PackageSpec` |
| Build.PackagedEntries | src/build/mod.rs:213-216 | A packaged build holds an entry for every direct entry of the output directory, for no other path, and none for the zip itself |
| Build.TargetSpec | src/build/mod.rs:47-108 | Keeps the tree well formed; only a non-Win64 target or a non-Windows host panics |
| Build.AfterInstall | src/build/mod.rs:65-108 | The same, for the stages after the install |
| Build.RunTarget | src/build/mod.rs:47-108 | The loop body computes `TargetSpec` |
| Build.RunStages | src/build/mod.rs:65-108 | The stages after the install, with their `fail` flag, compute `AfterInstall` |
| Build.SkippedWithoutOutputDir | src/build/mod.rs:65-72 | A target is skipped exactly when its output directory cannot be made, and nothing after the install changed. A non-Win64 target is skipped or panics |
| Build.Verdict | src/build/mod.rs:50-108 | With the output directory made and no panic, a target is reported built exactly when install, copies, executable and package all succeeded. A failure does not stop the later stages |
| Build.BundleTargets | src/build/mod.rs:41-45 | The build's targets, or the host's default target when the list is empty |
| Build.RunAll | src/build/mod.rs:47-109 | Running the targets keeps the tree well formed |
| Build.TargetStep | src/build/mod.rs:47-108 | The stages for one target keep every state well formed |
| Build.Bundle | src/build/mod.rs:40-112 | `bundle` runs every target in order, each from the state the previous one left |
| Build.RunTargets | src/build/mod.rs:47-109 | The loop over the targets computes `RunAll` |
| Build.RunTargetStep | src/build/mod.rs:47-108 | One target's stages, stated through the step |
| Build.RunAllStep | src/build/mod.rs:47-109 | One step of the loop |
| Build.ReportsInOrder | src/build/mod.rs:47-109 | Targets are reported in list order, one report each; only a panic cuts the run short, and the target that panicked is not reported |
| Build.NoPanicRunsAll | src/build/mod.rs:47-109 | When no target panics, every target is reported |
| Build.NoPanicOnWindows | src/build/mod.rs:170-222 | Building only for Win64 on a Windows host never panics, so every target is reported |
| Addons.IndexOfAny | src/lib.rs:112-117 | The first character from the set, or the end; none of the set before it |
| Addons.Split | src/lib.rs:37-38 | Path segments are non-empty in number and free of the separator |
| Addons.JoinSplit | src/lib.rs:37-38 | Splitting and joining again gives the string back |
| Addons.SplitJoin | src/lib.rs:37-38 | Joining separator-free parts and splitting gives the parts back |
| Addons.SplitOnce | src/lib.rs:112-117 | No split exactly when `@` is absent; otherwise the string is `before@after`, with no `@` in `before` |
| Addons.Lower | src/lib.rs:36-37 | ASCII lower-casing of the host, character by character |
| Addons.ParseUrl | src/lib.rs:36-37 | A parsed URL starts with `https://` and has a non-empty host without a forbidden character, a valid port or none, and at least one path segment |
| Addons.AfterScheme | src/lib.rs:36 | What follows `https://` parses only with a non-empty host without a forbidden character and a port that is empty or ASCII digits of value at most 65535; `PortChecked` and `ForbiddenHostRefused` give the converse cases |
| Addons.PortChecked | src/lib.rs:36 | After a plain host and a `:`, the text up to the path is the port, the host is kept, and the URL parses exactly when the port is valid |
| Addons.ParseUrlOf | src/lib.rs:36-37 | `https://<host>/<segments>` parses as that host and those segments |
| Addons.ParseTarget | src/lib.rs:30-45 | A source names a LuaCATS addon exactly when it does not start with `https://` |
| Addons.TargetCases | src/lib.rs:33-45 | An `https` URL is GitHub exactly when it parses with host github.com, and is refused, naming the host, otherwise |
| Addons.GithubPortTarget | src/lib.rs:33-45 | `https://github.com:<port>…` is a GitHub source exactly when the port is valid, and malformed otherwise |
| Addons.GithubPortAccepted | src/lib.rs:33-45 | With a valid port, `https://github.com:<port>…` is a GitHub source |
| Addons.GithubPortRefused | src/lib.rs:33-36 | With a port that is not digits, or above 65535, `https://github.com:<port>…` is malformed |
| Addons.ForbiddenHostRefused | src/lib.rs:36 | A host with a space, `<`, `>`, `^` or a vertical bar does not parse |
| Addons.ForbiddenHostMalformed | src/lib.rs:33-36 | Such a host makes the source malformed |
| Addons.ParseAddon | src/lib.rs:110-127 | Any checksum is the text after the first `@`; the source has no `@`; a new addon names no branch |
| Addons.ParseSource | src/lib.rs:110-127 | Reading `src[@checksum]` gives that source and checksum, with the source's target, or its error |
| Addons.Name | src/lib.rs:68-81 | A LuaCATS addon's name is its source; a GitHub addon has a name exactly when its URL parses with two or more path segments |
| Addons.CloneUrl | src/lib.rs:83-88 | A GitHub addon is cloned from its own source |
| Addons.RepoUrlTarget | src/lib.rs:33-45 | A repository URL is a GitHub source exactly when its host is github.com, and is refused naming its host otherwise. As a GitHub source it is named after the repository |
| Addons.CloneUrlIsGithub | src/lib.rs:68-88 | A LuaCATS addon's clone URL is itself a GitHub source, named `<name>.git` |
| Addons.LuaCatsExamples | src/lib.rs:134-172 | `love2d` and `love2d@1234` read as in the program's tests |
| Addons.GithubExamples | src/lib.rs:145-183 | The GitHub URL, with and without checksum, reads as in the program's tests |
| Addons.ForeignHostExample | src/lib.rs:156-160 | A URL on example.com is refused |
| Addons.Merge | src/lib.rs:90-107 | `merge` computes `Merged` and reports `Changed` |
| Addons.Merged | src/lib.rs:90-107 | Source and target come from the other addon; branch and checksum come from it when present |
| Addons.MergeReports | src/lib.rs:90-107 | Every real change is reported, and merging twice equals merging once. A second merge is still reported when the other addon has a branch or checksum |
| Addons.MergeSameSource | src/lib.rs:90-107 | Merging the same source with no branch or checksum changes nothing and reports nothing |
| Locks.LockFile.constructor | src/lock.rs:7-14 | The lock file starts with the given table |
| Locks.LockFile.Contains | src/lock.rs:41-43 | An addon is contained exactly when the table has its name |
| Locks.LockFile.Update | src/lock.rs:27-35 | A new name is inserted and reported as a change. A present one is merged and `merge`'s report returned. Afterwards the name is contained. No other entry changes, and an addon without a name panics |
| Locks.LockFile.Set | src/lock.rs:37-39 | The name maps to the addon, whether or not it was present, and nothing else changes; afterwards exactly the names contained before and this name are contained |
| Locks.UpdateLocks | src/lock.rs:27-43 | After an update the name is contained, with the addon's source and target; every other entry is unchanged; a reported "no change" leaves the table as it was |
| Locks.UpdateTwice | src/lock.rs:27-35 | Updating twice with the same addon leaves the table as the first update did |
| GitTrees.DecodeMode | src/git/client/tree.rs:21-35 | An unknown code is refused with "unknown entry type: " and the code |
| GitTrees.EncodeMode | src/git/client/tree.rs:27-32 | Every mode's code is six octal digits |
| GitTrees.DecodeEncode | src/git/client/tree.rs:27-32 | Every mode's code decodes to that mode |
| GitTrees.EncodeDecode | src/git/client/tree.rs:27-32 | A code that decodes is the code of its mode |
| GitTrees.DecodeInjective | src/git/client/tree.rs:27-32 | Distinct accepted codes decode to distinct modes |
| GitTrees.LeadingZeroRequired | src/git/client/tree.rs:31-33 | "40000" is refused; only "040000" is a sub-directory |
| GitTrees.DecodeEntries | src/git/client/tree.rs:37-46 | A listing decodes exactly when every mode does, entry by entry in order; otherwise the first bad mode's error is returned |
| GitTrees.Iter | src/git/client/tree.rs:56-60 | Iterating yields the stored entries, one each, in stored order |
| GitTrees.IterInListedOrder | src/git/client/tree.rs:57-59 | A decoded tree yields one entry per listed entry, in listed order, each with its path and the mode its code names |

## Left out

- Network access is not modelled. The release list and the downloaded bytes are inputs: `Env.fetch`, a function from owner and repository to the releases (or none when the request fails), and `Context.downloads`, a map from URL to bytes.
- The zip format is not modelled: the binary layout, deflate and the `0o755` permission option. An archive written by `Archive` is the encoding of its entry list, done by a codec parameter. An archive read by `install` is a list of entries, each with its raw name, its `enclosed_name` and its content.
- `enclosed_name` sanitisation is not modelled. Each entry carries its result.
- The Unix permission restoring after extraction is left out (src/git/release.rs:219-231). It is platform-gated, it targets the relative `outpath` and its errors are ignored.
- The spinner and log output are left out. Only whether the "Installed" message is shown is kept, as `InstallResult.announced`.
- Concurrency and `async` are left out. Every call is sequential.
- The filesystem models only structural failures: a missing parent, or a file where a directory is needed and the reverse. Permission, disk and other OS errors are left out.
- Paths are absolute sequences of components. `..`, symbolic links and the current directory are not modelled. The project root and the data directory are parameters.
- A marker file is read as text only when all its bytes are ASCII. Any other content counts as unreadable, whereas Rust would accept valid UTF-8.
- The `unimplemented!()` panics become the `Panic` stage, which ends `bundle`. They fire for `build_executable` and `package` on targets other than Win64, and for `apply_customizations` off Windows.
- `Build.RunTargets`: the loop is proved against a ghost `step` that stands for `TargetStep`, because stating it through the concrete stage functions directly is too costly for the solver.
- The `url` crate is modelled only as far as the program reads it:
  - only `https://` URLs are handled;
  - the host is the authority up to the first `:`, lower-cased in ASCII;
  - user information, percent-decoding, IDNA and IP hosts are not modelled;
  - a URL the crate would reject with an empty host, a port that is not ASCII digits of value at most 65535, or a host holding a space, `<`, `>`, `^` or `|` is `Malformed`;
  - the crate's other refusals (control characters, `%` and percent escapes in the host, malformed `[…]` IPv6 hosts, names that fail IDNA) are not modelled: such a URL gets a host here and reads as `Ok(Github)` or `Unsupported`.
- `Addons.ParseTarget`: the program panics when `Url::parse` fails (src/lib.rs:36). The model returns `Err(Malformed)` for the failures it models (an empty host, an invalid port, a forbidden host character); for the refusals it does not model, listed under the `url` crate above, it returns `Ok(Github)` or `Unsupported` where the program panics. The `host_str() == None` arm cannot occur for `https` and is not modelled.
- `Addons.Name`: the panics of `unwrap` on a GitHub source that is not a URL with two path segments become `None`. `Locks.LockFile.Update` then returns `None`.
- `Addon::cats` (src/lib.rs:59-66) is used only by `LockFile::new`, which is left out. A LuaCATS addon is built directly as an `Addon` value.
- `LockFile::detect`, `read`, `new` and `write` (src/lock.rs:17-25, 45-112) are left out. They scan the disk, run `git` and handle JSON.
- `Config::parse_or_default` (src/config.rs:17-33) reads a TOML file and is left out.
- `Releases.FromMarker`: does not promise that a failed `.zip` stage leaves the filesystem as it was. As in the program, a failing entry leaves `<name>/` reset and holding what the entries before it wrote, with the new marker already saved (`InstallProperties.UnpackFailure`, `InstallProperties.FailureAfterMarkerNotRepaired`).
- `Build.ZipSpec`: when the walk fails, the program drops its `ZipWriter`, and dropping it finishes the archive. The file then holds a valid zip of the entries written so far, including an empty entry for a file that could not be read (src/build/mod.rs:259-260). The model leaves the file as created, empty. `Build.WriteZip` computes `ZipSpec` and leaves it the same way.
- `AssetNames.DigitsEnd`: `\d` is read as an ASCII digit. The regex crate's `\d` matches every Unicode decimal digit (`\p{Nd}`), so a name such as `love-١١.5-win64.zip` is `Win64` in the program and `Other` here. `AssetNames.GroupsEnd`, `VersionEnd`, `CaptureAt`, `FirstCapture`, `ParseAssetName` and `Classify` inherit this.
- `Releases.ExtractItem`: an entry whose enclosed name has no file name (empty, or ending in `.` or `..`) makes the program panic at `file_name().unwrap()` (src/git/release.rs:192, 204). `Releases.EnclosedPath` excludes such names, so the model does not cover that panic.
- `Addons.ParseUrl`: the `url` crate removes `.` path segments and reads `\` as `/` in `https` URLs. So `https://github.com/LuaCATS/./love2d` names `love2d` in the program, and `https://github.com\LuaCATS\love2d` is a GitHub source there. The model keeps `.` as a segment, which makes `Addons.Name` give `.` for the first, and reads the whole `github.com\luacats\love2d` as the host of the second, refusing it as `Unsupported`. The `url` crate also skips extra slashes after `https:`, so `https:///github.com/a/b` has the host `github.com` in the program; the model reads an empty host there and gives `Malformed`.
- The git tree's JSON is read by serde. The model takes each entry with its other fields already read and decodes only the mode.

Behaviour of the code worth noting:

- The releases are fetched before the minimum-version check, so a failed fetch is reported even for a version that is too old.
- An install failure only marks the target failed, and the later stages still run.
- `install` works in the cache for the host OS, whatever the target.
- A marker that reads as the tag stops the install even right after a fresh download. The archive is then not extracted.

=== FILE: addon.dfy ===
/**
 * Addon sources of the addon manager: the strings `name[@checksum]` and
 * `https://github.com/<owner>/<repo>[@checksum]`, where they are cloned from,
 * the key an addon is stored under, and merging one addon description into
 * another.
 *
 * URLs are read by a small splitter standing in for the `url` crate: only
 * `https://` URLs are understood, the host is the authority up to a port,
 * lower-cased, and the path is split at `/`. A port that is not a number
 * below 65536, or a host holding a character the crate refuses, makes the
 * URL malformed.
 */
module Addons {
  import opened Wrappers
  import Decimal

  /** Where an addon comes from: the LuaCATS organisation, or a GitHub URL. */
  datatype Target = LuaCats | Github

  datatype Addon = Addon(src: string, checksum: Option<string>, branch: Option<string>, target: Target)

  /**
   * The ways reading a source string fails. In the program both end it:
   * `Addon::from` unwraps the result of `Target::from_str`, which itself
   * unwraps the URL parse.
   */
  datatype SourceError = Unsupported(host: string) | Malformed

  const Https: string := "https://"

  const GithubHost: string := "github.com"

  predicate StartsWith(s: string, prefix: string) {
    |prefix| <= |s| && s[..|prefix|] == prefix
  }

  /** No character of `s` is in `cs`. */
  predicate NoneOf(s: string, cs: set<char>) {
    forall i :: 0 <= i < |s| ==> s[i] !in cs
  }

  lemma NoneOfConcat(a: string, b: string, cs: set<char>)
    requires NoneOf(a, cs) && NoneOf(b, cs)
    ensures NoneOf(a + b, cs)
  {
    forall i | 0 <= i < |a + b| ensures (a + b)[i] !in cs {
      if i >= |a| {
        assert (a + b)[i] == b[i - |a|];
      }
    }
  }

  // ---------------------------------------------------------------------
  // Splitting strings

  /** The index of the first character of `s` in `cs`, or `|s|` when there is none. */
  function IndexOfAny(s: string, cs: set<char>): (i: nat)
    ensures i <= |s| && NoneOf(s[..i], cs)
    ensures i < |s| ==> s[i] in cs
  {
    if s == [] then 0
    else if s[0] in cs then 0
    else
      var i := 1 + IndexOfAny(s[1..], cs);
      assert forall j :: 1 <= j < i ==> s[..i][j] == s[1..][..i - 1][j - 1];
      i
  }

  /** In `a + b`, where `a` has no character of `cs`, the first one is where `b` starts, if at all. */
  lemma {:induction false} IndexOfAnyOf(a: string, b: string, cs: set<char>)
    requires NoneOf(a, cs)
    requires b == [] || b[0] in cs
    ensures IndexOfAny(a + b, cs) == |a|
  {
    if a != [] {
      assert (a + b)[1..] == a[1..] + b;
      IndexOfAnyOf(a[1..], b, cs);
    }
  }

  /** `s` cut at every `sep`, as `str::split`. */
  function Split(s: string, sep: char): (parts: seq<string>)
    ensures |parts| > 0
    ensures forall i :: 0 <= i < |parts| ==> NoneOf(parts[i], {sep})
    decreases |s|
  {
    var i := IndexOfAny(s, {sep});
    if i == |s| then
      assert s[..i] == s;
      [s]
    else
      [s[..i]] + Split(s[i + 1..], sep)
  }

  /** The parts put back together with `sep` between them. */
  function Join(parts: seq<string>, sep: char): string
    requires |parts| > 0
  {
    if |parts| == 1 then parts[0] else parts[0] + [sep] + Join(parts[1..], sep)
  }

  /** Cutting at `sep` and joining again gives back the string. */
  lemma {:induction false} JoinSplit(s: string, sep: char)
    ensures Join(Split(s, sep), sep) == s
    decreases |s|
  {
    var i := IndexOfAny(s, {sep});
    if i < |s| {
      JoinSplit(s[i + 1..], sep);
      assert s == s[..i] + [sep] + s[i + 1..];
    }
  }

  /** Splitting parts joined with `sep`, none of which holds it, at `sep` gives the parts back. */
  lemma {:induction false} SplitJoin(parts: seq<string>, sep: char)
    requires |parts| > 0
    requires forall i :: 0 <= i < |parts| ==> NoneOf(parts[i], {sep})
    ensures Split(Join(parts, sep), sep) == parts
  {
    if |parts| == 1 {
      IndexOfAnyOf(parts[0], [], {sep});
      assert parts[0] + [] == parts[0];
    } else {
      var rest := Join(parts[1..], sep);
      var s := parts[0] + [sep] + rest;
      IndexOfAnyOf(parts[0], [sep] + rest, {sep});
      assert parts[0] + ([sep] + rest) == s;
      assert s[..|parts[0]|] == parts[0] && s[|parts[0]| + 1..] == rest;
      SplitJoin(parts[1..], sep);
    }
  }

  /** Joining parts free of `cs` with a separator outside `cs` gives a string free of `cs`. */
  lemma {:induction false} JoinFree(parts: seq<string>, sep: char, cs: set<char>)
    requires |parts| > 0 && sep !in cs
    requires forall i :: 0 <= i < |parts| ==> NoneOf(parts[i], cs)
    ensures NoneOf(Join(parts, sep), cs)
  {
    if |parts| > 1 {
      JoinFree(parts[1..], sep, cs);
      NoneOfConcat(parts[0], [sep], cs);
      NoneOfConcat(parts[0] + [sep], Join(parts[1..], sep), cs);
    }
  }

  /** `str::split_once`: the text before and after the first `sep`. */
  function SplitOnce(s: string, sep: char): (r: Option<(string, string)>)
    ensures r.None? <==> NoneOf(s, {sep})
    ensures r.Some? ==> s == r.value.0 + [sep] + r.value.1 && NoneOf(r.value.0, {sep})
  {
    var i := IndexOfAny(s, {sep});
    if i == |s| then
      assert s[..i] == s;
      None
    else
      assert s == s[..i] + [sep] + s[i + 1..];
      Some((s[..i], s[i + 1..]))
  }

  /** ASCII lower case, which URL parsing applies to a host. */
  function Lower(s: string): (r: string)
    ensures |r| == |s|
    ensures forall i :: 0 <= i < |s| ==> r[i] == if 'A' <= s[i] <= 'Z' then s[i] - 'A' + 'a' else s[i]
  {
    if s == [] then [] else [if 'A' <= s[0] <= 'Z' then s[0] - 'A' + 'a' else s[0]] + Lower(s[1..])
  }

  predicate LowerCase(s: string) {
    forall i :: 0 <= i < |s| ==> !('A' <= s[i] <= 'Z')
  }

  // ---------------------------------------------------------------------
  // URLs

  /** The parts of an `https` URL the program reads: its host and its path segments. */
  datatype Url = Url(host: string, segments: seq<string>)

  /**
   * The host of what follows the scheme, and the rest: the authority runs to
   * the first `/`, `?` or `#`, and the host is the authority up to a `:`
   * port, lower-cased.
   */
  function HostPart(rest: string): (string, string) {
    var a := IndexOfAny(rest, {'/', '?', '#'});
    var authority := rest[..a];
    (Lower(authority[..IndexOfAny(authority, {':'})]), rest[a..])
  }

  /** The text after the first `:` of the authority, or nothing when it has no port. */
  function PortPart(rest: string): string {
    var authority := rest[..IndexOfAny(rest, {'/', '?', '#'})];
    var c := IndexOfAny(authority, {':'});
    if c < |authority| then authority[c + 1..] else []
  }

  /** A port the URL parser accepts: ASCII digits of value at most 65535; empty means the default port. */
  predicate ValidPort(p: string) {
    Decimal.AllDigits(p) && Decimal.Horner(0, p) <= 65535
  }

  /** Characters the URL parser refuses in a host name. */
  const ForbiddenHost: set<char> := {' ', '<', '>', '^', '|'}

  /** The path segments of what follows the host: the path runs to a `?` or `#`, and an empty path is `/`. */
  function Segments(tail: string): (r: seq<string>)
    ensures |r| > 0
  {
    var path := tail[..IndexOfAny(tail, {'?', '#'})];
    if path == [] || path[0] != '/' then [""] else Split(path[1..], '/')
  }

  /** `Url::parse` of an `https` URL. */
  function ParseUrl(s: string): (r: Option<Url>)
    ensures r.Some? ==> StartsWith(s, Https) && r.value.host != [] && |r.value.segments| > 0
    ensures r.Some? ==> NoneOf(r.value.host, ForbiddenHost) && ValidPort(PortPart(s[|Https|..]))
  {
    if !StartsWith(s, Https) then None else AfterScheme(s[|Https|..])
  }

  /** What follows `https://`; an empty host, a forbidden host character or an invalid port does not parse. */
  function AfterScheme(rest: string): (r: Option<Url>)
    ensures r.Some? ==> r.value.host != [] && |r.value.segments| > 0
    ensures r.Some? ==> NoneOf(r.value.host, ForbiddenHost) && ValidPort(PortPart(rest))
  {
    var (host, tail) := HostPart(rest);
    if host == [] || !NoneOf(host, ForbiddenHost) || !ValidPort(PortPart(rest)) then None
    else Some(Url(host, Segments(tail)))
  }

  /** A path segment: no `/`, `?` or `#`, nor the `@` that starts a checksum. */
  predicate Plain(s: string) {
    NoneOf(s, {'/', '?', '#'}) && NoneOf(s, {'@'})
  }

  /** A host as the URL parser keeps it: not empty, lower case, with no port and no forbidden character. */
  predicate PlainHost(host: string) {
    host != [] && Plain(host) && NoneOf(host, {':'}) && LowerCase(host) && NoneOf(host, ForbiddenHost)
  }

  lemma HostPartOf(host: string, tail: string)
    requires PlainHost(host)
    requires tail == [] || tail[0] in {'/', '?', '#'}
    ensures HostPart(host + tail) == (host, tail)
    ensures PortPart(host + tail) == []
  {
    IndexOfAnyOf(host, tail, {'/', '?', '#'});
    assert (host + tail)[..|host|] == host;
    IndexOfAnyOf(host, [], {':'});
    assert host + [] == host;
    assert Lower(host) == host;
  }

  /**
   * After a plain host, the text between `:` and the path is the port, and
   * the URL parses exactly when that port is valid.
   */
  lemma PortChecked(host: string, port: string, tail: string)
    requires PlainHost(host) && NoneOf(port, {'/', '?', '#'})
    requires tail == [] || tail[0] in {'/', '?', '#'}
    ensures HostPart(host + ":" + port + tail) == (host, tail)
    ensures PortPart(host + ":" + port + tail) == port
    ensures AfterScheme(host + ":" + port + tail).Some? <==> ValidPort(port)
  {
    var authority := host + ":" + port;
    NoneOfConcat(host, ":", {'/', '?', '#'});
    NoneOfConcat(host + ":", port, {'/', '?', '#'});
    IndexOfAnyOf(authority, tail, {'/', '?', '#'});
    assert (authority + tail)[..|authority|] == authority;
    assert (authority + tail)[|authority|..] == tail;
    IndexOfAnyOf(host, ":" + port, {':'});
    assert authority == host + (":" + port);
    assert authority[..|host|] == host;
    assert authority[|host| + 1..] == port;
    assert Lower(host) == host;
  }

  lemma SegmentsOf(segments: seq<string>)
    requires |segments| > 0
    requires forall i :: 0 <= i < |segments| ==> NoneOf(segments[i], {'/', '?', '#'})
    ensures Segments("/" + Join(segments, '/')) == segments
  {
    var path := Join(segments, '/');
    var tail := "/" + path;
    assert forall i :: 0 <= i < |segments| ==> NoneOf(segments[i], {'?', '#'});
    JoinFree(segments, '/', {'?', '#'});
    NoneOfConcat("/", path, {'?', '#'});
    IndexOfAnyOf(tail, [], {'?', '#'});
    assert tail + [] == tail;
    assert tail[1..] == path;
    assert forall i :: 0 <= i < |segments| ==> NoneOf(segments[i], {'/'});
    SplitJoin(segments, '/');
  }

  /** What follows the scheme is parsed on its own. */
  lemma ParseAfterScheme(rest: string)
    ensures ParseUrl(Https + rest) == AfterScheme(rest)
  {
    assert (Https + rest)[..|Https|] == Https;
    assert (Https + rest)[|Https|..] == rest;
  }

  lemma AfterSchemeOf(host: string, segments: seq<string>)
    requires PlainHost(host) && |segments| > 0
    requires forall i :: 0 <= i < |segments| ==> NoneOf(segments[i], {'/', '?', '#'})
    ensures AfterScheme(host + "/" + Join(segments, '/')) == Some(Url(host, segments))
  {
    var tail := "/" + Join(segments, '/');
    assert host + "/" + Join(segments, '/') == host + tail;
    AfterSchemePlain(host, tail);
    SegmentsOf(segments);
  }

  /** After a plain host with no port, the rest is the path. */
  lemma AfterSchemePlain(host: string, tail: string)
    requires PlainHost(host)
    requires tail == [] || tail[0] in {'/', '?', '#'}
    ensures AfterScheme(host + tail) == Some(Url(host, Segments(tail)))
  {
    HostPartOf(host, tail);
    assert ValidPort(PortPart(host + tail)) by {
      assert PortPart(host + tail) == [];
    }
  }

  /** `https://<host>/<segments joined by '/'>` reads back as that host and those segments. */
  lemma ParseUrlOf(host: string, segments: seq<string>)
    requires PlainHost(host) && |segments| > 0
    requires forall i :: 0 <= i < |segments| ==> NoneOf(segments[i], {'/', '?', '#'})
    ensures ParseUrl(Https + (host + "/" + Join(segments, '/'))) == Some(Url(host, segments))
  {
    ParseAfterScheme(host + "/" + Join(segments, '/'));
    AfterSchemeOf(host, segments);
  }

  // ---------------------------------------------------------------------
  // Targets and addons

  /** `Target::from_str`: an `https` URL must be on github.com; anything else names a LuaCATS addon. */
  function ParseTarget(s: string): (r: Result<Target, SourceError>)
    ensures r == Ok(LuaCats) <==> !StartsWith(s, Https)
  {
    if !StartsWith(s, Https) then Ok(LuaCats)
    else
      match ParseUrl(s)
      case None => Err(Malformed)
      case Some(url) => if url.host == GithubHost then Ok(Github) else Err(Unsupported(url.host))
  }

  /**
   * A string that is not an `https` URL names a LuaCATS addon; an `https`
   * URL names a GitHub addon exactly when it parses with host github.com,
   * and is refused, naming its host, when it parses with another.
   */
  lemma TargetCases(s: string)
    ensures ParseTarget(s) == Ok(Github) <==> ParseUrl(s).Some? && ParseUrl(s).value.host == GithubHost
    ensures ParseTarget(s).Err? <==> StartsWith(s, Https) && (ParseUrl(s).None? || ParseUrl(s).value.host != GithubHost)
    ensures ParseTarget(s).Err? && ParseTarget(s).error.Unsupported? ==> ParseTarget(s).error.host == ParseUrl(s).value.host
  {
  }

  /**
   * After github.com and a `:`, a source names a GitHub addon exactly when
   * the port is valid, and is malformed otherwise.
   */
  lemma GithubPortTarget(port: string, tail: string)
    requires NoneOf(port, {'/', '?', '#'})
    requires tail == [] || tail[0] in {'/', '?', '#'}
    ensures ParseTarget(Https + (GithubHost + ":" + port + tail)) == if ValidPort(port) then Ok(Github) else Err(Malformed)
  {
    if ValidPort(port) {
      GithubPortAccepted(port, tail);
    } else {
      GithubPortRefused(port, tail);
    }
  }

  lemma GithubPortAccepted(port: string, tail: string)
    requires NoneOf(port, {'/', '?', '#'}) && ValidPort(port)
    requires tail == [] || tail[0] in {'/', '?', '#'}
    ensures ParseTarget(Https + (GithubHost + ":" + port + tail)) == Ok(Github)
  {
    assert PlainHost(GithubHost);
    PortChecked(GithubHost, port, tail);
    ParseAfterScheme(GithubHost + ":" + port + tail);
  }

  lemma GithubPortRefused(port: string, tail: string)
    requires NoneOf(port, {'/', '?', '#'}) && !ValidPort(port)
    requires tail == [] || tail[0] in {'/', '?', '#'}
    ensures ParseTarget(Https + (GithubHost + ":" + port + tail)) == Err(Malformed)
  {
    assert PlainHost(GithubHost);
    PortChecked(GithubHost, port, tail);
    ParseAfterScheme(GithubHost + ":" + port + tail);
  }

  /** A host holding a character the URL parser refuses makes the URL malformed. */
  lemma ForbiddenHostMalformed(host: string, tail: string, i: nat)
    requires NoneOf(host, {'/', '?', '#'}) && NoneOf(host, {':'})
    requires i < |host| && host[i] in ForbiddenHost
    requires tail == [] || tail[0] in {'/', '?', '#'}
    ensures ParseTarget(Https + (host + tail)) == Err(Malformed)
  {
    ForbiddenHostRefused(host, tail, i);
    ParseAfterScheme(host + tail);
    assert StartsWith(Https + (host + tail), Https);
  }

  lemma ForbiddenHostRefused(host: string, tail: string, i: nat)
    requires NoneOf(host, {'/', '?', '#'}) && NoneOf(host, {':'})
    requires i < |host| && host[i] in ForbiddenHost
    requires tail == [] || tail[0] in {'/', '?', '#'}
    ensures AfterScheme(host + tail) == None
  {
    HostOfAuthority(host, tail);
    var h := HostPart(host + tail).0;
    assert h[i] == host[i] by {
      assert h == Lower(host);
    }
    assert !NoneOf(h, ForbiddenHost);
  }

  lemma HostOfAuthority(host: string, tail: string)
    requires NoneOf(host, {'/', '?', '#'}) && NoneOf(host, {':'})
    requires tail == [] || tail[0] in {'/', '?', '#'}
    ensures HostPart(host + tail).0 == Lower(host)
  {
    IndexOfAnyOf(host, tail, {'/', '?', '#'});
    assert (host + tail)[..|host|] == host;
    IndexOfAnyOf(host, [], {':'});
    assert host + [] == host;
  }

  /**
   * `Addon::from`: the text after the first `@` is the checksum, the text
   * before it the source, whose target decides where it is cloned from. A
   * new addon never names a branch.
   */
  function ParseAddon(s: string): (r: Result<Addon, SourceError>)
    ensures r.Ok? ==> r.value.branch == None && NoneOf(r.value.src, {'@'})
    ensures r.Ok? ==> (r.value.checksum.None? <==> NoneOf(s, {'@'}))
    ensures r.Ok? && r.value.checksum.None? ==> r.value.src == s
    ensures r.Ok? && r.value.checksum.Some? ==> s == r.value.src + "@" + r.value.checksum.value
  {
    var (src, checksum) := match SplitOnce(s, '@')
      case None => (s, None)
      case Some((before, after)) => (before, Some(after));
    match ParseTarget(src)
    case Err(e) => Err(e)
    case Ok(target) => Ok(Addon(src, checksum, None, target))
  }

  /** The source string of a name with an optional checksum. */
  function Source(src: string, checksum: Option<string>): string {
    match checksum
    case None => src
    case Some(c) => src + "@" + c
  }

  /** Reading a source splits off the checksum, and the rest decides the target. */
  lemma ParseSource(src: string, checksum: Option<string>)
    requires NoneOf(src, {'@'})
    ensures ParseAddon(Source(src, checksum))
            == match ParseTarget(src)
               case Ok(t) => Ok(Addon(src, checksum, None, t))
               case Err(e) => Err(e)
  {
    var s := Source(src, checksum);
    if checksum.Some? {
      assert s == src + (['@'] + checksum.value);
      IndexOfAnyOf(src, ['@'] + checksum.value, {'@'});
      assert s[..|src|] == src && s[|src| + 1..] == checksum.value;
    } else {
      assert SplitOnce(s, '@').None?;
    }
  }

  /**
   * `Addon::name`, the key the addon is locked under: the source itself for
   * LuaCATS, the repository (second path segment) for a GitHub URL. A GitHub
   * source that is not such a URL has no name: the program panics.
   */
  function Name(a: Addon): (r: Option<string>)
    ensures a.target == LuaCats ==> r == Some(a.src)
    ensures a.target == Github ==> (r.Some? <==> ParseUrl(a.src).Some? && |ParseUrl(a.src).value.segments| >= 2)
  {
    match a.target
    case LuaCats => Some(a.src)
    case Github =>
      match ParseUrl(a.src)
      case None => None
      case Some(url) => if |url.segments| < 2 then None else Some(url.segments[1])
  }

  /** `https://<host>/<owner>/<repo>`. */
  function RepoUrl(host: string, owner: string, repo: string): string {
    Https + (host + "/" + owner + "/" + repo)
  }

  /** `Addon::clone_url`: a LuaCATS addon lives under github.com/LuaCATS; a GitHub source is its own URL. */
  function CloneUrl(a: Addon): (r: string)
    ensures a.target == Github ==> r == a.src
  {
    match a.target
    case LuaCats => RepoUrl(GithubHost, "LuaCATS", a.src + ".git")
    case Github => a.src
  }

  /**
   * A repository URL names a GitHub addon exactly when its host is
   * github.com, and is otherwise refused naming its host; as a GitHub
   * source it is locked under the repository's name.
   */
  lemma RepoUrlTarget(host: string, owner: string, repo: string)
    requires PlainHost(host) && Plain(owner) && Plain(repo)
    ensures ParseTarget(RepoUrl(host, owner, repo))
            == if host == GithubHost then Ok(Github) else Err(Unsupported(host))
    ensures Name(Addon(RepoUrl(host, owner, repo), None, None, Github)) == Some(repo)
    ensures NoneOf(RepoUrl(host, owner, repo), {'@'})
  {
    RepoUrlParts(host, owner, repo);
    RepoUrlFree(host, owner, repo);
  }

  lemma RepoUrlParts(host: string, owner: string, repo: string)
    requires PlainHost(host) && Plain(owner) && Plain(repo)
    ensures ParseUrl(RepoUrl(host, owner, repo)) == Some(Url(host, [owner, repo]))
  {
    var segments := [owner, repo];
    assert Join(segments, '/') == owner + "/" + repo by {
      assert Join(segments[1..], '/') == repo;
    }
    assert host + "/" + owner + "/" + repo == host + "/" + Join(segments, '/');
    ParseUrlOf(host, segments);
  }

  lemma RepoUrlFree(host: string, owner: string, repo: string)
    requires Plain(host) && Plain(owner) && Plain(repo)
    ensures NoneOf(RepoUrl(host, owner, repo), {'@'})
  {
    var slash := "/";
    assert NoneOf(slash, {'@'});
    NoneOfConcat(host, slash, {'@'});
    NoneOfConcat(host + slash, owner, {'@'});
    NoneOfConcat(host + slash + owner, slash, {'@'});
    NoneOfConcat(host + slash + owner + slash, repo, {'@'});
    assert NoneOf(Https, {'@'});
    NoneOfConcat(Https, host + slash + owner + slash + repo, {'@'});
  }

  /**
   * The clone URL of a LuaCATS addon whose name is a plain path segment is
   * itself a valid GitHub source, locked under the addon's name with `.git`
   * appended.
   */
  lemma CloneUrlIsGithub(a: Addon)
    requires a.target == LuaCats && Plain(a.src)
    ensures ParseAddon(CloneUrl(a)) == Ok(Addon(CloneUrl(a), None, None, Github))
    ensures Name(Addon(CloneUrl(a), None, None, Github)) == Some(a.src + ".git")
  {
    var repo := a.src + ".git";
    assert Plain(".git");
    NoneOfConcat(a.src, ".git", {'/', '?', '#'});
    NoneOfConcat(a.src, ".git", {'@'});
    assert PlainHost(GithubHost);
    assert Plain("LuaCATS");
    RepoUrlTarget(GithubHost, "LuaCATS", repo);
    ParseSource(CloneUrl(a), None);
  }

  /** The program's own examples of LuaCATS names, with and without a checksum. */
  lemma LuaCatsExamples()
    ensures ParseAddon("love2d") == Ok(Addon("love2d", None, None, LuaCats))
    ensures ParseAddon("love2d" + "@" + "1234") == Ok(Addon("love2d", Some("1234"), None, LuaCats))
  {
    assert NoneOf("love2d", {'@'});
    ParseSource("love2d", None);
    ParseSource("love2d", Some("1234"));
  }

  /** The program's own examples of GitHub URLs, with and without a checksum. */
  lemma GithubExamples()
    ensures ParseAddon(RepoUrl(GithubHost, "LuaCATS", "love2d"))
            == Ok(Addon(RepoUrl(GithubHost, "LuaCATS", "love2d"), None, None, Github))
    ensures ParseAddon(RepoUrl(GithubHost, "LuaCATS", "love2d") + "@" + "1234567678")
            == Ok(Addon(RepoUrl(GithubHost, "LuaCATS", "love2d"), Some("1234567678"), None, Github))
  {
    assert Plain("LuaCATS") && Plain("love2d");
    assert PlainHost(GithubHost);
    RepoUrlTarget(GithubHost, "LuaCATS", "love2d");
    ParseSource(RepoUrl(GithubHost, "LuaCATS", "love2d"), None);
    ParseSource(RepoUrl(GithubHost, "LuaCATS", "love2d"), Some("1234567678"));
  }

  /** The program's own example of a URL on a host other than github.com, which is refused. */
  lemma ForeignHostExample()
    ensures ParseAddon(RepoUrl("example.com", "LuaCATS", "love2d") + "@" + "1234") == Err(Unsupported("example.com"))
  {
    assert Plain("LuaCATS") && Plain("love2d");
    assert PlainHost("example.com");
    RepoUrlTarget("example.com", "LuaCATS", "love2d");
    ParseSource(RepoUrl("example.com", "LuaCATS", "love2d"), Some("1234"));
  }

  // ---------------------------------------------------------------------
  // Merging

  /**
   * `Addon::merge`: take `other`'s source and target, and its branch and
   * checksum when it has them; report whether anything was taken over that
   * might differ.
   */
  method Merge(a: Addon, other: Addon) returns (merged: Addon, diff: bool)
    ensures merged == Merged(a, other) && diff == Changed(a, other)
  {
    diff := a.src != other.src || a.target != other.target;
    merged := a.(src := other.src, target := other.target);
    if other.branch.Some? {
      merged := merged.(branch := Some(other.branch.value));
      diff := true;
    }
    if other.checksum.Some? {
      merged := merged.(checksum := Some(other.checksum.value));
      diff := true;
    }
  }

  /** The addon after merging `other` into `a`. */
  function Merged(a: Addon, other: Addon): (m: Addon)
    ensures m.src == other.src && m.target == other.target
    ensures m.branch == (if other.branch.Some? then other.branch else a.branch)
    ensures m.checksum == (if other.checksum.Some? then other.checksum else a.checksum)
  {
    Addon(other.src,
          if other.checksum.Some? then other.checksum else a.checksum,
          if other.branch.Some? then other.branch else a.branch,
          other.target)
  }

  /** What `merge` reports: a different source or target, or any branch or checksum in `other`. */
  predicate Changed(a: Addon, other: Addon) {
    a.src != other.src || a.target != other.target || other.branch.Some? || other.checksum.Some?
  }

  /**
   * Every real change is reported, and merging the same addon twice
   * changes nothing the second time; yet a second merge of an addon with a
   * branch or checksum is still reported as a change.
   */
  lemma MergeReports(a: Addon, other: Addon)
    ensures Merged(a, other) != a ==> Changed(a, other)
    ensures Merged(Merged(a, other), other) == Merged(a, other)
    ensures Changed(Merged(a, other), other) <==> other.branch.Some? || other.checksum.Some?
  {
  }

  /** An addon without branch or checksum, merged into one with the same source and target, changes nothing and is reported as no change. */
  lemma MergeSameSource(a: Addon, other: Addon)
    requires other.src == a.src && other.target == a.target && other.branch.None? && other.checksum.None?
    ensures Merged(a, other) == a && !Changed(a, other)
  {
  }
}

=== FILE: archive.dfy ===
/**
 * The zip writer of the build pipeline (`Archive`): entries are named by
 * their path relative to a prefix and written while walking a directory.
 * An archive is modelled as its sequence of entries; the zip byte layout
 * is a parameter `encode` applied when the archive is finished.
 */
module Archives {
  import opened Wrappers
  import opened Fs

  datatype Compression = Stored | Deflated

  datatype EntryOptions = EntryOptions(compression: Compression, unixMode: nat)

  /** Every entry is written Deflated with permissions 0o755. */
  const EntryDefaults := EntryOptions(Deflated, 0x1ED)

  datatype EntryKind = DirEntry | FileEntry(data: seq<Byte>)

  datatype ZipEntry = ZipEntry(name: string, kind: EntryKind, options: EntryOptions)

  datatype ArchiveError = Io(e: IoError) | NonUtf8(rel: seq<OsName>)

  /** What an archive being written is set up with: the prefix names are relative to, its own path, and the separator of the host. */
  datatype Layout = Layout(prefix: Path, path: Path, sep: char)

  /** A relative path as text, its components joined by `sep`; None when a component is not valid UTF-8. */
  function JoinNames(rel: seq<OsName>, sep: char): (r: Option<string>)
    ensures r.Some? <==> forall i :: 0 <= i < |rel| ==> rel[i].Text?
    ensures r.Some? && |rel| == 1 ==> r.value == rel[0].text
    decreases |rel|
  {
    if rel == [] then Some("")
    else if rel[0].Raw? then None
    else if |rel| == 1 then Some(rel[0].text)
    else
      assert forall i :: 1 <= i < |rel| ==> rel[i] == rel[1..][i - 1];
      match JoinNames(rel[1..], sep)
      case None => None
      case Some(rest) => Some(rel[0].text + [sep] + rest)
  }

  /** `strip_prefix` then `to_str`: the entry name of `q`. */
  function RelName(w: Layout, q: Path): Option<string>
    requires IsPrefix(w.prefix, q)
  {
    JoinNames(q[|w.prefix|..], w.sep)
  }

  lemma PrefixThroughChild(prefix: Path, dir: Path, c: Path)
    requires IsPrefix(prefix, dir) && |c| > |dir| && c[..|dir|] == dir
    ensures IsPrefix(prefix, c)
  {
    assert c[..|prefix|] == c[..|dir|][..|prefix|];
  }

  /** The entries of a child lie strictly within those of its parent. */
  lemma BelowShrinks(fs: FsState, dir: Path, c: Path)
    requires c in Children(fs, dir)
    ensures Below(fs, c) < Below(fs, dir)
  {
    forall q | q in Below(fs, c) ensures q in Below(fs, dir) {
      assert q[..|dir|] == q[..|c|][..|dir|];
    }
    assert c in Below(fs, dir) && c !in Below(fs, c);
  }

  /**
   * `add_dir(dir, recursive)`: the entries written, in the order `read_dir`
   * lists them. The archive's own file is skipped; a file becomes a file
   * entry with its whole content; a directory becomes a directory entry
   * followed, when `recursive`, by the entries of its own walk. A name that
   * is not UTF-8 aborts the walk, as does a `dir` that is not a directory.
   */
  function Walk(fs: FsState, ls: Lister, w: Layout, dir: Path, recursive: bool): (r: Result<seq<ZipEntry>, ArchiveError>)
    requires Wf(fs) && IsPrefix(w.prefix, dir)
    ensures r.Ok? ==> IsDir(fs, dir)
    decreases Below(fs, dir), 1
  {
    if !IsDir(fs, dir) then Err(Io(if Exists(fs, dir) then NotADirectory else NotFound))
    else WalkList(fs, ls, w, dir, recursive, ReadDir(fs, ls, dir))
  }

  /**
   * The pieces of the listed entries `todo`, in order. The first entry that
   * fails ends the walk with its error, and no listing means no entries.
   */
  function WalkList(fs: FsState, ls: Lister, w: Layout, dir: Path, recursive: bool, todo: seq<Path>): (r: Result<seq<ZipEntry>, ArchiveError>)
    requires Wf(fs) && IsPrefix(w.prefix, dir)
    requires forall i :: 0 <= i < |todo| ==> todo[i] in Children(fs, dir)
    ensures todo == [] ==> r == Ok([])
    ensures todo != [] && Piece(fs, ls, w, dir, recursive, todo[0]).Err? ==> r == Piece(fs, ls, w, dir, recursive, todo[0])
    decreases Below(fs, dir), 0, |todo|
  {
    if todo == [] then Ok([])
    else Chain(Piece(fs, ls, w, dir, recursive, todo[0]), WalkList(fs, ls, w, dir, recursive, todo[1..]))
  }

  /**
   * What one listed entry `c` of `dir` contributes to a walk: nothing for
   * the archive itself, one entry for a file or for a directory when the
   * walk is flat, and for a directory of a recursive walk its entry
   * followed by its own walk.
   */
  function Piece(fs: FsState, ls: Lister, w: Layout, dir: Path, recursive: bool, c: Path): Result<seq<ZipEntry>, ArchiveError>
    requires Wf(fs) && IsPrefix(w.prefix, dir) && c in Children(fs, dir)
    decreases Below(fs, dir), 0, 0
  {
    PrefixThroughChild(w.prefix, dir, c);
    if c == w.path then Ok([])
    else
      match RelName(w, c)
      case None => Err(NonUtf8(c[|w.prefix|..]))
      case Some(name) =>
        if fs[c].File? then Ok([ZipEntry(name, FileEntry(fs[c].data), EntryDefaults)])
        else if !recursive then Ok([ZipEntry(name, DirEntry, EntryDefaults)])
        else
          BelowShrinks(fs, dir, c);
          match Walk(fs, ls, w, c, true)
          case Err(e) => Err(e)
          case Ok(sub) => Ok([ZipEntry(name, DirEntry, EntryDefaults)] + sub)
  }

  /** A piece followed by the rest of the walk; an error in the piece ends the walk. */
  function Chain(piece: Result<seq<ZipEntry>, ArchiveError>, rest: Result<seq<ZipEntry>, ArchiveError>): Result<seq<ZipEntry>, ArchiveError> {
    match piece
    case Err(e) => Err(e)
    case Ok(p) => After(p, rest)
  }

  /** `Ok(prior + m)` for `Ok(m)`; an error stays as it is. */
  function After(prior: seq<ZipEntry>, r: Result<seq<ZipEntry>, ArchiveError>): Result<seq<ZipEntry>, ArchiveError> {
    match r
    case Ok(m) => Ok(prior + m)
    case Err(e) => Err(e)
  }

  lemma AfterNothing(r: Result<seq<ZipEntry>, ArchiveError>)
    ensures After([], r) == r
  {
    if r.Ok? {
      assert [] + r.value == r.value;
    }
  }

  lemma AfterAfter(a: seq<ZipEntry>, b: seq<ZipEntry>, r: Result<seq<ZipEntry>, ArchiveError>)
    ensures After(a, After(b, r)) == After(a + b, r)
  {
    if r.Ok? {
      assert a + (b + r.value) == a + b + r.value;
    }
  }

  // ---------------------------------------------------------------------
  // What a walk collects, independent of the listing order
  // ---------------------------------------------------------------------

  /**
   * The paths a walk of `dir` reaches: those below it (only its direct
   * entries unless `recursive`), except the archive's own path and, when
   * that path lies below `dir`, everything under it.
   */
  function Emitted(fs: FsState, w: Layout, dir: Path, recursive: bool): set<Path> {
    set q | q in fs && |q| > |dir| && q[..|dir|] == dir && (recursive || |q| == |dir| + 1)
              && !(|dir| < |w.path| <= |q| && q[..|w.path|] == w.path)
  }

  /** The entry written for `q`: its relative name, and its content when it is a file. */
  function EntryFor(fs: FsState, w: Layout, q: Path): ZipEntry {
    var name := if IsPrefix(w.prefix, q) && RelName(w, q).Some? then RelName(w, q).value else "";
    ZipEntry(name, if q in fs && fs[q].File? then FileEntry(fs[q].data) else DirEntry, EntryDefaults)
  }

  function EntriesFor(fs: FsState, w: Layout, s: set<Path>): set<ZipEntry> {
    set q | q in s :: EntryFor(fs, w, q)
  }

  predicate NamesOk(w: Layout, s: set<Path>) {
    forall q :: q in s ==> IsPrefix(w.prefix, q) && RelName(w, q).Some?
  }

  function Elems(s: seq<ZipEntry>): set<ZipEntry> {
    set e | e in s
  }

  /** The reached paths that lie under one of the listed entries of `dir`. */
  function Reach(fs: FsState, w: Layout, dir: Path, recursive: bool, todo: seq<Path>): set<Path> {
    set q | q in Emitted(fs, w, dir, recursive) && q[..|dir| + 1] in todo
  }

  function Part(fs: FsState, w: Layout, dir: Path, recursive: bool, c: Path): set<Path> {
    set q | q in Emitted(fs, w, dir, recursive) && q[..|dir| + 1] == c
  }

  lemma ReachSplit(fs: FsState, w: Layout, dir: Path, recursive: bool, todo: seq<Path>)
    requires todo != []
    ensures Reach(fs, w, dir, recursive, todo)
            == Part(fs, w, dir, recursive, todo[0]) + Reach(fs, w, dir, recursive, todo[1..])
  {
    assert forall x :: x in todo <==> x == todo[0] || x in todo[1..];
  }

  lemma EntriesUnion(fs: FsState, w: Layout, a: set<Path>, b: set<Path>)
    ensures EntriesFor(fs, w, a + b) == EntriesFor(fs, w, a) + EntriesFor(fs, w, b)
  {
  }

  lemma NamesOkUnion(w: Layout, a: set<Path>, b: set<Path>)
    ensures NamesOk(w, a + b) <==> NamesOk(w, a) && NamesOk(w, b)
  {
  }

  /** Skipping the archive's own path skips nothing else: it has no entries under it. */
  lemma ArchivePart(fs: FsState, w: Layout, dir: Path, recursive: bool)
    requires |w.path| == |dir| + 1
    ensures Part(fs, w, dir, recursive, w.path) == {}
  {
  }

  /** A file of `dir` is reached alone. */
  lemma FilePart(fs: FsState, w: Layout, dir: Path, recursive: bool, c: Path)
    requires Wf(fs) && c in Children(fs, dir) && c != w.path && fs[c].File?
    ensures Part(fs, w, dir, recursive, c) == {c}
  {
    forall q | q in Part(fs, w, dir, recursive, c) ensures q == c {
      if |q| > |c| {
        AncestorIsDir(fs, q, |c|);
      }
    }
  }

  /** Without recursion, a directory of `dir` is reached alone. */
  lemma FlatPart(fs: FsState, w: Layout, dir: Path, c: Path)
    requires c in Children(fs, dir) && c != w.path
    ensures Part(fs, w, dir, false, c) == {c}
  {
    assert c[..|dir| + 1] == c;
    forall q | q in Part(fs, w, dir, false, c) ensures q == c {
      assert q == q[..|dir| + 1];
    }
  }

  /** With recursion, a directory of `dir` is reached together with its own walk. */
  lemma DeepPart(fs: FsState, w: Layout, dir: Path, c: Path)
    requires c in Children(fs, dir) && c != w.path
    ensures Part(fs, w, dir, true, c) == {c} + Emitted(fs, w, c, true)
  {
    forall q | q in Part(fs, w, dir, true, c) && q != c ensures q in Emitted(fs, w, c, true) {
      assert q[..|c|] == q[..|dir| + 1];
    }
    forall q | q in Emitted(fs, w, c, true) ensures q in Part(fs, w, dir, true, c) {
      assert q[..|dir|] == q[..|c|][..|dir|];
      assert q[..|dir| + 1] == q[..|c|];
      assert !(|dir| < |w.path| <= |q| && q[..|w.path|] == w.path) by {
        if |w.path| == |c| {
          assert q[..|w.path|] == c;
        }
      }
    }
  }

  /**
   * A walk succeeds exactly when `dir` is a directory and every reached
   * name is UTF-8, and then writes an entry for every reached path and for
   * no other path: each file with its content, each directory as a directory entry, named relative
   * to the prefix. The archive's own path is never among them.
   */
  lemma {:induction false} WalkCollects(fs: FsState, ls: Lister, w: Layout, dir: Path, recursive: bool)
    requires Wf(fs) && ListsChildren(ls) && IsPrefix(w.prefix, dir)
    ensures w.path !in Emitted(fs, w, dir, recursive)
    ensures Walk(fs, ls, w, dir, recursive).Ok? <==> IsDir(fs, dir) && NamesOk(w, Emitted(fs, w, dir, recursive))
    ensures Walk(fs, ls, w, dir, recursive).Ok?
            ==> Elems(Walk(fs, ls, w, dir, recursive).value) == EntriesFor(fs, w, Emitted(fs, w, dir, recursive))
    decreases Below(fs, dir), 1
  {
    if IsDir(fs, dir) {
      var todo := ReadDir(fs, ls, dir);
      ReadDirLists(fs, ls, dir);
      WalkListCollects(fs, ls, w, dir, recursive, todo);
      ListingReachesAll(fs, ls, w, dir, recursive);
    }
  }

  /** Listing a directory reaches every path a walk of it emits. */
  lemma ListingReachesAll(fs: FsState, ls: Lister, w: Layout, dir: Path, recursive: bool)
    requires Wf(fs) && ListsChildren(ls) && IsPrefix(w.prefix, dir) && IsDir(fs, dir)
    ensures forall i :: 0 <= i < |ReadDir(fs, ls, dir)| ==> ReadDir(fs, ls, dir)[i] in Children(fs, dir)
    ensures Reach(fs, w, dir, recursive, ReadDir(fs, ls, dir)) == Emitted(fs, w, dir, recursive)
  {
    var todo := ReadDir(fs, ls, dir);
    ReadDirLists(fs, ls, dir);
    forall q | q in Emitted(fs, w, dir, recursive) ensures q[..|dir| + 1] in todo {
      assert q[..|dir| + 1] in Children(fs, dir) by {
        if |q| > |dir| + 1 {
          AncestorIsDir(fs, q, |dir| + 1);
        } else {
          assert q[..|dir| + 1] == q;
        }
        assert q[..|dir| + 1][..|dir|] == dir;
      }
    }
  }

  /** What `WalkListCollects` states about one listing. */
  predicate ListCollects(fs: FsState, ls: Lister, w: Layout, dir: Path, recursive: bool, todo: seq<Path>)
    requires Wf(fs) && IsPrefix(w.prefix, dir)
    requires forall i :: 0 <= i < |todo| ==> todo[i] in Children(fs, dir)
  {
    && (WalkList(fs, ls, w, dir, recursive, todo).Ok? <==> NamesOk(w, Reach(fs, w, dir, recursive, todo)))
    && (WalkList(fs, ls, w, dir, recursive, todo).Ok?
        ==> Elems(WalkList(fs, ls, w, dir, recursive, todo).value) == EntriesFor(fs, w, Reach(fs, w, dir, recursive, todo)))
  }

  lemma ElemsConcat(a: seq<ZipEntry>, b: seq<ZipEntry>)
    ensures Elems(a + b) == Elems(a) + Elems(b)
  {
    assert forall e :: e in a + b <==> e in a || e in b;
  }

  lemma {:induction false} WalkListCollects(fs: FsState, ls: Lister, w: Layout, dir: Path, recursive: bool, todo: seq<Path>)
    requires Wf(fs) && ListsChildren(ls) && IsPrefix(w.prefix, dir)
    requires forall i :: 0 <= i < |todo| ==> todo[i] in Children(fs, dir)
    ensures ListCollects(fs, ls, w, dir, recursive, todo)
    decreases Below(fs, dir), 0, |todo|
  {
    if todo == [] {
      assert Reach(fs, w, dir, recursive, todo) == {};
    } else {
      var c := todo[0];
      assert c in Children(fs, dir);
      WalkListCollects(fs, ls, w, dir, recursive, todo[1..]);
      ReachSplit(fs, w, dir, recursive, todo);
      if c == w.path {
        ArchivePart(fs, w, dir, recursive);
        StepArchive(fs, ls, w, dir, recursive, todo);
      } else {
        PrefixThroughChild(w.prefix, dir, c);
        if RelName(w, c).None? {
          StepBadName(fs, ls, w, dir, recursive, todo);
        } else if fs[c].File? {
          FilePart(fs, w, dir, recursive, c);
          StepEntry(fs, ls, w, dir, recursive, todo, []);
        } else if recursive {
          BelowShrinks(fs, dir, c);
          WalkCollects(fs, ls, w, c, true);
          DeepPart(fs, w, dir, c);
          StepDeep(fs, ls, w, dir, todo);
        } else {
          FlatPart(fs, w, dir, c);
          StepEntry(fs, ls, w, dir, recursive, todo, []);
        }
      }
    }
  }

  /** The archive file itself is skipped and reaches nothing. */
  lemma StepArchive(fs: FsState, ls: Lister, w: Layout, dir: Path, recursive: bool, todo: seq<Path>)
    requires Wf(fs) && IsPrefix(w.prefix, dir)
    requires forall i :: 0 <= i < |todo| ==> todo[i] in Children(fs, dir)
    requires todo != [] && todo[0] == w.path
    requires Reach(fs, w, dir, recursive, todo) == Reach(fs, w, dir, recursive, todo[1..])
    requires ListCollects(fs, ls, w, dir, recursive, todo[1..])
    ensures ListCollects(fs, ls, w, dir, recursive, todo)
  {
    var rest := WalkList(fs, ls, w, dir, recursive, todo[1..]);
    assert Piece(fs, ls, w, dir, recursive, todo[0]) == Ok([]);
    assert WalkList(fs, ls, w, dir, recursive, todo) == After([], rest);
    AfterNothing(rest);
  }

  /** A name that is not UTF-8 stops the walk, and it is a reached name. */
  lemma StepBadName(fs: FsState, ls: Lister, w: Layout, dir: Path, recursive: bool, todo: seq<Path>)
    requires Wf(fs) && IsPrefix(w.prefix, dir)
    requires forall i :: 0 <= i < |todo| ==> todo[i] in Children(fs, dir)
    requires todo != [] && todo[0] != w.path && IsPrefix(w.prefix, todo[0]) && RelName(w, todo[0]).None?
    ensures ListCollects(fs, ls, w, dir, recursive, todo)
  {
    var c := todo[0];
    assert c in Children(fs, dir);
    assert c[..|dir| + 1] == c;
    assert c in Reach(fs, w, dir, recursive, todo);
  }

  /**
   * One listed entry that is reached alone (a file, or a directory when the
   * walk is flat) is written as its one entry in front of the rest.
   */
  lemma StepEntry(fs: FsState, ls: Lister, w: Layout, dir: Path, recursive: bool, todo: seq<Path>, sub: seq<ZipEntry>)
    requires Wf(fs) && IsPrefix(w.prefix, dir)
    requires forall i :: 0 <= i < |todo| ==> todo[i] in Children(fs, dir)
    requires todo != [] && todo[0] != w.path && IsPrefix(w.prefix, todo[0]) && RelName(w, todo[0]).Some?
    requires todo[0] in fs && (fs[todo[0]].File? || !recursive)
    requires Part(fs, w, dir, recursive, todo[0]) == {todo[0]}
    requires Reach(fs, w, dir, recursive, todo) == {todo[0]} + Reach(fs, w, dir, recursive, todo[1..])
    requires ListCollects(fs, ls, w, dir, recursive, todo[1..])
    ensures ListCollects(fs, ls, w, dir, recursive, todo)
  {
    var c := todo[0];
    var e := EntryFor(fs, w, c);
    var rest := WalkList(fs, ls, w, dir, recursive, todo[1..]);
    EntriesUnion(fs, w, {c}, Reach(fs, w, dir, recursive, todo[1..]));
    assert Piece(fs, ls, w, dir, recursive, c) == Ok([e]);
    assert WalkList(fs, ls, w, dir, recursive, todo) == Chain(Ok([e]), rest);
    if rest.Ok? {
      ElemsConcat([e], rest.value);
    }
  }

  /** A directory of a recursive walk is written as its entry, then its own walk, then the rest. */
  lemma StepDeep(fs: FsState, ls: Lister, w: Layout, dir: Path, todo: seq<Path>)
    requires Wf(fs) && IsPrefix(w.prefix, dir)
    requires forall i :: 0 <= i < |todo| ==> todo[i] in Children(fs, dir)
    requires todo != [] && todo[0] != w.path && IsPrefix(w.prefix, todo[0]) && RelName(w, todo[0]).Some?
    requires todo[0] in fs && fs[todo[0]].Dir?
    requires Part(fs, w, dir, true, todo[0]) == {todo[0]} + Emitted(fs, w, todo[0], true)
    requires Reach(fs, w, dir, true, todo) == Part(fs, w, dir, true, todo[0]) + Reach(fs, w, dir, true, todo[1..])
    requires ListCollects(fs, ls, w, dir, true, todo[1..])
    requires Walk(fs, ls, w, todo[0], true).Ok? <==> IsDir(fs, todo[0]) && NamesOk(w, Emitted(fs, w, todo[0], true))
    requires Walk(fs, ls, w, todo[0], true).Ok?
             ==> Elems(Walk(fs, ls, w, todo[0], true).value) == EntriesFor(fs, w, Emitted(fs, w, todo[0], true))
    ensures ListCollects(fs, ls, w, dir, true, todo)
  {
    var c := todo[0];
    var e := EntryFor(fs, w, c);
    var inner := Walk(fs, ls, w, c, true);
    var rest := WalkList(fs, ls, w, dir, true, todo[1..]);
    EntriesUnion(fs, w, {c} + Emitted(fs, w, c, true), Reach(fs, w, dir, true, todo[1..]));
    EntriesUnion(fs, w, {c}, Emitted(fs, w, c, true));
    NamesOkUnion(w, {c} + Emitted(fs, w, c, true), Reach(fs, w, dir, true, todo[1..]));
    NamesOkUnion(w, {c}, Emitted(fs, w, c, true));
    assert WalkList(fs, ls, w, dir, true, todo) == Chain(Piece(fs, ls, w, dir, true, c), rest);
    if inner.Err? {
      assert Piece(fs, ls, w, dir, true, c).Err?;
    } else {
      assert Piece(fs, ls, w, dir, true, c) == Ok([e] + inner.value);
      if rest.Ok? {
        assert WalkList(fs, ls, w, dir, true, todo).value == [e] + inner.value + rest.value;
        ElemsConcat([e] + inner.value, rest.value);
        ElemsConcat([e], inner.value);
      }
    }
  }

  // ---------------------------------------------------------------------
  // The writer
  // ---------------------------------------------------------------------

  /** After one listed entry's piece is written, the walk goes on with the next. */
  lemma AdvanceWalk(fs: FsState, ls: Lister, w: Layout, dir: Path, recursive: bool, todo: seq<Path>, i: nat, done: seq<ZipEntry>)
    requires Wf(fs) && IsPrefix(w.prefix, dir)
    requires forall j :: 0 <= j < |todo| ==> todo[j] in Children(fs, dir)
    requires i < |todo| && Piece(fs, ls, w, dir, recursive, todo[i]).Ok?
    ensures After(done, WalkList(fs, ls, w, dir, recursive, todo[i..]))
            == After(done + Piece(fs, ls, w, dir, recursive, todo[i]).value, WalkList(fs, ls, w, dir, recursive, todo[i + 1..]))
  {
    assert todo[i..][1..] == todo[i + 1..];
    assert todo[i..][0] == todo[i];
    AfterAfter(done, Piece(fs, ls, w, dir, recursive, todo[i]).value, WalkList(fs, ls, w, dir, recursive, todo[i + 1..]));
  }

  /** An error in one listed entry's piece is the error of the whole walk. */
  lemma StopWalk(fs: FsState, ls: Lister, w: Layout, dir: Path, recursive: bool, todo: seq<Path>, i: nat, done: seq<ZipEntry>)
    requires Wf(fs) && IsPrefix(w.prefix, dir)
    requires forall j :: 0 <= j < |todo| ==> todo[j] in Children(fs, dir)
    requires i < |todo| && Piece(fs, ls, w, dir, recursive, todo[i]).Err?
    ensures After(done, WalkList(fs, ls, w, dir, recursive, todo[i..])) == Err(Piece(fs, ls, w, dir, recursive, todo[i]).error)
  {
    assert todo[i..][1..] == todo[i + 1..];
    assert todo[i..][0] == todo[i];
  }

  class Archive {
    const layout: Layout
    var entries: seq<ZipEntry>

    constructor (prefix: Path, path: Path, sep: char)
      ensures layout == Layout(prefix, path, sep) && entries == []
    {
      layout := Layout(prefix, path, sep);
      entries := [];
    }

    /**
     * `add_file`: one file entry holding the whole content of `file`. The
     * entry is started before the file is read, so a failed read leaves it
     * in the archive, empty.
     */
    method AddFile(fs: FsState, file: Path) returns (r: Outcome<ArchiveError>)
      requires IsPrefix(layout.prefix, file)
      modifies this
      ensures r.Pass? <==> RelName(layout, file).Some? && IsFile(fs, file)
      ensures r.Pass? ==> entries == old(entries) + [EntryFor(fs, layout, file)]
      ensures r.Fail? && RelName(layout, file).None? ==> entries == old(entries)
      ensures r.Fail? && RelName(layout, file).Some? ==>
                entries == old(entries) + [ZipEntry(RelName(layout, file).value, FileEntry([]), EntryDefaults)]
    {
      var name := RelName(layout, file);
      if name.None? {
        return Fail(NonUtf8(file[|layout.prefix|..]));
      }
      var before := entries;
      entries := entries + [ZipEntry(name.value, FileEntry([]), EntryDefaults)];
      var data := ReadFile(fs, file);
      if data.Err? {
        return Fail(Io(data.error));
      }
      entries := before + [ZipEntry(name.value, FileEntry(data.value), EntryDefaults)];
      r := Pass;
    }

    /** `add_dir`: the walk of `dir`, one listed entry at a time. */
    method AddDir(fs: FsState, ls: Lister, dir: Path, recursive: bool) returns (r: Outcome<ArchiveError>)
      requires Wf(fs) && IsPrefix(layout.prefix, dir)
      modifies this
      decreases Below(fs, dir), 2
      ensures r.Pass? <==> Walk(fs, ls, layout, dir, recursive).Ok?
      ensures r.Pass? ==> entries == old(entries) + Walk(fs, ls, layout, dir, recursive).value
      ensures r.Fail? ==> r.error == Walk(fs, ls, layout, dir, recursive).error
    {
      if !IsDir(fs, dir) {
        return Fail(Io(if Exists(fs, dir) then NotADirectory else NotFound));
      }
      r := AddListing(fs, ls, dir, recursive, ReadDir(fs, ls, dir));
    }

    /** The loop of `add_dir` over the listed entries `todo` of `dir`. */
    method AddListing(fs: FsState, ls: Lister, dir: Path, recursive: bool, todo: seq<Path>) returns (r: Outcome<ArchiveError>)
      requires Wf(fs) && IsPrefix(layout.prefix, dir)
      requires forall j :: 0 <= j < |todo| ==> todo[j] in Children(fs, dir)
      modifies this
      decreases Below(fs, dir), 1
      ensures r.Pass? <==> WalkList(fs, ls, layout, dir, recursive, todo).Ok?
      ensures r.Pass? ==> entries == old(entries) + WalkList(fs, ls, layout, dir, recursive, todo).value
      ensures r.Fail? ==> r.error == WalkList(fs, ls, layout, dir, recursive, todo).error
    {
      ghost var whole := WalkList(fs, ls, layout, dir, recursive, todo);
      ghost var done: seq<ZipEntry> := [];
      ghost var before := entries;
      assert todo[0..] == todo;
      AfterNothing(whole);
      var i := 0;
      while i < |todo|
        invariant 0 <= i <= |todo|
        invariant entries == before + done
        invariant whole == After(done, WalkList(fs, ls, layout, dir, recursive, todo[i..]))
      {
        r, done := AddListedAt(fs, ls, dir, recursive, todo, i, before, done);
        if r.Fail? {
          return;
        }
        i := i + 1;
      }
      assert todo[i..] == [];
      assert WalkList(fs, ls, layout, dir, recursive, todo[i..]) == Ok([]);
      assert done + [] == done;
      r := Pass;
    }

    /** One turn of `add_dir`'s loop: the `i`-th listed entry, after the entries `done` of the earlier ones. */
    method AddListedAt(fs: FsState, ls: Lister, dir: Path, recursive: bool, todo: seq<Path>, i: nat,
                       ghost before: seq<ZipEntry>, ghost done: seq<ZipEntry>)
      returns (r: Outcome<ArchiveError>, ghost done': seq<ZipEntry>)
      requires Wf(fs) && IsPrefix(layout.prefix, dir)
      requires forall j :: 0 <= j < |todo| ==> todo[j] in Children(fs, dir)
      requires i < |todo| && entries == before + done
      modifies this
      decreases Below(fs, dir), 0, 1
      ensures r.Fail? ==> After(done, WalkList(fs, ls, layout, dir, recursive, todo[i..])) == Err(r.error)
      ensures r.Pass? ==> entries == before + done'
      ensures r.Pass? ==> After(done, WalkList(fs, ls, layout, dir, recursive, todo[i..]))
                          == After(done', WalkList(fs, ls, layout, dir, recursive, todo[i + 1..]))
    {
      r := AddListed(fs, ls, dir, recursive, todo[i]);
      if r.Fail? {
        StopWalk(fs, ls, layout, dir, recursive, todo, i, done);
        done' := done;
        return;
      }
      AdvanceWalk(fs, ls, layout, dir, recursive, todo, i, done);
      done' := done + Piece(fs, ls, layout, dir, recursive, todo[i]).value;
    }

    /** The body of `add_dir`'s loop for one listed entry `c`. */
    method AddListed(fs: FsState, ls: Lister, dir: Path, recursive: bool, c: Path) returns (r: Outcome<ArchiveError>)
      requires Wf(fs) && IsPrefix(layout.prefix, dir) && c in Children(fs, dir)
      modifies this
      decreases Below(fs, dir), 0, 0
      ensures r.Pass? <==> Piece(fs, ls, layout, dir, recursive, c).Ok?
      ensures r.Pass? ==> entries == old(entries) + Piece(fs, ls, layout, dir, recursive, c).value
      ensures r.Fail? ==> r.error == Piece(fs, ls, layout, dir, recursive, c).error
    {
      if c == layout.path {
        return Pass;
      }
      PrefixThroughChild(layout.prefix, dir, c);
      var name := RelName(layout, c);
      if name.None? {
        return Fail(NonUtf8(c[|layout.prefix|..]));
      }
      if fs[c].File? {
        r := AddFile(fs, c);
      } else {
        entries := entries + [ZipEntry(name.value, DirEntry, EntryDefaults)];
        r := Pass;
        if recursive {
          BelowShrinks(fs, dir, c);
          assert Piece(fs, ls, layout, dir, recursive, c)
              == After([ZipEntry(name.value, DirEntry, EntryDefaults)], Walk(fs, ls, layout, c, true));
          r := AddDir(fs, ls, c, true);
        }
      }
    }

    /** `finish`: the encoded entries become the content of the archive file. */
    method Finish(fs: FsState, encode: seq<ZipEntry> -> seq<Byte>) returns (r: Result<FsState, ArchiveError>)
      requires Wf(fs)
      ensures r.Ok? <==> WriteFile(fs, layout.path, encode(entries)).Ok?
      ensures r.Ok? ==> Wf(r.value) && r.value == fs[layout.path := File(encode(entries))]
      ensures r.Err? ==> r.error == Io(WriteFile(fs, layout.path, encode(entries)).error)
    {
      var written := WriteFile(fs, layout.path, encode(entries));
      if written.Err? {
        return Err(Io(written.error));
      }
      r := Ok(written.value);
    }
  }

  /** `Archive::new`: the archive file is created, or truncated when it exists. */
  method Open(fs: FsState, prefix: Path, path: Path, sep: char) returns (r: Result<Archive, ArchiveError>, next: FsState)
    requires Wf(fs)
    ensures r.Ok? <==> WriteFile(fs, path, []).Ok?
    ensures r.Ok? ==> next == WriteFile(fs, path, []).value && fresh(r.value)
                      && r.value.layout == Layout(prefix, path, sep) && r.value.entries == []
    ensures r.Err? ==> next == fs && r.error == Io(WriteFile(fs, path, []).error)
  {
    var created := WriteFile(fs, path, []);
    if created.Err? {
      return Err(Io(created.error)), fs;
    }
    var a := new Archive(prefix, path, sep);
    return Ok(a), created.value;
  }
}

=== FILE: asset.dfy ===
/**
 * Classification of a release asset's file name into the platform it is
 * built for. The pattern the names follow is
 *   (love|lovr)-(v?\d+(?:\.\d+)*)[-.](?<os>android|ios|macos|win64|x86_64|apk|app)(?:.apk|.zip|.AppImage)
 * searched anywhere in the name (leftmost match first), where `\d` is an
 * ASCII digit and an unescaped `.` is any character other than a line feed.
 */
module AssetNames {
  import opened Wrappers
  import opened Decimal
  import Versions

  datatype AssetType = Android | Ios | Macos | Linux | Win64 | Other

  /** The asset's file name as published, and the platform derived from it. */
  datatype AssetName = AssetName(name: string, ty: AssetType)

  /** The operating-system words the pattern accepts, in the order it tries them. */
  const OsTokens: seq<string> := ["android", "ios", "macos", "win64", "x86_64", "apk", "app"]

  predicate StartsAt(s: string, i: nat, t: string) {
    i + |t| <= |s| && s[i..i + |t|] == t
  }

  /** First position at or after `j` that does not hold a digit. */
  function DigitsEnd(s: string, j: nat): (k: nat)
    requires j <= |s|
    ensures j <= k <= |s|
    ensures forall m :: j <= m < k ==> IsDigit(s[m])
    ensures k < |s| ==> !IsDigit(s[k])
    decreases |s| - j
  {
    if j < |s| && IsDigit(s[j]) then DigitsEnd(s, j + 1) else j
  }

  /** End of the repeated `(\.\d+)*` groups that start at `k`, taken as far as they go. */
  function GroupsEnd(s: string, k: nat): (e: nat)
    requires k <= |s|
    ensures k <= e <= |s|
    ensures e + 1 < |s| ==> !(s[e] == '.' && IsDigit(s[e + 1]))
    decreases |s| - k
  {
    if k + 1 < |s| && s[k] == '.' && IsDigit(s[k + 1]) then GroupsEnd(s, DigitsEnd(s, k + 1)) else k
  }

  /**
   * The first operating-system word, in the pattern's order from the `i`-th
   * on, that appears at `p` followed by an archive kind, given by its
   * position in `OsTokens`.
   */
  function OsAt(s: string, p: nat, i: nat): (r: Option<nat>)
    requires i <= |OsTokens|
    ensures r.Some? ==> i <= r.value < |OsTokens|
                        && StartsAt(s, p, OsTokens[r.value]) && ExtAt(s, p + |OsTokens[r.value]|)
    decreases |OsTokens| - i
  {
    if i == |OsTokens| then None
    else if StartsAt(s, p, OsTokens[i]) && ExtAt(s, p + |OsTokens[i]|) then Some(i)
    else OsAt(s, p, i + 1)
  }

  /** One character other than a line feed, then "apk", "zip" or "AppImage". */
  predicate ExtAt(s: string, e: nat) {
    e < |s| && s[e] != '\n'
    && (StartsAt(s, e + 1, "apk") || StartsAt(s, e + 1, "zip") || StartsAt(s, e + 1, "AppImage"))
  }

  /**
   * Where the version part of a match that starts at `i` ends: "love" or
   * "lovr", '-', an optional 'v', then `\d+(?:\.\d+)*` taken greedily.
   */
  function VersionEnd(s: string, i: nat): (r: Option<nat>)
    ensures r.Some? ==> i + 5 < r.value <= |s|
  {
    if !(StartsAt(s, i, "love") || StartsAt(s, i, "lovr")) then None
    else if !(i + 4 < |s| && s[i + 4] == '-') then None
    else
      var j := if i + 5 < |s| && s[i + 5] == 'v' then i + 6 else i + 5;
      var d := DigitsEnd(s, j);
      if d == j then None else Some(GroupsEnd(s, d))
  }

  /** The rest of a match after a version ending at `k`: separator, word, one character and the archive kind. */
  function OsAfter(s: string, k: nat): (r: Option<nat>)
    ensures r.Some? ==> r.value < |OsTokens|
  {
    if k < |s| && (s[k] == '-' || s[k] == '.') then OsAt(s, k + 1, 0) else None
  }

  /**
   * The `os` group of a match of the pattern that starts at `i`, if one does,
   * as the position of its word in `OsTokens`. The greedy version part is the
   * only one that can be followed by the separator and a word, so at most one
   * match starts at any position.
   */
  function CaptureAt(s: string, i: nat): (r: Option<nat>)
    ensures r.Some? ==> r.value < |OsTokens|
  {
    match VersionEnd(s, i)
    case None => None
    case Some(k) => OsAfter(s, k)
  }

  /** `captures`: the `os` group of the leftmost match at or after `i`. */
  function FirstCapture(s: string, i: nat): (r: Option<nat>)
    requires i <= |s|
    ensures r.Some? ==> r.value < |OsTokens|
    decreases |s| - i
  {
    if CaptureAt(s, i).Some? then CaptureAt(s, i)
    else if i == |s| then None
    else FirstCapture(s, i + 1)
  }

  /**
   * `AssetName::from_str`, with the two error arms of its `match`: it keeps
   * the name, and the type is `Other` exactly when nothing was captured.
   */
  function ParseAssetName(s: string): (r: Result<AssetName, string>)
    ensures r.Ok? && r.value.name == s
    ensures r.value.ty == Other <==> FirstCapture(s, 0).None?
  {
    TokensTyped();
    Classify(s, FirstCapture(s, 0))
  }

  /**
   * The `match` on the captured word, or `Other` when nothing was captured.
   * It never reaches its error arms, since only the seven words are captured.
   */
  function Classify(s: string, c: Option<nat>): (r: Result<AssetName, string>)
    requires c.Some? ==> c.value < |OsTokens|
    ensures r.Ok? && r.value.name == s
    ensures r.value.ty == match c case None => Other case Some(k) => TokenType(OsTokens[k])
  {
    match c
    case None => Ok(AssetName(s, Other))
    case Some(k) =>
      var os := OsTokens[k];
      match os
      case "android" => Ok(AssetName(s, Android))
      case "apk" => Ok(AssetName(s, Android))
      case "ios" => Ok(AssetName(s, Ios))
      case "macos" => Ok(AssetName(s, Macos))
      case "app" => Ok(AssetName(s, Macos))
      case "x86_64" => Ok(AssetName(s, Linux))
      case "win64" => Ok(AssetName(s, Win64))
      case other => Err("unknown asset os: " + other)
  }

  /** The platform each operating-system word stands for. */
  function TokenType(t: string): AssetType {
    if t == "android" || t == "apk" then Android
    else if t == "ios" then Ios
    else if t == "macos" || t == "app" then Macos
    else if t == "x86_64" then Linux
    else if t == "win64" then Win64
    else Other
  }

  /**
   * Parsing never fails, since the pattern only captures the seven words the
   * `match` handles, and it keeps the name unchanged; a name with no match
   * is `Other`, otherwise the platform of the leftmost match's word.
   */
  lemma ParseNeverFails(s: string)
    ensures ParseAssetName(s).Ok?
    ensures ParseAssetName(s).value.name == s
    ensures ParseAssetName(s).value.ty
            == match FirstCapture(s, 0) case None => Other case Some(k) => TokenType(OsTokens[k])
  {
  }

  lemma FirstCaptureIsLeftmost(s: string, i: nat)
    requires i <= |s|
    ensures FirstCapture(s, i).None? <==> forall m :: i <= m <= |s| ==> CaptureAt(s, m).None?
    ensures FirstCapture(s, i).Some? ==>
              exists m: nat :: i <= m <= |s| && CaptureAt(s, m) == FirstCapture(s, i)
                          && forall n: nat :: i <= n < m ==> CaptureAt(s, n).None?
  {
    var f := Captures(s);
    FirstCaptureSearches(s, i);
    LeftmostFound(f, i, |s|);
    assert forall m :: f(m) == CaptureAt(s, m);
    if FirstCapture(s, i).Some? {
      var m: nat :| i <= m <= |s| && f(m) == Leftmost(f, i, |s|)
                    && forall n: nat :: i <= n < m ==> f(n).None?;
      assert CaptureAt(s, m) == FirstCapture(s, i);
    }
  }

  /** The capture at each position of `s`. */
  function Captures(s: string): nat -> Option<nat> {
    m => CaptureAt(s, m)
  }

  /** `FirstCapture` is the leftmost search over the captures of `s`. */
  lemma {:induction false} FirstCaptureSearches(s: string, i: nat)
    requires i <= |s|
    ensures FirstCapture(s, i) == Leftmost(Captures(s), i, |s|)
    decreases |s| - i
  {
    assert Captures(s)(i) == CaptureAt(s, i);
    if CaptureAt(s, i).None? && i < |s| {
      FirstCaptureSearches(s, i + 1);
    }
  }

  /** The value `f` has at the first position in `i..n` where it has one. */
  function Leftmost(f: nat -> Option<nat>, i: nat, n: nat): Option<nat>
    requires i <= n
    decreases n - i
  {
    if f(i).Some? then f(i) else if i == n then None else Leftmost(f, i + 1, n)
  }

  /** `Leftmost` finds nothing exactly when there is nothing to find, and otherwise the first value. */
  lemma {:induction false} LeftmostFound(f: nat -> Option<nat>, i: nat, n: nat)
    requires i <= n
    ensures Leftmost(f, i, n).None? <==> forall m :: i <= m <= n ==> f(m).None?
    ensures Leftmost(f, i, n).Some? ==>
              exists m: nat :: i <= m <= n && f(m) == Leftmost(f, i, n)
                          && forall k: nat :: i <= k < m ==> f(k).None?
    decreases n - i
  {
    if f(i).Some? {
      assert forall k: nat :: i <= k < i ==> f(k).None?;
    } else if i < n {
      LeftmostFound(f, i + 1, n);
      if Leftmost(f, i, n).Some? {
        var m: nat :| i + 1 <= m <= n && f(m) == Leftmost(f, i + 1, n)
                      && forall k: nat :: i + 1 <= k < m ==> f(k).None?;
        assert forall k: nat :: i <= k < m ==> f(k).None?;
      }
    }
  }

  /** A name is `Other` exactly when the pattern matches nowhere in it. */
  lemma OtherIffNoMatch(s: string)
    ensures ParseAssetName(s).value.ty == Other <==> forall m :: 0 <= m <= |s| ==> CaptureAt(s, m).None?
  {
    ParseNeverFails(s);
    FirstCaptureIsLeftmost(s, 0);
    TokensTyped();
  }

  /** Every word the pattern captures stands for a platform. */
  lemma TokensTyped()
    ensures forall k :: 0 <= k < |OsTokens| ==> TokenType(OsTokens[k]) != Other
  {
  }

  /** A run of `d` digits at `j`, then a non-digit or the end. */
  lemma DigitBlock(s: string, j: nat, d: nat)
    requires d > 0 && DigitsAt(s, j, d)
    requires j + d < |s| ==> !IsDigit(s[j + d])
    ensures DigitsEnd(s, j) == j + d
  {
  }

  /** No operating-system word is the start of another, so the first one found is the one present. */
  lemma TokensPrefixFree(s: string, p: nat, k: nat)
    requires k < |OsTokens| && StartsAt(s, p, OsTokens[k]) && ExtAt(s, p + |OsTokens[k]|)
    ensures OsAt(s, p, 0) == Some(k)
  {
    OsAtFinds(s, p, 0, k);
    var i := OsAt(s, p, 0).value;
    var u, t := OsTokens[i], OsTokens[k];
    assert StartsAt(s, p, u);
    if |u| <= |t| {
      assert s[p..p + |u|] == t[..|u|];
      PrefixFree(i, k);
    } else {
      assert s[p..p + |t|] == u[..|t|];
      PrefixFree(k, i);
    }
  }

  lemma PrefixFree(i: nat, k: nat)
    requires i < |OsTokens| && k < |OsTokens| && |OsTokens[i]| <= |OsTokens[k]|
    requires OsTokens[k][..|OsTokens[i]|] == OsTokens[i]
    ensures i == k
  {
    TokensDiffer(i, k);
    assert OsTokens[i][..3] == OsTokens[k][..3];
  }

  /** Any two different words already differ in their first three letters. */
  lemma TokensDiffer(i: nat, k: nat)
    requires i < |OsTokens| && k < |OsTokens|
    ensures |OsTokens[i]| >= 3 && |OsTokens[k]| >= 3
    ensures i != k ==> OsTokens[i][..3] != OsTokens[k][..3]
  {
    var heads := ["and", "ios", "mac", "win", "x86", "apk", "app"];
    assert forall j :: 0 <= j < |OsTokens| ==> OsTokens[j][..3] == heads[j];
  }

  lemma {:induction false} OsAtFinds(s: string, p: nat, i: nat, k: nat)
    requires i <= k < |OsTokens| && StartsAt(s, p, OsTokens[k]) && ExtAt(s, p + |OsTokens[k]|)
    ensures OsAt(s, p, i).Some?
    decreases k - i
  {
    if !(StartsAt(s, p, OsTokens[i]) && ExtAt(s, p + |OsTokens[i]|)) {
      OsAtFinds(s, p, i + 1, k);
    }
  }

  lemma DropPrefix(s: string, j: nat, x: string, y: string)
    requires j <= |s| && s[j..] == x + y
    ensures j + |x| <= |s| && s[j + |x|..] == y
  {
    assert s[j + |x|..] == s[j..][|x|..];
  }

  /** `n` digits of `s` start at `j`. */
  predicate DigitsAt(s: string, j: nat, n: nat) {
    j + n <= |s| && forall m :: j <= m < j + n ==> IsDigit(s[m])
  }

  /** One `\.\d+` group of `n` digits at `k`: the groups continue after it. */
  lemma GroupStep(s: string, k: nat, n: nat)
    requires n > 0 && k < |s| && s[k] == '.' && DigitsAt(s, k + 1, n)
    requires k + 1 + n < |s| ==> !IsDigit(s[k + 1 + n])
    ensures GroupsEnd(s, k) == GroupsEnd(s, k + 1 + n)
  {
    DigitBlock(s, k + 1, n);
  }

  /** A separator followed by a non-digit ends the groups. */
  lemma GroupsStop(s: string, k: nat)
    requires k + 1 < |s| && !IsDigit(s[k + 1])
    ensures GroupsEnd(s, k) == k
  {
  }

  /**
   * Where the digits and dots of a printed version lie: `a` digits, '.',
   * `b` digits and, with a patch, '.' and `c` more digits.
   */
  lemma PrintedShape(v: Versions.Version) returns (a: nat, b: nat, c: nat)
    ensures var vs := Versions.ToString(v);
            && a > 0 && b > 0 && a + 1 + b <= |vs|
            && DigitsAt(vs, 0, a) && vs[a] == '.' && DigitsAt(vs, a + 1, b)
            && (v.patch.None? ==> |vs| == a + 1 + b)
            && (v.patch.Some? ==> c > 0 && |vs| == a + 1 + b + 1 + c
                                  && vs[a + 1 + b] == '.' && DigitsAt(vs, a + 2 + b, c))
  {
    var vs := Versions.ToString(v);
    var ma, mi := ToDecimal(v.major), ToDecimal(v.minor);
    ToDecimalDigits(v.major);
    ToDecimalDigits(v.minor);
    a, b, c := |ma|, |mi|, 0;
    var head := ma + "." + mi;
    assert DigitsAt(head, 0, a) && head[a] == '.' && DigitsAt(head, a + 1, b) by {
      assert forall m :: 0 <= m < a ==> head[m] == ma[m];
      assert forall m :: a + 1 <= m < a + 1 + b ==> head[m] == mi[m - a - 1];
    }
    match v.patch {
      case None =>
        assert vs == head;
      case Some(p) =>
        var pa := ToDecimal(p);
        ToDecimalDigits(p);
        c := |pa|;
        var tail := "." + pa;
        assert vs == head + tail;
        assert forall m :: 0 <= m < |head| ==> vs[m] == head[m];
        assert forall m :: a + 2 + b <= m < |vs| ==> vs[m] == pa[m - a - 2 - b];
    }
  }

  /** The characters of `x` in `s` from `j` on, followed by those of `rest`. */
  lemma Embedded(s: string, j: nat, x: string, rest: string)
    requires j <= |s| && s[j..] == x + rest
    ensures j + |x| + |rest| == |s|
    ensures forall m :: 0 <= m < |x| ==> s[j + m] == x[m]
    ensures forall m :: 0 <= m < |rest| ==> s[j + |x| + m] == rest[m]
  {
    forall m | 0 <= m < |x| ensures s[j + m] == x[m] {
      assert s[j + m] == s[j..][m];
    }
    forall m | 0 <= m < |rest| ensures s[j + |x| + m] == rest[m] {
      assert s[j + |x| + m] == s[j..][|x| + m];
    }
  }

  /** Digits of `x` at `p` are digits of `s` at `j + p` when `x` sits in `s` at `j`. */
  lemma DigitsShift(s: string, j: nat, x: string, p: nat, n: nat)
    requires j + |x| <= |s| && forall m :: 0 <= m < |x| ==> s[j + m] == x[m]
    requires DigitsAt(x, p, n)
    ensures DigitsAt(s, j + p, n)
  {
    forall m | j + p <= m < j + p + n ensures IsDigit(s[m]) {
      assert s[m] == x[m - j];
    }
  }

  /**
   * A printed version at `j`, followed by two non-digits ('-' or '.' and the
   * start of a word), is taken whole by the version part of the pattern.
   */
  lemma VersionSpan(s: string, j: nat, v: Versions.Version, rest: string)
    requires j <= |s| && s[j..] == Versions.ToString(v) + rest
    requires |rest| >= 2 && !IsDigit(rest[0]) && !IsDigit(rest[1])
    ensures DigitsEnd(s, j) > j
    ensures GroupsEnd(s, DigitsEnd(s, j)) == j + |Versions.ToString(v)|
  {
    var a, b, c := VersionInName(s, j, v, rest);
    SpanAt(s, j, a, b, c, v.patch.Some?, j + |Versions.ToString(v)|);
  }

  /** The digits and dots of a printed version, found at `j` in `s`. */
  lemma VersionInName(s: string, j: nat, v: Versions.Version, rest: string) returns (a: nat, b: nat, c: nat)
    requires j <= |s| && s[j..] == Versions.ToString(v) + rest
    requires |rest| >= 2 && !IsDigit(rest[0]) && !IsDigit(rest[1])
    ensures var e := j + |Versions.ToString(v)|;
            && a > 0 && b > 0 && DigitsAt(s, j, a) && j + a < |s| && s[j + a] == '.' && DigitsAt(s, j + a + 1, b)
            && (v.patch.None? ==> e == j + a + 1 + b)
            && (v.patch.Some? ==> c > 0 && j + a + 1 + b < |s| && s[j + a + 1 + b] == '.'
                                  && DigitsAt(s, j + a + 2 + b, c) && e == j + a + 2 + b + c)
            && e + 1 < |s| && !IsDigit(s[e]) && !IsDigit(s[e + 1])
  {
    var vs := Versions.ToString(v);
    a, b, c := PrintedShape(v);
    Embedded(s, j, vs, rest);
    var e := j + |vs|;
    assert s[e] == rest[0] && s[e + 1] == rest[1];
    assert s[j + a] == vs[a];
    DigitsShift(s, j, vs, 0, a);
    DigitsShift(s, j, vs, a + 1, b);
    if v.patch.Some? {
      assert s[j + a + 1 + b] == vs[a + 1 + b];
      DigitsShift(s, j, vs, a + 2 + b, c);
    }
  }

  /**
   * `a` digits, '.', `b` digits and, when `patch`, '.' and `c` digits, from
   * `j` to `e`, then two non-digits: the digits end after `a` and the groups
   * at `e`.
   */
  lemma SpanAt(s: string, j: nat, a: nat, b: nat, c: nat, patch: bool, e: nat)
    requires a > 0 && b > 0 && DigitsAt(s, j, a) && j + a < |s| && s[j + a] == '.' && DigitsAt(s, j + a + 1, b)
    requires !patch ==> e == j + a + 1 + b
    requires patch ==> c > 0 && j + a + 1 + b < |s| && s[j + a + 1 + b] == '.' && DigitsAt(s, j + a + 2 + b, c)
                       && e == j + a + 2 + b + c
    requires e + 1 < |s| && !IsDigit(s[e]) && !IsDigit(s[e + 1])
    ensures DigitsEnd(s, j) == j + a && GroupsEnd(s, j + a) == e
  {
    DigitBlock(s, j, a);
    GroupsStop(s, e);
    if patch {
      GroupStep(s, j + a + 1 + b, c);
    }
    GroupStep(s, j + a, b);
  }

  /**
   * The file name a release publishes for a platform: engine, '-', an
   * optional 'v', the version, a separator, the operating-system word, one
   * more character and the archive kind.
   */
  function PublishedName(engine: string, vee: bool, v: Versions.Version, sep: char, t: string, dot: char, ext: string): string {
    engine + "-" + (if vee then "v" else "") + Versions.ToString(v) + [sep] + t + [dot] + ext
  }

  /** A published name is classified by the operating-system word it carries, the `k`-th. */
  lemma PublishedNameClassified(engine: string, vee: bool, v: Versions.Version, sep: char, k: nat, dot: char, ext: string)
    requires engine == "love" || engine == "lovr"
    requires sep == '-' || sep == '.'
    requires k < |OsTokens| && dot != '\n'
    requires ext == "apk" || ext == "zip" || ext == "AppImage"
    ensures CaptureAt(PublishedName(engine, vee, v, sep, OsTokens[k], dot, ext), 0) == Some(k)
    ensures ParseAssetName(PublishedName(engine, vee, v, sep, OsTokens[k], dot, ext))
            == Ok(AssetName(PublishedName(engine, vee, v, sep, OsTokens[k], dot, ext), TokenType(OsTokens[k])))
  {
    var t := OsTokens[k];
    var s := PublishedName(engine, vee, v, sep, t, dot, ext);
    assert !IsDigit(t[0]) by {
      var heads := ["and", "ios", "mac", "win", "x86", "apk", "app"];
      assert forall i :: 0 <= i < |OsTokens| ==> OsTokens[i][0] == heads[i][0];
    }
    PublishedLayout(engine, vee, v, sep, t, dot, ext);
    ClassifiedByLayout(s, engine, vee, |Versions.ToString(v)|, sep, k, dot, ext);
    ParseOfCapture(s, k);
  }

  /** A match at the very start decides the platform. */
  lemma ParseOfCapture(s: string, k: nat)
    requires CaptureAt(s, 0) == Some(k)
    ensures ParseAssetName(s) == Ok(AssetName(s, TokenType(OsTokens[k])))
  {
    assert FirstCapture(s, 0) == Some(k);
    ParseNeverFails(s);
  }

  /**
   * Where the parts of a name lie: engine at 0, '-', an optional 'v', a
   * version of `n` characters taken whole by the pattern, a separator, the
   * word `t`, one more character and the archive kind.
   */
  predicate Layout(s: string, engine: string, vee: bool, n: nat, sep: char, t: string, dot: char, ext: string) {
    var j := if vee then 6 else 5;
    var e := j + n;
    && n > 0 && e + 1 + |t| < |s|
    && s[..4] == engine && s[4] == '-' && (vee ==> s[5] == 'v') && IsDigit(s[j])
    && DigitsEnd(s, j) > j && GroupsEnd(s, DigitsEnd(s, j)) == e
    && s[e] == sep
    && StartsAt(s, e + 1, t) && s[e + 1 + |t|] == dot && StartsAt(s, e + 2 + |t|, ext)
  }

  lemma ClassifiedByLayout(s: string, engine: string, vee: bool, n: nat, sep: char, k: nat, dot: char, ext: string)
    requires engine == "love" || engine == "lovr"
    requires sep == '-' || sep == '.'
    requires k < |OsTokens| && dot != '\n'
    requires ext == "apk" || ext == "zip" || ext == "AppImage"
    requires Layout(s, engine, vee, n, sep, OsTokens[k], dot, ext)
    ensures CaptureAt(s, 0) == Some(k)
  {
    var e := (if vee then 6 else 5) + n;
    VersionOfLayout(s, engine, vee, n, sep, OsTokens[k], dot, ext);
    OsOfLayout(s, e, sep, k, dot, ext);
    CaptureOfStages(s, 0, e, k);
  }

  lemma CaptureOfStages(s: string, i: nat, e: nat, k: nat)
    requires VersionEnd(s, i) == Some(e) && OsAfter(s, e) == Some(k)
    ensures CaptureAt(s, i) == Some(k)
  {
  }

  lemma VersionOfLayout(s: string, engine: string, vee: bool, n: nat, sep: char, t: string, dot: char, ext: string)
    requires engine == "love" || engine == "lovr"
    requires Layout(s, engine, vee, n, sep, t, dot, ext)
    ensures VersionEnd(s, 0) == Some((if vee then 6 else 5) + n)
  {
    VersionOfParts(s, engine, vee, if vee then 6 else 5, (if vee then 6 else 5) + n);
  }

  lemma OsOfLayout(s: string, e: nat, sep: char, k: nat, dot: char, ext: string)
    requires sep == '-' || sep == '.'
    requires k < |OsTokens| && dot != '\n'
    requires ext == "apk" || ext == "zip" || ext == "AppImage"
    requires e + 1 + |OsTokens[k]| < |s| && s[e] == sep
    requires StartsAt(s, e + 1, OsTokens[k]) && s[e + 1 + |OsTokens[k]|] == dot && StartsAt(s, e + 2 + |OsTokens[k]|, ext)
    ensures OsAfter(s, e) == Some(k)
  {
    ExtOfParts(s, e + 1 + |OsTokens[k]|, ext);
    TokensPrefixFree(s, e + 1, k);
  }

  lemma PublishedLayout(engine: string, vee: bool, v: Versions.Version, sep: char, t: string, dot: char, ext: string)
    requires |engine| == 4 && !IsDigit(sep) && |t| > 0 && !IsDigit(t[0])
    ensures Layout(PublishedName(engine, vee, v, sep, t, dot, ext), engine, vee, |Versions.ToString(v)|, sep, t, dot, ext)
  {
    var s := PublishedName(engine, vee, v, sep, t, dot, ext);
    var j := if vee then 6 else 5;
    NameLayout(s, engine, vee, Versions.ToString(v), sep, t, dot, ext);
    VersionSpan(s, j, v, [sep] + (t + ([dot] + ext)));
    assert s[j] == s[j..][0];
  }

  lemma ExtOfParts(s: string, x: nat, ext: string)
    requires x < |s| && s[x] != '\n' && StartsAt(s, x + 1, ext)
    requires ext == "apk" || ext == "zip" || ext == "AppImage"
    ensures ExtAt(s, x)
  {
  }

  /** Where each part of a published name lies, for a version printed as `vs`. */
  lemma NameLayout(s: string, engine: string, vee: bool, vs: string, sep: char, t: string, dot: char, ext: string)
    requires |engine| == 4
    requires s == engine + "-" + (if vee then "v" else "") + vs + [sep] + t + [dot] + ext
    ensures var j := if vee then 6 else 5;
            var e := j + |vs|;
            && s[..4] == engine && s[4] == '-' && (vee ==> s[5] == 'v')
            && s[j..] == vs + ([sep] + (t + ([dot] + ext)))
            && e + 1 + |t| < |s| && s[e] == sep
            && StartsAt(s, e + 1, t) && s[e + 1 + |t|] == dot && StartsAt(s, e + 2 + |t|, ext)
  {
    var rest := [sep] + (t + ([dot] + ext));
    var j := if vee then 6 else 5;
    assert s == engine + "-" + (if vee then "v" else "") + (vs + rest);
    HeadLayout(s, engine, vee, vs + rest);
    DropPrefix(s, j, vs, rest);
    TailLayout(s, j + |vs|, sep, t, dot, ext);
  }

  /** Engine, '-' and the optional 'v' take the first five or six characters. */
  lemma HeadLayout(s: string, engine: string, vee: bool, x: string)
    requires |engine| == 4 && s == engine + "-" + (if vee then "v" else "") + x
    ensures var j := if vee then 6 else 5;
            && s[..4] == engine && s[4] == '-' && (vee ==> s[5] == 'v') && j <= |s| && s[j..] == x
  {
    var pre := engine + "-" + (if vee then "v" else "");
    assert s == pre + x;
    assert s[..4] == pre[..4];
    DropPrefix(s, 0, pre, x);
  }

  /** A separator, a word, one character and an archive kind, from `e` to the end. */
  lemma TailLayout(s: string, e: nat, sep: char, t: string, dot: char, ext: string)
    requires e <= |s| && s[e..] == [sep] + (t + ([dot] + ext))
    ensures e + 1 + |t| < |s| && s[e] == sep
    ensures StartsAt(s, e + 1, t) && s[e + 1 + |t|] == dot && StartsAt(s, e + 2 + |t|, ext)
  {
    assert s[e] == s[e..][0];
    DropPrefix(s, e, [sep], t + ([dot] + ext));
    DropPrefix(s, e + 1, t, [dot] + ext);
    DropPrefix(s, e + 1 + |t|, [dot], ext);
    assert s[e + 1..e + 1 + |t|] == s[e + 1..][..|t|];
    assert s[e + 1 + |t|] == s[e + 1 + |t|..][0];
    assert s[e + 2 + |t|..e + 2 + |t| + |ext|] == s[e + 2 + |t|..];
  }

  /** The version part of a match at 0, given where the engine, the 'v' and the version lie. */
  lemma VersionOfParts(s: string, engine: string, vee: bool, j: nat, e: nat)
    requires engine == "love" || engine == "lovr"
    requires j == (if vee then 6 else 5) && j < e < |s|
    requires s[..4] == engine && s[4] == '-' && (vee ==> s[5] == 'v') && IsDigit(s[j])
    requires DigitsEnd(s, j) > j && GroupsEnd(s, DigitsEnd(s, j)) == e
    ensures VersionEnd(s, 0) == Some(e)
  {
    assert s[0..4] == s[..4];
    assert StartsAt(s, 0, "love") || StartsAt(s, 0, "lovr");
  }
}

=== FILE: build.dfy ===
/**
 * The build pipeline (`Builder`): for each target of a build, make sure the
 * framework is installed, recreate the output directory, copy the dynamic
 * libraries, fuse the executable with the zipped project sources, and
 * package the output directory into a zip.
 *
 * The release list, the downloads, the zip codec, the order of directory
 * listings and the host platform are parameters (`Env`). An
 * `unimplemented!()` panic ends the whole program; the model reports it as
 * `Panic` and stops.
 */
module Build {
  import opened Wrappers
  import opened Versions
  import opened Fs
  import Config
  import Releases
  import Archives
  import InstallProperties

  datatype BuildError =
    | FetchFailed                              // the release list could not be fetched
    | BelowMinimum(min: Version)               // the build's version is older than the framework supports
    | ReleaseNotFound(version: Version)        // no release carries the build's version as its tag
    | InstallFailed(cause: Releases.InstallError)  // `Release::install` failed
    | IoFailed(io: IoError)                        // a filesystem operation of a stage failed
    | ArchiveFailed(zip: Archives.ArchiveError)    // writing a zip archive failed

  /** How a stage ends: done, with an error the target is marked failed for, or with an `unimplemented!()` panic. */
  datatype Stage = Done | Failed(e: BuildError) | Panic

  /** What the pipeline reads from outside the project. */
  datatype Env = Env(
    data: Path,                                               // the data directory of the tool
    host: Config.Target,                                      // the platform the tool runs on
    sep: char,                                                // the host's path separator
    fetch: (string, string) -> Option<seq<Releases.Release>>, // the releases of owner/repo; None when the request fails
    downloads: map<string, seq<Byte>>,                        // what each URL serves
    unzip: seq<Byte> -> Option<seq<Releases.ZipItem>>,        // opening a downloaded zip
    ls: Lister,                                               // the order `read_dir` lists entries in
    encode: seq<Archives.ZipEntry> -> seq<Byte>)              // the zip layout of a finished archive

  /** `Builder`: the project root (the current directory), the configuration, and what to build. */
  datatype Builder = Builder(root: Path, config: Config.ProjectConfig, framework: Config.Framework, build: Config.Build)

  // ---------------------------------------------------------------------
  // ensure_framework_installed

  /** `releases.iter().find(|r| r.tag == version)`. */
  function FindRelease(releases: seq<Releases.Release>, v: Version): (r: Option<Releases.Release>)
    ensures r.None? <==> forall i :: 0 <= i < |releases| ==> releases[i].tag != v
    ensures r.Some? ==> exists i :: 0 <= i < |releases| && releases[i] == r.value && r.value.tag == v
                                    && forall j :: 0 <= j < i ==> releases[j].tag != v
  {
    if releases == [] then None
    else if releases[0].tag == v then Some(releases[0])
    else
      var r := FindRelease(releases[1..], v);
      assert forall i :: 1 <= i < |releases| ==> releases[i] == releases[1..][i - 1];
      if r.Some? then
        var k :| 0 <= k < |releases[1..]| && releases[1..][k] == r.value && r.value.tag == v
                 && forall j :: 0 <= j < k ==> releases[1..][j].tag != v;
        assert forall j :: 0 <= j < k + 1 ==> releases[j].tag != v by {
          forall j | 0 <= j < k + 1 ensures releases[j].tag != v {
            if j > 0 {
              assert releases[j] == releases[1..][j - 1];
            }
          }
        }
        r
      else
        r
  }

  /** The install context: the cache lives in the data directory of the host. */
  function InstallContext(env: Env): Releases.Context {
    Releases.Context(env.data, env.host, env.downloads, env.unzip)
  }

  /**
   * `ensure_framework_installed`: fetch the framework's releases, refuse a
   * version below the framework's minimum, pick the first release tagged
   * with the version, and install it for the host.
   */
  function EnsureInstalled(b: Builder, fs: FsState, env: Env): (r: (Outcome<BuildError>, FsState))
    requires Wf(fs)
    ensures Wf(r.1)
  {
    match env.fetch(Config.Owner(b.framework), Config.Repo(b.framework))
    case None => (Fail(FetchFailed), fs)
    case Some(releases) =>
      if Less(b.build.version, Config.MinVersion(b.framework)) then
        (Fail(BelowMinimum(Config.MinVersion(b.framework))), fs)
      else
        match FindRelease(releases, b.build.version)
        case None => (Fail(ReleaseNotFound(b.build.version)), fs)
        case Some(rel) =>
          var installed := Releases.InstallSpec(fs, InstallContext(env), rel, Config.FrameworkName(b.framework));
          match installed.outcome
          case Pass => (Pass, installed.fs)
          case Fail(e) => (Fail(InstallFailed(e)), installed.fs)
  }

  /**
   * How the install can end: a failed fetch; a version below the minimum,
   * refused even when the release exists; no release tagged with the
   * version; or the outcome of installing that release. Only the last can
   * change the filesystem.
   */
  lemma InstallOutcomes(b: Builder, fs: FsState, env: Env)
    requires Wf(fs)
    ensures var r := EnsureInstalled(b, fs, env);
            var fetched := env.fetch(Config.Owner(b.framework), Config.Repo(b.framework));
            && (fetched.None? ==> r == (Fail(FetchFailed), fs))
            && (r.0 == Fail(BelowMinimum(Config.MinVersion(b.framework)))
                <==> fetched.Some? && Less(b.build.version, Config.MinVersion(b.framework)))
            && (r.0.Fail? && !r.0.error.InstallFailed? ==> r.1 == fs)
            && (r.0 == Fail(ReleaseNotFound(b.build.version))
                <==> match fetched
                     case None => false
                     case Some(rs) => !Less(b.build.version, Config.MinVersion(b.framework))
                                      && forall i :: 0 <= i < |rs| ==> rs[i].tag != b.build.version)
  {
  }

  /**
   * Past the checks, the installed release is the first one tagged with the
   * build's version, and the install reports that release's install outcome.
   */
  lemma InstallsFirstTagged(b: Builder, fs: FsState, env: Env, rs: seq<Releases.Release>, i: nat)
    requires Wf(fs) && env.fetch(Config.Owner(b.framework), Config.Repo(b.framework)) == Some(rs)
    requires !Less(b.build.version, Config.MinVersion(b.framework))
    requires i < |rs| && rs[i].tag == b.build.version
    requires forall j :: 0 <= j < i ==> rs[j].tag != b.build.version
    ensures var installed := Releases.InstallSpec(fs, InstallContext(env), rs[i], Config.FrameworkName(b.framework));
            && EnsureInstalled(b, fs, env).1 == installed.fs
            && (EnsureInstalled(b, fs, env).0.Pass? <==> installed.outcome.Pass?)
            && (installed.outcome.Fail? ==> EnsureInstalled(b, fs, env).0 == Fail(InstallFailed(installed.outcome.error)))
  {
    var r := FindRelease(rs, b.build.version);
    var k :| 0 <= k < |rs| && rs[k] == r.value && r.value.tag == b.build.version
             && forall j :: 0 <= j < k ==> rs[j].tag != b.build.version;
    assert k == i;
  }

  // ---------------------------------------------------------------------
  // output_dir

  /** `root/build/<framework>/<target>`. */
  function OutputPath(b: Builder, t: Config.Target): (p: Path)
    ensures |p| == |b.root| + 3 && p[..|b.root|] == b.root
  {
    b.root + [Text("build"), Text(Config.FrameworkName(b.framework)), Text(Config.TargetName(t))]
  }

  /**
   * `output_dir`: the target's output directory, removed when it exists and
   * made again. Afterwards it is an empty directory, and nothing apart from
   * it and its ancestors has changed.
   */
  function OutputDir(b: Builder, fs: FsState, t: Config.Target): (r: Result<FsState, IoError>)
    requires Wf(fs)
    ensures r.Ok? ==> Wf(r.value) && IsDir(r.value, OutputPath(b, t)) && Below(r.value, OutputPath(b, t)) == {}
    ensures r.Ok? ==> forall q :: InstallProperties.Apart(OutputPath(b, t), q) ==> (q in r.value <==> q in fs)
    ensures r.Ok? ==> forall q :: InstallProperties.Apart(OutputPath(b, t), q) && q in fs ==> r.value[q] == fs[q]
  {
    var dir := OutputPath(b, t);
    if Releases.ResetDir(fs, dir).Ok? then
      InstallProperties.ResetDirEmpties(fs, dir);
      Releases.ResetDir(fs, dir)
    else
      Releases.ResetDir(fs, dir)
  }

  // ---------------------------------------------------------------------
  // copy_files

  function FileName(p: Path): OsName
    requires |p| > 0
  {
    p[|p| - 1]
  }

  /**
   * `extension() == Some("dll")`: the name ends in ".dll" after at least one
   * more character (a name that is only ".dll" has no extension).
   */
  predicate IsDll(n: OsName)
    ensures n.Text? && |n.text| >= 4 && n.text[|n.text| - 4..] == ".dll" ==> (IsDll(n) <==> |n.text| > 4)
    ensures n.Raw? && |n.bytes| >= 4 && n.bytes[|n.bytes| - 4..] == [46, 100, 108, 108] ==> (IsDll(n) <==> |n.bytes| > 4)
  {
    match n
    case Text(t) => |t| > 4 && t[|t| - 4..] == ".dll"
    case Raw(bs) => |bs| > 4 && bs[|bs| - 4..] == [46, 100, 108, 108]
  }

  /** The copies of the listed `entries`, in order, until one fails; the copies made before a failure stay. */
  function CopyDlls(fs: FsState, entries: seq<Path>, dest: Path): (r: (Outcome<IoError>, FsState))
    requires Wf(fs) && forall i :: 0 <= i < |entries| ==> |entries[i]| > 0
    ensures Wf(r.1)
    decreases |entries|
  {
    if entries == [] then (Pass, fs)
    else
      var c := entries[0];
      if !IsDll(FileName(c)) then CopyDlls(fs, entries[1..], dest)
      else
        match CopyFile(fs, c, dest + [FileName(c)])
        case Err(e) => (Fail(e), fs)
        case Ok(next) => CopyDlls(next, entries[1..], dest)
  }

  /** `copy_files` for `target`: the `.dll` entries of the installed framework, copied into `dest`. */
  function CopyFilesSpec(b: Builder, fs: FsState, env: Env, t: Config.Target, dest: Path): (r: (Outcome<IoError>, FsState))
    requires Wf(fs)
    ensures Wf(r.1)
  {
    var src := Config.InstallPath(env.data, b.framework, t);
    if !IsDir(fs, src) then (Fail(if Exists(fs, src) then NotADirectory else NotFound), fs)
    else CopyDlls(fs, ReadDir(fs, env.ls, src), dest)
  }

  method CopyFiles(b: Builder, fs: FsState, env: Env, t: Config.Target, dest: Path) returns (r: Outcome<IoError>, next: FsState)
    requires Wf(fs)
    ensures (r, next) == CopyFilesSpec(b, fs, env, t, dest)
  {
    var src := Config.InstallPath(env.data, b.framework, t);
    if !IsDir(fs, src) {
      return Fail(if Exists(fs, src) then NotADirectory else NotFound), fs;
    }
    var entries := ReadDir(fs, env.ls, src);
    ghost var spec := CopyDlls(fs, entries, dest);
    assert spec == CopyFilesSpec(b, fs, env, t, dest);
    next := fs;
    var i := 0;
    assert entries[0..] == entries;
    while i < |entries|
      invariant 0 <= i <= |entries| && Wf(next)
      invariant CopyDlls(next, entries[i..], dest) == spec
    {
      var c := entries[i];
      CopyDllsAt(next, entries, i, dest);
      if IsDll(FileName(c)) {
        var copied := CopyFile(next, c, dest + [FileName(c)]);
        if copied.Err? {
          return Fail(copied.error), next;
        }
        next := copied.value;
      }
      i := i + 1;
    }
    assert entries[i..] == [];
    r := Pass;
  }

  /** `CopyDlls` from the `i`-th entry on, one entry at a time. */
  lemma CopyDllsAt(fs: FsState, entries: seq<Path>, i: nat, dest: Path)
    requires Wf(fs) && forall j :: 0 <= j < |entries| ==> |entries[j]| > 0
    requires i < |entries|
    ensures var c := entries[i];
            CopyDlls(fs, entries[i..], dest)
            == if !IsDll(FileName(c)) then CopyDlls(fs, entries[i + 1..], dest)
               else if CopyFile(fs, c, dest + [FileName(c)]).Err? then (Fail(CopyFile(fs, c, dest + [FileName(c)]).error), fs)
               else CopyDlls(CopyFile(fs, c, dest + [FileName(c)]).value, entries[i + 1..], dest)
  {
    assert entries[i..][0] == entries[i] && entries[i..][1..] == entries[i + 1..];
  }

  /** Where the copies of the `.dll` entries among `entries` go. */
  function Copied(entries: seq<Path>, dest: Path): set<Path>
    requires forall i :: 0 <= i < |entries| ==> |entries[i]| > 0
  {
    set i | 0 <= i < |entries| && IsDll(FileName(entries[i])) :: dest + [FileName(entries[i])]
  }

  /**
   * `next` is `fs` with a copy in `dest` of each `.dll` entry, which was a
   * file, holding its content, and with nothing else added or changed.
   */
  ghost predicate CopiesOf(fs: FsState, entries: seq<Path>, dest: Path, next: FsState)
    requires forall i :: 0 <= i < |entries| ==> |entries[i]| > 0
  {
    && (forall q :: q in next <==> q in fs || q in Copied(entries, dest))
    && (forall i :: 0 <= i < |entries| && IsDll(FileName(entries[i])) ==>
          IsFile(fs, entries[i]) && dest + [FileName(entries[i])] in next
          && next[dest + [FileName(entries[i])]] == fs[entries[i]])
    && (forall q :: q in fs && q !in Copied(entries, dest) ==> q in next && next[q] == fs[q])
  }

  /** When every copy succeeds, the listed `.dll` files are copied into `dest` and nothing else changes. */
  lemma {:induction false} CopyDllsResult(fs: FsState, entries: seq<Path>, src: Path, dest: Path)
    requires Wf(fs) && src != dest
    requires forall i :: 0 <= i < |entries| ==> |entries[i]| > 0 && Parent(entries[i]) == src
    requires forall i, j :: 0 <= i < j < |entries| ==> entries[i] != entries[j]
    ensures CopyDlls(fs, entries, dest).0.Pass? ==> CopiesOf(fs, entries, dest, CopyDlls(fs, entries, dest).1)
    decreases |entries|
  {
    if entries != [] {
      var c, rest := entries[0], entries[1..];
      assert forall i :: 1 <= i < |entries| ==> entries[i] == rest[i - 1];
      CopiedSplit(entries, dest);
      if !IsDll(FileName(c)) {
        CopyDllsResult(fs, rest, src, dest);
        var next := CopyDlls(fs, entries, dest).1;
        if CopyDlls(fs, entries, dest).0.Pass? {
          SkipStep(fs, entries, dest, next);
        }
      } else if CopyFile(fs, c, dest + [FileName(c)]).Ok? {
        var fs1 := CopyFile(fs, c, dest + [FileName(c)]).value;
        CopyDllsResult(fs1, rest, src, dest);
        if CopyDlls(fs, entries, dest).0.Pass? {
          CopyStep(fs, fs1, entries, src, dest, CopyDlls(fs, entries, dest).1);
        }
      }
    }
  }

  lemma SkipStep(fs: FsState, entries: seq<Path>, dest: Path, next: FsState)
    requires entries != [] && forall i :: 0 <= i < |entries| ==> |entries[i]| > 0
    requires !IsDll(FileName(entries[0])) && Copied(entries, dest) == Copied(entries[1..], dest)
    requires CopiesOf(fs, entries[1..], dest, next)
    ensures CopiesOf(fs, entries, dest, next)
  {
    assert forall i :: 1 <= i < |entries| ==> entries[i] == entries[1..][i - 1];
  }

  lemma CopyStep(fs: FsState, fs1: FsState, entries: seq<Path>, src: Path, dest: Path, next: FsState)
    requires src != dest && entries != []
    requires forall i :: 0 <= i < |entries| ==> |entries[i]| > 0 && Parent(entries[i]) == src
    requires forall i, j :: 0 <= i < j < |entries| ==> entries[i] != entries[j]
    requires IsDll(FileName(entries[0])) && IsFile(fs, entries[0])
    requires fs1 == fs[dest + [FileName(entries[0])] := fs[entries[0]]]
    requires Copied(entries, dest) == {dest + [FileName(entries[0])]} + Copied(entries[1..], dest)
    requires CopiesOf(fs1, entries[1..], dest, next)
    ensures CopiesOf(fs, entries, dest, next)
  {
    var c, rest := entries[0], entries[1..];
    var t := dest + [FileName(c)];
    assert forall i :: 1 <= i < |entries| ==> entries[i] == rest[i - 1];
    assert Parent(t) == dest;
    assert forall i :: 0 <= i < |rest| ==> rest[i] != t by {
      forall i | 0 <= i < |rest| ensures rest[i] != t {
        assert Parent(rest[i]) == src;
      }
    }
    assert t !in Copied(rest, dest) by {
      forall i | 0 <= i < |rest| ensures dest + [FileName(rest[i])] != t {
        assert entries[i + 1] == rest[i];
        SameParentNames(c, rest[i]);
      }
    }
    forall i | 0 <= i < |entries| && IsDll(FileName(entries[i]))
      ensures IsFile(fs, entries[i]) && dest + [FileName(entries[i])] in next
              && next[dest + [FileName(entries[i])]] == fs[entries[i]]
    {
      if i > 0 {
        assert entries[i] == rest[i - 1] && entries[i] != t;
      }
    }
    forall q | q in fs && q !in Copied(entries, dest) ensures q in next && next[q] == fs[q] {
      assert q != t && q in fs1 && q !in Copied(rest, dest);
    }
  }

  /** Where `copy_files` puts a copy of each `.dll` entry of `src`. */
  function DllCopies(fs: FsState, src: Path, dest: Path): set<Path> {
    set c | c in Children(fs, src) && IsDll(FileName(c)) :: dest + [FileName(c)]
  }

  /**
   * After a successful `copy_files`, `dest` holds a copy of every entry of the
   * installed framework whose extension is `dll`, under the same file name
   * and with the same content, and nothing else has been added or changed.
   */
  lemma CopyFilesCopiesDlls(b: Builder, fs: FsState, env: Env, t: Config.Target, dest: Path)
    requires Wf(fs) && ListsChildren(env.ls) && dest != Config.InstallPath(env.data, b.framework, t)
    ensures var src := Config.InstallPath(env.data, b.framework, t);
            var next := CopyFilesSpec(b, fs, env, t, dest).1;
            CopyFilesSpec(b, fs, env, t, dest).0.Pass? ==>
              && IsDir(fs, src)
              && (forall c :: c in Children(fs, src) && IsDll(FileName(c)) ==>
                    IsFile(fs, c) && dest + [FileName(c)] in next && next[dest + [FileName(c)]] == fs[c])
              && (forall q :: q in next <==> q in fs || q in DllCopies(fs, src, dest))
              && (forall q :: q in fs && q !in DllCopies(fs, src, dest) ==> next[q] == fs[q])
  {
    var src := Config.InstallPath(env.data, b.framework, t);
    if IsDir(fs, src) {
      var entries := ReadDir(fs, env.ls, src);
      ReadDirLists(fs, env.ls, src);
      assert forall i :: 0 <= i < |entries| ==> |entries[i]| > 0 && Parent(entries[i]) == src;
      CopyDllsResult(fs, entries, src, dest);
      assert Copied(entries, dest) == DllCopies(fs, src, dest);
    }
  }

  lemma CopiedSplit(entries: seq<Path>, dest: Path)
    requires entries != [] && forall i :: 0 <= i < |entries| ==> |entries[i]| > 0
    ensures Copied(entries, dest)
            == (if IsDll(FileName(entries[0])) then {dest + [FileName(entries[0])]} else {}) + Copied(entries[1..], dest)
  {
    var rest := entries[1..];
    assert forall i :: 1 <= i < |entries| ==> entries[i] == rest[i - 1];
    forall q | q in Copied(rest, dest) ensures q in Copied(entries, dest) {
      var i :| 0 <= i < |rest| && IsDll(FileName(rest[i])) && q == dest + [FileName(rest[i])];
      assert entries[i + 1] == rest[i];
    }
  }

  /** Two paths with the same parent and the same name are the same path. */
  lemma SameParentNames(p: Path, q: Path)
    requires |p| > 0 && |q| > 0 && Parent(p) == Parent(q) && p != q
    ensures FileName(p) != FileName(q)
  {
    assert p == Parent(p) + [FileName(p)];
    assert q == Parent(q) + [FileName(q)];
  }

  // ---------------------------------------------------------------------
  // Writing a zip archive of a directory

  /**
   * `Archive::new(dir, path)`, `add_dir(dir, recursive)` and `finish()`: the
   * archive file is created (or truncated), the walk of `dir` collects the
   * entries, and their encoding becomes the file's content. The entries
   * written are returned with the new state.
   */
  function ZipSpec(fs: FsState, env: Env, dir: Path, path: Path, recursive: bool)
    : (r: (Result<seq<Archives.ZipEntry>, Archives.ArchiveError>, FsState))
    requires Wf(fs)
    ensures Wf(r.1)
    ensures r.0.Ok? ==> r.1 == fs[path := File(env.encode(r.0.value))]
    ensures r.0.Err? ==> r.1 == fs || r.1 == fs[path := File([])]
  {
    var w := Archives.Layout(dir, path, env.sep);
    match WriteFile(fs, path, [])
    case Err(e) => (Err(Archives.Io(e)), fs)
    case Ok(fs1) =>
      match Archives.Walk(fs1, env.ls, w, dir, recursive)
      case Err(e) => (Err(e), fs1)
      case Ok(entries) =>
        match WriteFile(fs1, path, env.encode(entries))
        case Err(e) => (Err(Archives.Io(e)), fs1)
        case Ok(fs2) => (Ok(entries), fs2)
  }

  method WriteZip(fs: FsState, env: Env, dir: Path, path: Path, recursive: bool)
    returns (r: Result<seq<Archives.ZipEntry>, Archives.ArchiveError>, next: FsState)
    requires Wf(fs)
    ensures (r, next) == ZipSpec(fs, env, dir, path, recursive)
  {
    var created, fs1 := Archives.Open(fs, dir, path, env.sep);
    if created.Err? {
      return Err(created.error), fs;
    }
    var archive := created.value;
    var added := archive.AddDir(fs1, env.ls, dir, recursive);
    if added.Fail? {
      return Err(added.error), fs1;
    }
    assert archive.entries == Archives.Walk(fs1, env.ls, archive.layout, dir, recursive).value;
    var finished := archive.Finish(fs1, env.encode);
    if finished.Err? {
      return Err(finished.error), fs1;
    }
    return Ok(archive.entries), finished.value;
  }

  /**
   * An archive is written exactly when its file can be created, `dir` is a
   * directory and every reached name is UTF-8. It then holds an entry for
   * every path the walk reaches (all of `dir`'s tree, or only its direct
   * entries) and for no other path, and never one for the archive file itself.
   */
  lemma ZipContents(fs: FsState, env: Env, dir: Path, path: Path, recursive: bool)
    requires Wf(fs) && ListsChildren(env.ls)
    ensures var w := Archives.Layout(dir, path, env.sep);
            var fs1 := fs[path := File([])];
            && (ZipSpec(fs, env, dir, path, recursive).0.Ok?
                <==> WriteFile(fs, path, []).Ok? && IsDir(fs1, dir) && Archives.NamesOk(w, Archives.Emitted(fs1, w, dir, recursive)))
            && path !in Archives.Emitted(fs1, w, dir, recursive)
            && (ZipSpec(fs, env, dir, path, recursive).0.Ok?
                ==> Archives.Elems(ZipSpec(fs, env, dir, path, recursive).0.value)
                    == Archives.EntriesFor(fs1, w, Archives.Emitted(fs1, w, dir, recursive)))
  {
    var w := Archives.Layout(dir, path, env.sep);
    var fs1 := fs[path := File([])];
    if WriteFile(fs, path, []).Ok? {
      Archives.WalkCollects(fs1, env.ls, w, dir, recursive);
    }
  }

  // ---------------------------------------------------------------------
  // build_executable and package

  /** `<project>.exe` in the output directory. */
  function ExeFile(b: Builder, dest: Path): Path {
    dest + [Text(b.config.project.name + ".exe")]
  }

  /** `<project>.<framework>`: the zipped sources fused onto the executable. */
  function PayloadFile(b: Builder, dest: Path): Path {
    dest + [Text(b.config.project.name + "." + Config.FrameworkName(b.framework))]
  }

  /** `<project>.zip`: the packaged output directory. */
  function PackageFile(b: Builder, dest: Path): Path {
    dest + [Text(b.config.project.name + ".zip")]
  }

  function SourceDir(b: Builder): Path {
    b.root + [Text("src")]
  }

  /**
   * `build_executable` followed by `apply_customizations`: only Win64 is
   * implemented. The project's `src` tree is zipped into the payload file,
   * the framework's cached executable is copied to `<project>.exe`, and the
   * payload is appended to it. Customizing the executable is implemented only
   * when the tool runs on Windows.
   */
  function FuseSpec(b: Builder, fs: FsState, env: Env, t: Config.Target, dest: Path): (r: (Stage, FsState))
    requires Wf(fs)
    ensures Wf(r.1)
    ensures r.0 == Panic ==> t != Config.Win64 || env.host != Config.Win64
    ensures t != Config.Win64 ==> r == (Panic, fs)
  {
    if t != Config.Win64 then (Panic, fs)
    else Fuse(b, ZipSpec(fs, env, SourceDir(b), PayloadFile(b, dest), true), env, dest)
  }

  /** The Win64 stages after the payload archive `zipped` has been written (or has failed). */
  function Fuse(b: Builder, zipped: (Result<seq<Archives.ZipEntry>, Archives.ArchiveError>, FsState), env: Env, dest: Path)
    : (r: (Stage, FsState))
    requires Wf(zipped.1)
    ensures Wf(r.1)
    ensures r.0 == Panic ==> env.host != Config.Win64
  {
    match zipped
    case (Err(e), fs1) => (Failed(ArchiveFailed(e)), fs1)
    case (Ok(_), fs1) =>
      match CopyFile(fs1, Config.ExePath(env.data, b.framework, Config.Win64), ExeFile(b, dest))
      case Err(e) => (Failed(IoFailed(e)), fs1)
      case Ok(fs2) =>
        // the executable was just copied, so opening it for appending cannot fail
        match ReadFile(fs2, PayloadFile(b, dest))
        case Err(e) => (Failed(IoFailed(e)), fs2)
        case Ok(payload) =>
          match AppendFile(fs2, ExeFile(b, dest), payload)
          case Err(e) => (Failed(IoFailed(e)), fs2)
          case Ok(fs3) => if env.host != Config.Win64 then (Panic, fs3) else (Done, fs3)
  }

  method BuildExecutable(b: Builder, fs: FsState, env: Env, t: Config.Target, dest: Path) returns (r: Stage, next: FsState)
    requires Wf(fs)
    ensures (r, next) == FuseSpec(b, fs, env, t, dest)
  {
    if t != Config.Win64 {
      return Panic, fs;
    }
    var exe := ExeFile(b, dest);
    var payloadFile := PayloadFile(b, dest);
    var zipped, fs1 := WriteZip(fs, env, SourceDir(b), payloadFile, true);
    if zipped.Err? {
      return Failed(ArchiveFailed(zipped.error)), fs1;
    }
    var copied := CopyFile(fs1, Config.ExePath(env.data, b.framework, t), exe);
    if copied.Err? {
      return Failed(IoFailed(copied.error)), fs1;
    }
    next := copied.value;
    var payload := ReadFile(next, payloadFile);
    if payload.Err? {
      return Failed(IoFailed(payload.error)), next;
    }
    var appended := AppendFile(next, exe, payload.value);
    if appended.Err? {
      return Failed(IoFailed(appended.error)), next;
    }
    next := appended.value;
    if env.host != Config.Win64 {
      return Panic, next;
    }
    r := Done;
  }

  /**
   * Once the payload is appended, `<project>.exe` holds the bytes of the
   * cached executable immediately followed by those of the payload archive;
   * the cached executable and the payload file are left as they were.
   * (By `ZipContents`, the payload's bytes are the encoding of the entries
   * of the project's `src` tree.)
   */
  lemma FusedExecutable(b: Builder, zipped: (Result<seq<Archives.ZipEntry>, Archives.ArchiveError>, FsState), env: Env, dest: Path)
    requires Wf(zipped.1)
    requires !Fuse(b, zipped, env, dest).0.Failed?
    ensures var exe := Config.ExePath(env.data, b.framework, Config.Win64);
            var payloadFile, exeFile := PayloadFile(b, dest), ExeFile(b, dest);
            var fs1, next := zipped.1, Fuse(b, zipped, env, dest).1;
            && zipped.0.Ok?
            && IsFile(fs1, exe) && IsFile(fs1, payloadFile)
            && exeFile in next && next[exeFile] == File(fs1[exe].data + fs1[payloadFile].data)
            && (exe != exeFile ==> exe in next && next[exe] == fs1[exe])
            && payloadFile in next && next[payloadFile] == fs1[payloadFile]
  {
    var payloadFile, exeFile := PayloadFile(b, dest), ExeFile(b, dest);
    assert payloadFile != exeFile by {
      assert payloadFile[|dest|] != exeFile[|dest|] by {
        NameSuffixesDiffer(b.config.project.name, Config.FrameworkName(b.framework));
      }
    }
  }

  /** "<name>.love" and "<name>.lovr" differ from "<name>.exe". */
  lemma NameSuffixesDiffer(name: string, framework: string)
    requires framework == "love" || framework == "lovr"
    ensures name + "." + framework != name + ".exe"
  {
    var x, y := name + "." + framework, name + ".exe";
    assert x[|name| + 1] != y[|name| + 1];
  }

  /** `package`: only Win64 is implemented; the direct entries of the output directory are zipped into `<project>.zip`. */
  function PackageSpec(b: Builder, fs: FsState, env: Env, t: Config.Target, dest: Path): (r: (Stage, FsState))
    requires Wf(fs)
    ensures Wf(r.1)
    ensures r.0 == Panic <==> t != Config.Win64
  {
    if t != Config.Win64 then (Panic, fs)
    else
      match ZipSpec(fs, env, dest, PackageFile(b, dest), false)
      case (Err(e), fs1) => (Failed(ArchiveFailed(e)), fs1)
      case (Ok(_), fs1) => (Done, fs1)
  }

  method Package(b: Builder, fs: FsState, env: Env, t: Config.Target, dest: Path) returns (r: Stage, next: FsState)
    requires Wf(fs)
    ensures (r, next) == PackageSpec(b, fs, env, t, dest)
  {
    if t != Config.Win64 {
      return Panic, fs;
    }
    var zipped;
    zipped, next := WriteZip(fs, env, dest, PackageFile(b, dest), false);
    if zipped.Err? {
      return Failed(ArchiveFailed(zipped.error)), next;
    }
    r := Done;
  }

  /**
   * A packaged build holds an entry for every direct entry of the output
   * directory and for no other path (a directory entry for each subdirectory, with none of its
   * contents), and none for `<project>.zip` itself.
   */
  lemma PackagedEntries(b: Builder, fs: FsState, env: Env, dest: Path)
    requires Wf(fs) && ListsChildren(env.ls)
    requires PackageSpec(b, fs, env, Config.Win64, dest).0 == Done
    ensures var zip := PackageFile(b, dest);
            var w := Archives.Layout(dest, zip, env.sep);
            var fs1 := fs[zip := File([])];
            var zipped := ZipSpec(fs, env, dest, zip, false);
            && zipped.0.Ok?
            && PackageSpec(b, fs, env, Config.Win64, dest).1 == fs[zip := File(env.encode(zipped.0.value))]
            && Archives.Elems(zipped.0.value) == Archives.EntriesFor(fs1, w, Archives.Emitted(fs1, w, dest, false))
            && zip !in Archives.Emitted(fs1, w, dest, false)
            && forall q :: q in Archives.Emitted(fs1, w, dest, false) <==> q in Children(fs1, dest) && q != zip
  {
    ZipContents(fs, env, dest, PackageFile(b, dest), false);
  }

  // ---------------------------------------------------------------------
  // bundle

  /** How a target ends: built, failed in some stage, or skipped because its output directory could not be made. */
  datatype Status = Success | Failure | Skipped

  datatype Report = Report(target: Config.Target, status: Status)

  datatype TargetEnd = Finished(status: Status) | Panicked

  /**
   * The stages for one target: install the framework, then the rest. A
   * failed install, copy, executable or package marks the target failed and
   * the later stages still run; a failure to make the output directory
   * skips the rest of the target.
   */
  function TargetSpec(b: Builder, fs: FsState, env: Env, t: Config.Target): (r: (TargetEnd, FsState))
    requires Wf(fs)
    ensures Wf(r.1)
    ensures r.0 == Panicked ==> t != Config.Win64 || env.host != Config.Win64
  {
    AfterInstall(b, EnsureInstalled(b, fs, env), env, t)
  }

  /** The stages of a target after the install, whose outcome is `installed`. */
  function AfterInstall(b: Builder, installed: (Outcome<BuildError>, FsState), env: Env, t: Config.Target)
    : (r: (TargetEnd, FsState))
    requires Wf(installed.1)
    ensures Wf(r.1)
    ensures r.0 == Panicked ==> t != Config.Win64 || env.host != Config.Win64
  {
    var dest := OutputPath(b, t);
    match OutputDir(b, installed.1, t)
    case Err(_) => (Finished(Skipped), installed.1)
    case Ok(fs2) =>
      var (copied, fs3) := CopyFilesSpec(b, fs2, env, t, dest);
      var (fused, fs4) := FuseSpec(b, fs3, env, t, dest);
      if fused == Panic then (Panicked, fs4)
      else
        var (packed, fs5) := PackageSpec(b, fs4, env, t, dest);
        if packed == Panic then (Panicked, fs5)
        else
          var fail := installed.0.Fail? || copied.Fail? || fused.Failed? || packed.Failed?;
          (Finished(if fail then Failure else Success), fs5)
  }

  /** The body of `bundle`'s loop for one target. */
  method RunTarget(b: Builder, fs: FsState, env: Env, t: Config.Target) returns (end: TargetEnd, next: FsState)
    requires Wf(fs)
    ensures (end, next) == TargetSpec(b, fs, env, t)
  {
    var installed := EnsureInstalled(b, fs, env);
    end, next := RunStages(b, installed, env, t);
  }

  /** The loop body after the install, with its `fail` flag. */
  method RunStages(b: Builder, installed: (Outcome<BuildError>, FsState), env: Env, t: Config.Target)
    returns (end: TargetEnd, next: FsState)
    requires Wf(installed.1)
    ensures (end, next) == AfterInstall(b, installed, env, t)
  {
    var fail := installed.0.Fail?;
    next := installed.1;
    var dest := OutputPath(b, t);
    var made := OutputDir(b, next, t);
    if made.Err? {
      return Finished(Skipped), next;
    }
    next := made.value;
    var copied, fused, packed;
    copied, next := CopyFiles(b, next, env, t, dest);
    if copied.Fail? {
      fail := true;
    }
    fused, next := BuildExecutable(b, next, env, t, dest);
    if fused == Panic {
      return Panicked, next;
    }
    if fused.Failed? {
      fail := true;
    }
    packed, next := Package(b, next, env, t, dest);
    if packed == Panic {
      return Panicked, next;
    }
    if packed.Failed? {
      fail := true;
    }
    end := Finished(if fail then Failure else Success);
  }

  /**
   * A target is skipped exactly when its output directory cannot be made,
   * and then nothing after the install has touched the filesystem. A target
   * other than Win64 is never built: it is skipped or it panics.
   */
  lemma SkippedWithoutOutputDir(b: Builder, installed: (Outcome<BuildError>, FsState), env: Env, t: Config.Target)
    requires Wf(installed.1)
    ensures var r := AfterInstall(b, installed, env, t);
            && (r.0 == Finished(Skipped) <==> OutputDir(b, installed.1, t).Err?)
            && (r.0 == Finished(Skipped) ==> r.1 == installed.1)
            && (t != Config.Win64 ==> r.0 == Panicked || r.0 == Finished(Skipped))
  {
  }

  /**
   * With the output directory made and no panic, the target is reported
   * built exactly when the install, the copies, the executable and the
   * package all succeeded: an earlier failure does not stop the later
   * stages, whose changes all remain.
   */
  lemma Verdict(b: Builder, installed: (Outcome<BuildError>, FsState), env: Env, t: Config.Target)
    requires Wf(installed.1)
    requires OutputDir(b, installed.1, t).Ok?
    requires AfterInstall(b, installed, env, t).0 != Panicked
    ensures var fs2 := OutputDir(b, installed.1, t).value;
            var dest := OutputPath(b, t);
            var fs3 := CopyFilesSpec(b, fs2, env, t, dest).1;
            var fs4 := FuseSpec(b, fs3, env, t, dest).1;
            var r := AfterInstall(b, installed, env, t);
            && (r.0 == Finished(Success)
                <==> installed.0.Pass? && CopyFilesSpec(b, fs2, env, t, dest).0.Pass?
                     && FuseSpec(b, fs3, env, t, dest).0 == Done && PackageSpec(b, fs4, env, t, dest).0 == Done)
            && r.0 != Finished(Skipped)
            && r.1 == PackageSpec(b, fs4, env, t, dest).1
  {
    var fs2 := OutputDir(b, installed.1, t).value;
    var dest := OutputPath(b, t);
    var (copied, fs3) := CopyFilesSpec(b, fs2, env, t, dest);
    var (fused, fs4) := FuseSpec(b, fs3, env, t, dest);
    var (packed, fs5) := PackageSpec(b, fs4, env, t, dest);
    var fail := installed.0.Fail? || copied.Fail? || fused.Failed? || packed.Failed?;
    assert AfterInstall(b, installed, env, t) == (Finished(if fail then Failure else Success), fs5);
  }

  /** The targets `bundle` goes through: the build's list, or the host's default target when the list is empty. */
  function BundleTargets(b: Builder, env: Env): (ts: seq<Config.Target>)
    ensures |ts| > 0
    ensures b.build.targets != [] ==> ts == b.build.targets
    ensures b.build.targets == [] ==> ts == [Config.DefaultTarget(env.host)]
  {
    if |b.build.targets| == 0 then [Config.DefaultTarget(env.host)] else b.build.targets
  }

  /** The reports in target order, the final state, and whether a panic ended the run. */
  datatype Run = Run(reports: seq<Report>, fs: FsState, panicked: bool)

  /** What one target does to the filesystem and how it ends. */
  type Step = (FsState, Config.Target) --> (TargetEnd, FsState)

  ghost predicate KeepsWf(step: Step) {
    forall fs: FsState, t: Config.Target {:trigger step.requires(fs, t)} :: Wf(fs) ==> step.requires(fs, t) && Wf(step(fs, t).1)
  }

  /** `bundle`'s loop: the targets `ts` in order, each from the state the previous one left, until a panic. */
  function RunAll(step: Step, fs: FsState, ts: seq<Config.Target>): (r: Run)
    requires KeepsWf(step) && Wf(fs)
    ensures Wf(r.fs)
    decreases |ts|
  {
    if ts == [] then Run([], fs, false)
    else
      var (end, fs1) := step(fs, ts[0]);
      match end
      case Panicked => Run([], fs1, true)
      case Finished(status) =>
        var rest := RunAll(step, fs1, ts[1..]);
        Run([Report(ts[0], status)] + rest.reports, rest.fs, rest.panicked)
  }

  /** The stages of one target of this builder. */
  function TargetStep(b: Builder, env: Env): (step: Step)
    ensures KeepsWf(step)
  {
    (fs: FsState, t: Config.Target) requires Wf(fs) => TargetSpec(b, fs, env, t)
  }

  function Prepend(reports: seq<Report>, r: Run): Run {
    Run(reports + r.reports, r.fs, r.panicked)
  }

  /** `Builder::bundle`: every target in turn; the function itself always returns `Ok(())`. */
  method Bundle(b: Builder, fs: FsState, env: Env) returns (run: Run)
    requires Wf(fs)
    ensures run == RunAll(TargetStep(b, env), fs, BundleTargets(b, env))
  {
    var targets := if |b.build.targets| == 0 then [Config.DefaultTarget(env.host)] else b.build.targets;
    run := RunTargets(b, fs, env, targets, TargetStep(b, env));
  }

  /** `bundle`'s loop, against `step`, which stands for the stages of one target. */
  method RunTargets(b: Builder, fs: FsState, env: Env, targets: seq<Config.Target>, ghost step: Step) returns (run: Run)
    requires Wf(fs) && KeepsWf(step)
    requires forall fs': FsState, t: Config.Target {:trigger TargetSpec(b, fs', env, t)}
               :: Wf(fs') ==> step(fs', t) == TargetSpec(b, fs', env, t)
    ensures run == RunAll(step, fs, targets)
  {
    ghost var whole := RunAll(step, fs, targets);
    var reports: seq<Report> := [];
    var cur := fs;
    var i := 0;
    assert targets[0..] == targets;
    while i < |targets|
      invariant 0 <= i <= |targets| && Wf(cur)
      invariant whole == Prepend(reports, RunAll(step, cur, targets[i..]))
    {
      var end, next := RunTargetStep(b, cur, env, targets[i], step);
      RunAllStep(step, cur, targets[i..], end, next);
      assert targets[i..][1..] == targets[i + 1..];
      if end == Panicked {
        return Run(reports, next, true);
      }
      PrependTwice(reports, [Report(targets[i], end.status)], RunAll(step, next, targets[i + 1..]));
      reports := reports + [Report(targets[i], end.status)];
      cur := next;
      i := i + 1;
    }
    assert targets[i..] == [];
    run := Run(reports, cur, false);
  }

  /** `RunTarget`, with its outcome stated through `step`. */
  method RunTargetStep(b: Builder, fs: FsState, env: Env, t: Config.Target, ghost step: Step) returns (end: TargetEnd, next: FsState)
    requires Wf(fs) && KeepsWf(step)
    requires forall fs': FsState, t: Config.Target {:trigger TargetSpec(b, fs', env, t)}
               :: Wf(fs') ==> step(fs', t) == TargetSpec(b, fs', env, t)
    ensures (end, next) == step(fs, t)
  {
    end, next := RunTarget(b, fs, env, t);
  }

  /** Prepending two runs of reports is prepending them joined. */
  lemma PrependTwice(a: seq<Report>, b: seq<Report>, run: Run)
    ensures Prepend(a, Prepend(b, run)) == Prepend(a + b, run)
  {
    assert a + (b + run.reports) == (a + b) + run.reports;
  }

  /** One step of `RunAll`, given how the first target ends. */
  lemma RunAllStep(step: Step, fs: FsState, ts: seq<Config.Target>, end: TargetEnd, next: FsState)
    requires KeepsWf(step) && Wf(fs) && ts != [] && (end, next) == step(fs, ts[0])
    ensures end == Panicked ==> RunAll(step, fs, ts) == Run([], next, true)
    ensures end != Panicked ==> RunAll(step, fs, ts) == Prepend([Report(ts[0], end.status)], RunAll(step, next, ts[1..]))
  {
  }

  /**
   * Targets are reported in list order, one report each; only a panic cuts
   * the list short, and then the target that panicked is not reported.
   */
  lemma {:induction false} ReportsInOrder(step: Step, fs: FsState, ts: seq<Config.Target>)
    requires KeepsWf(step) && Wf(fs)
    ensures var r := RunAll(step, fs, ts);
            && |r.reports| <= |ts|
            && (forall i :: 0 <= i < |r.reports| ==> r.reports[i].target == ts[i])
            && (r.panicked <==> |r.reports| < |ts|)
    decreases |ts|
  {
    if ts != [] {
      var (end, fs1) := step(fs, ts[0]);
      if end.Finished? {
        ReportsInOrder(step, fs1, ts[1..]);
        var rest := RunAll(step, fs1, ts[1..]);
        assert forall i :: 1 <= i < |rest.reports| + 1 ==> ([Report(ts[0], end.status)] + rest.reports)[i] == rest.reports[i - 1];
      }
    }
  }

  /** When no target of `ts` panics, from any state, the run goes through every target. */
  lemma {:induction false} NoPanicRunsAll(step: Step, fs: FsState, ts: seq<Config.Target>)
    requires KeepsWf(step) && Wf(fs)
    requires forall fs': FsState, t: Config.Target {:trigger step(fs', t)}
               :: Wf(fs') && t in ts ==> step(fs', t).0 != Panicked
    ensures !RunAll(step, fs, ts).panicked
    decreases |ts|
  {
    if ts != [] {
      var (end, fs1) := step(fs, ts[0]);
      NoPanicRunsAll(step, fs1, ts[1..]);
    }
  }

  /** Building only for Win64 on a Windows host never panics, so every target is reported. */
  lemma NoPanicOnWindows(b: Builder, fs: FsState, env: Env, ts: seq<Config.Target>)
    requires Wf(fs) && env.host == Config.Win64
    requires forall t :: t in ts ==> t == Config.Win64
    ensures var r := RunAll(TargetStep(b, env), fs, ts);
            !r.panicked && |r.reports| == |ts|
  {
    var step := TargetStep(b, env);
    NoPanicRunsAll(step, fs, ts);
    ReportsInOrder(step, fs, ts);
  }
}

=== FILE: config.dfy ===
/**
 * The project configuration: the supported frameworks and their fixed
 * tables, the build targets, and the on-disk layout of installed frameworks.
 */
module Config {
  import opened Wrappers
  import opened Versions
  import opened Fs

  datatype Framework = Love | Lovr

  /** `FromStr` for a framework name; any other string is an error that quotes it. */
  function ParseFramework(s: string): (r: Result<Framework, string>)
    ensures r.Ok? <==> s == "love" || s == "lovr"
    ensures r.Err? ==> r.error == "invalid framework: " + s
  {
    match s
    case "love" => Ok(Love)
    case "lovr" => Ok(Lovr)
    case other => Err("invalid framework: " + other)
  }

  /** `Display` for a framework: the name that parses back to it. */
  function FrameworkName(f: Framework): (s: string)
    ensures ParseFramework(s) == Ok(f)
  {
    match f
    case Love => "love"
    case Lovr => "lovr"
  }

  /** The GitHub account that publishes the framework's releases: one URL path segment. */
  function Owner(f: Framework): (s: string)
    ensures |s| > 0 && forall j :: 0 <= j < |s| ==> s[j] != '/'
  {
    match f
    case Love => "love2d"
    case Lovr => "bjornbytes"
  }

  /** The GitHub repository that publishes the framework's releases; it is named after the framework. */
  function Repo(f: Framework): (s: string)
    ensures s == FrameworkName(f)
  {
    match f
    case Love => "love"
    case Lovr => "lovr"
  }

  /** The oldest version the tool supports; it is never above the latest one. */
  function MinVersion(f: Framework): (v: Version)
    ensures LessEq(v, Latest(f))
  {
    match f
    case Love => MinLove
    case Lovr => MinLovr
  }

  /** The newest version the tool knows of, as the release tag it prints. */
  function Latest(f: Framework): (v: Version)
    ensures ToString(v) == match f case Love => "11.5" case Lovr => "0.17.0"
  {
    match f
    case Love => LatestLove
    case Lovr => LatestLovr
  }

  /** A platform a project is built for. */
  datatype Target = Win64 | Macos | Linux | Ios | Android

  /**
   * `Display` for a target; it is also the name of the host OS on that
   * platform, a lower-case word usable as a directory name.
   */
  function TargetName(t: Target): (s: string)
    ensures |s| > 0 && forall j :: 0 <= j < |s| ==> 'a' <= s[j] <= 'z'
  {
    match t
    case Win64 => "windows"
    case Macos => "macos"
    case Linux => "linux"
    case Ios => "ios"
    case Android => "android"
  }

  /**
   * `Target::default()`: the platform the tool itself runs on. The host is
   * a parameter of the model rather than a compile-time setting.
   */
  function DefaultTarget(host: Target): (t: Target)
    ensures t == host
  {
    host
  }

  /** Where a framework is installed for a target: `<data>/<target>/<framework>`. */
  function InstallPath(data: Path, f: Framework, t: Target): (p: Path)
    ensures |p| == |data| + 2 && p[..|data|] == data
    ensures p[|data|] == Text(TargetName(t)) && p[|data| + 1] == Text(FrameworkName(f))
  {
    data + [Text(TargetName(t)), Text(FrameworkName(f))]
  }

  /** The framework's interpreter executable: `<install path>/<framework>.exe`. */
  function ExePath(data: Path, f: Framework, t: Target): (p: Path)
    ensures |p| == |data| + 3 && p[..|data| + 2] == InstallPath(data, f, t)
    ensures p[|data| + 2] == Text(FrameworkName(f) + ".exe")
  {
    InstallPath(data, f, t) + [Text(FrameworkName(f) + ".exe")]
  }

  datatype Project = Project(name: string, icon: Option<string>)

  /** The requested framework version and the targets to build for. */
  datatype Build = Build(version: Version, targets: seq<Target>)

  datatype Settings = Settings(icon: Option<string>)

  datatype ProjectConfig = ProjectConfig(
    project: Project,
    build: map<Framework, Build>,
    target: map<Target, Settings>)

  /** `Config::new`: a named project with no icon and nothing to build yet. */
  function NewConfig(name: string): (c: ProjectConfig)
    ensures c.project.name == name && c.project.icon == None
    ensures c.build == map[] && c.target == map[]
  {
    ProjectConfig(Project(name, None), map[], map[])
  }

  /** Parsing a framework name accepts exactly the names `Display` prints. */
  lemma ParseFrameworkExactly(s: string, f: Framework)
    ensures ParseFramework(s) == Ok(f) <==> s == FrameworkName(f)
    ensures ParseFramework(s).Err? <==> s != "love" && s != "lovr"
  {
  }

  /** Each framework's minimum supported version is not above its latest. */
  lemma MinNotAboveLatest(f: Framework)
    ensures LessEq(MinVersion(f), Latest(f))
  {
  }

  /** Different targets print differently, so their install paths differ. */
  lemma TargetNamesDistinct(s: Target, t: Target)
    ensures TargetName(s) == TargetName(t) <==> s == t
  {
  }

  lemma FrameworkTables()
    ensures Owner(Love) == "love2d" && Repo(Love) == "love"
    ensures Owner(Lovr) == "bjornbytes" && Repo(Lovr) == "lovr"
    ensures MinVersion(Love) == Version(11, 0, None) && Latest(Love) == Version(11, 5, None)
    ensures MinVersion(Lovr) == Version(0, 15, Some(0)) && Latest(Lovr) == Version(0, 17, Some(0))
  {
  }
}

=== FILE: decimal.dfy ===
/**
 * Decimal text for machine-word integers, the way the Rust standard library
 * reads (`usize::from_str`) and writes (`Display`) them. Version identifiers
 * are built out of these.
 */
module Decimal {
  import opened Wrappers

  /** Largest `usize` on the 64-bit hosts the tool builds for. */
  const UsizeMax: nat := 0xFFFF_FFFF_FFFF_FFFF

  type Usize = n: nat | n <= UsizeMax

  /** The three ways `usize::from_str` can fail (`IntErrorKind`). */
  datatype IntErrorKind = Empty | InvalidDigit | PosOverflow

  predicate IsDigit(c: char) {
    '0' <= c <= '9'
  }

  function DigitValue(c: char): (d: nat)
    requires IsDigit(c)
    ensures d < 10
  {
    c as int - '0' as int
  }

  function DigitChar(d: nat): (c: char)
    requires d < 10
    ensures IsDigit(c) && DigitValue(c) == d
  {
    ('0' as int + d) as char
  }

  predicate AllDigits(s: string) {
    forall i :: 0 <= i < |s| ==> IsDigit(s[i])
  }

  /** The value of the digit string `s` read left to right onto `acc`. */
  function Horner(acc: nat, s: string): (r: nat)
    requires AllDigits(s)
    ensures r >= acc
    decreases |s|
  {
    if s == [] then acc else Horner(acc * 10 + DigitValue(s[0]), s[1..])
  }

  lemma {:induction false} HornerSnoc(acc: nat, s: string, c: char)
    requires AllDigits(s) && IsDigit(c)
    ensures AllDigits(s + [c])
    ensures Horner(acc, s + [c]) == Horner(acc, s) * 10 + DigitValue(c)
    decreases |s|
  {
    if s == [] {
      assert s + [c] == [c];
    } else {
      assert (s + [c])[1..] == s[1..] + [c];
      HornerSnoc(acc * 10 + DigitValue(s[0]), s[1..], c);
    }
  }

  /**
   * The digit loop of `from_str_radix`: each character is first checked to
   * be a digit, then the running value times ten plus the digit is checked
   * against the maximum. The first problem met, left to right, is reported.
   */
  function Accumulate(s: string, acc: Usize): (r: Result<Usize, IntErrorKind>)
    ensures r.Ok? <==> AllDigits(s) && Horner(acc, s) <= UsizeMax
    ensures r.Ok? ==> r.value == Horner(acc, s)
    ensures r.Err? ==> r.error != Empty
    decreases |s|
  {
    if s == [] then Ok(acc)
    else if !IsDigit(s[0]) then Err(InvalidDigit)
    else if acc * 10 + DigitValue(s[0]) > UsizeMax then Err(PosOverflow)
    else Accumulate(s[1..], acc * 10 + DigitValue(s[0]))
  }

  /**
   * A `usize` literal: one optional leading '+', then at least one decimal
   * digit, with a value that fits.
   */
  predicate IsUsizeLiteral(s: string) {
    var digits := if |s| > 0 && s[0] == '+' then s[1..] else s;
    |digits| > 0 && AllDigits(digits) && Horner(0, digits) <= UsizeMax
  }

  function LiteralValue(s: string): nat
    requires IsUsizeLiteral(s)
  {
    Horner(0, if |s| > 0 && s[0] == '+' then s[1..] else s)
  }

  /** `usize::from_str`. */
  function ParseUsize(s: string): (r: Result<Usize, IntErrorKind>)
    ensures r.Ok? <==> IsUsizeLiteral(s)
    ensures r.Ok? ==> r.value == LiteralValue(s)
    ensures r == Err(Empty) <==> s == []
  {
    if s == [] then Err(Empty)
    else if |s| == 1 && (s[0] == '+' || s[0] == '-') then Err(InvalidDigit)
    else if s[0] == '+' then Accumulate(s[1..], 0)
    else Accumulate(s, 0)
  }

  /** `Display` for an unsigned integer: shortest decimal form. */
  function ToDecimal(n: nat): (s: string)
    decreases n
  {
    if n < 10 then [DigitChar(n)] else ToDecimal(n / 10) + [DigitChar(n % 10)]
  }

  lemma {:induction false} ToDecimalDigits(n: nat)
    ensures |ToDecimal(n)| > 0 && AllDigits(ToDecimal(n))
    ensures Horner(0, ToDecimal(n)) == n
    decreases n
  {
    if n >= 10 {
      ToDecimalDigits(n / 10);
      HornerSnoc(0, ToDecimal(n / 10), DigitChar(n % 10));
    }
  }

  /** Printing a `usize` and reading it back gives the same number. */
  lemma ParsePrintedUsize(n: Usize)
    ensures ParseUsize(ToDecimal(n)) == Ok(n)
  {
    ToDecimalDigits(n);
  }

  /** A printed number holds digits only, so it contains no '.' and no 'v'. */
  lemma ToDecimalHasOnlyDigits(n: nat, i: nat)
    requires i < |ToDecimal(n)|
    ensures IsDigit(ToDecimal(n)[i])
  {
    ToDecimalDigits(n);
  }

  lemma {:induction false} AccumulateAppend(x: string, y: string, acc: Usize)
    requires AllDigits(x) && Horner(acc, x) <= UsizeMax
    ensures Accumulate(x + y, acc) == Accumulate(y, Horner(acc, x))
    decreases |x|
  {
    if x == [] {
      assert x + y == y;
    } else {
      var next := acc * 10 + DigitValue(x[0]);
      assert Horner(acc, x) == Horner(next, x[1..]) >= next;
      assert (x + y)[0] == x[0];
      assert (x + y)[1..] == x[1..] + y;
      AccumulateAppend(x[1..], y, next);
    }
  }

  /** Reading a number stops with `InvalidDigit` at the first character that is not a digit. */
  lemma ParseStopsAtNonDigit(n: Usize, rest: string)
    requires rest != [] && !IsDigit(rest[0])
    ensures ParseUsize(ToDecimal(n) + rest) == Err(InvalidDigit)
  {
    ToDecimalDigits(n);
    var s := ToDecimal(n) + rest;
    assert s[0] == ToDecimal(n)[0];
    AccumulateAppend(ToDecimal(n), rest, 0);
  }

  lemma EmptyNeverParses()
    ensures ParseUsize("") == Err(Empty)
    ensures ParseUsize("+") == Err(InvalidDigit)
  {
  }
}

=== FILE: fs.dfy ===
/**
 * The local filesystem, as the install cache and the build pipeline see it:
 * a map from absolute paths to files and directories, and the `std::fs`
 * operations they use, each as a function from the old state to the new
 * state or an error. Only failures that follow from the shape of the tree
 * (a missing parent, a file where a directory is needed, and the reverse)
 * are modelled.
 */
module Fs {
  import opened Wrappers

  newtype Byte = b: int | 0 <= b < 256

  /** One path component as the OS stores it: text, or bytes that are not valid UTF-8. */
  datatype OsName = Text(text: string) | Raw(bytes: seq<Byte>)

  /** An absolute path, one component per element; [] is the root directory. */
  type Path = seq<OsName>

  datatype Node = File(data: seq<Byte>) | Dir

  type FsState = map<Path, Node>

  datatype IoError = NotFound | AlreadyExists | NotADirectory | IsADirectory | InvalidInput | InvalidData

  function Parent(p: Path): Path
    requires |p| > 0
  {
    p[..|p| - 1]
  }

  predicate IsPrefix(a: Path, b: Path) {
    |a| <= |b| && b[..|a|] == a
  }

  /** The root is implicit, and every other entry sits in a directory. */
  predicate Wf(fs: FsState) {
    && [] !in fs
    && forall p :: p in fs && |p| > 1 ==> Parent(p) in fs && fs[Parent(p)].Dir?
  }

  predicate Exists(fs: FsState, p: Path) {
    p == [] || p in fs
  }

  predicate IsDir(fs: FsState, p: Path) {
    p == [] || (p in fs && fs[p].Dir?)
  }

  predicate IsFile(fs: FsState, p: Path) {
    p in fs && fs[p].File?
  }

  lemma {:induction false} AncestorIsDir(fs: FsState, p: Path, k: nat)
    requires Wf(fs) && p in fs && 0 < k < |p|
    ensures p[..k] in fs && fs[p[..k]].Dir?
    decreases |p| - k
  {
    assert Parent(p) in fs && fs[Parent(p)].Dir?;
    if k < |p| - 1 {
      AncestorIsDir(fs, Parent(p), k);
      assert Parent(p)[..k] == p[..k];
    }
  }

  /** The entries directly inside `dir`: what `read_dir` lists, in no particular order. */
  function Children(fs: FsState, dir: Path): set<Path> {
    set p | p in fs && |p| == |dir| + 1 && p[..|dir|] == dir
  }

  /**
   * The order in which `read_dir` yields a directory's entries is the OS's
   * choice; a lister stands for that choice, one sequence per state and
   * directory.
   */
  type Lister = (FsState, Path) -> seq<Path>

  /** `s` lists each entry of `cs` exactly once. */
  predicate IsListing(s: seq<Path>, cs: set<Path>) {
    && (forall i :: 0 <= i < |s| ==> s[i] in cs)
    && (forall c :: c in cs ==> c in s)
    && (forall i, j :: 0 <= i < j < |s| ==> s[i] != s[j])
  }

  /** A lister that, like `read_dir`, yields every entry of the directory once. */
  ghost predicate ListsChildren(ls: Lister) {
    forall fs: FsState, dir: Path :: IsListing(ls(fs, dir), Children(fs, dir))
  }

  /** The elements of `s` that are in `keep`, in their order. */
  function Only(s: seq<Path>, keep: set<Path>): (r: seq<Path>)
    ensures forall i :: 0 <= i < |r| ==> r[i] in keep
    ensures (forall i :: 0 <= i < |s| ==> s[i] in keep) ==> r == s
  {
    if s == [] then []
    else if s[0] in keep then [s[0]] + Only(s[1..], keep)
    else Only(s[1..], keep)
  }

  /** `read_dir(dir)`: the entries of `dir` in the lister's order. */
  function ReadDir(fs: FsState, ls: Lister, dir: Path): (r: seq<Path>)
    ensures forall i :: 0 <= i < |r| ==> r[i] in Children(fs, dir)
  {
    Only(ls(fs, dir), Children(fs, dir))
  }

  lemma ReadDirLists(fs: FsState, ls: Lister, dir: Path)
    requires ListsChildren(ls)
    ensures IsListing(ReadDir(fs, ls, dir), Children(fs, dir))
  {
    assert IsListing(ls(fs, dir), Children(fs, dir));
  }

  /** Every entry strictly inside `dir`, at any depth. */
  function Below(fs: FsState, dir: Path): set<Path> {
    set p | p in fs && |p| > |dir| && p[..|dir|] == dir
  }

  /** True when `p` or one of its ancestors is a file, so no directory can be made at `p`. */
  predicate FileAlong(fs: FsState, p: Path)
    decreases |p|
  {
    |p| > 0 && (IsFile(fs, p) || FileAlong(fs, Parent(p)))
  }

  /** Directory entries for `p` and each of its non-root ancestors. */
  function DirsAlong(p: Path): (m: map<Path, Node>)
    ensures forall q :: q in m <==> |q| > 0 && IsPrefix(q, p)
    ensures forall q :: q in m ==> m[q] == Dir
    decreases |p|
  {
    if p == [] then map[]
    else
      assert forall q :: IsPrefix(q, p) && q != p ==> IsPrefix(q, Parent(p));
      assert forall q :: IsPrefix(q, Parent(p)) ==> IsPrefix(q, p);
      DirsAlong(Parent(p))[p := Dir]
  }

  lemma {:induction false} NoFileAlong(fs: FsState, p: Path, q: Path)
    requires !FileAlong(fs, p) && |q| > 0 && IsPrefix(q, p)
    ensures !IsFile(fs, q)
    decreases |p|
  {
    if q != p {
      assert IsPrefix(q, Parent(p));
      NoFileAlong(fs, Parent(p), q);
    }
  }

  /** No file lies on the way to an existing directory. */
  lemma {:induction false} DirHasNoFileAlong(fs: FsState, d: Path)
    requires Wf(fs) && IsDir(fs, d)
    ensures !FileAlong(fs, d)
    decreases |d|
  {
    if |d| > 1 {
      DirHasNoFileAlong(fs, Parent(d));
    }
  }

  /** `create_dir_all`: make `p` and every missing ancestor; fails when a file is in the way. */
  function CreateDirAll(fs: FsState, p: Path): (r: Result<FsState, IoError>)
    requires Wf(fs)
    ensures r.Ok? <==> !FileAlong(fs, p)
    ensures r.Ok? ==> Wf(r.value) && IsDir(r.value, p)
    ensures r.Ok? ==> forall q :: q in r.value <==> q in fs || (|q| > 0 && IsPrefix(q, p))
    ensures r.Ok? ==> forall q :: q in fs ==> r.value[q] == fs[q]
  {
    if FileAlong(fs, p) then Err(if IsFile(fs, p) then AlreadyExists else NotADirectory)
    else
      AddDirsAlong(fs, p);
      Ok(fs + DirsAlong(p))
  }

  /** Adding the directories along `p` keeps the tree well formed and changes no existing entry. */
  lemma AddDirsAlong(fs: FsState, p: Path)
    requires Wf(fs) && !FileAlong(fs, p)
    ensures Wf(fs + DirsAlong(p))
    ensures forall q :: q in fs ==> (fs + DirsAlong(p))[q] == fs[q]
  {
    var d := DirsAlong(p);
    var m := fs + d;
    forall q | q in fs ensures m[q] == fs[q] {
      if q in d {
        NoFileAlong(fs, p, q);
      }
    }
    forall q | q in m && |q| > 1 ensures Parent(q) in m && m[Parent(q)].Dir? {
      if q in d {
        assert IsPrefix(Parent(q), q);
        assert Parent(q) in d;
      } else {
        assert Parent(q) in fs;
      }
    }
  }

  /** `remove_dir_all`: remove the directory `p` and everything in it. */
  function RemoveDirAll(fs: FsState, p: Path): (r: Result<FsState, IoError>)
    requires Wf(fs)
    ensures r.Ok? <==> p in fs && fs[p].Dir?
    ensures r.Ok? ==> Wf(r.value)
    ensures r.Ok? ==> forall q :: q in r.value <==> q in fs && !IsPrefix(p, q)
    ensures r.Ok? ==> forall q :: q in r.value ==> r.value[q] == fs[q]
  {
    if p !in fs then Err(NotFound)
    else if fs[p].File? then Err(NotADirectory)
    else
      var m := map q | q in fs && !IsPrefix(p, q) :: fs[q];
      assert forall q :: q in m && |q| > 1 ==> Parent(q) in m by {
        forall q | q in m && |q| > 1 ensures Parent(q) in m {
          assert IsPrefix(p, Parent(q)) ==> IsPrefix(p, q);
        }
      }
      Ok(m)
  }

  /** `std::fs::write` and `File::create`: create or truncate the file `p`. */
  function WriteFile(fs: FsState, p: Path, data: seq<Byte>): (r: Result<FsState, IoError>)
    requires Wf(fs)
    ensures r.Ok? <==> |p| > 0 && IsDir(fs, Parent(p)) && !IsDir(fs, p)
    ensures r.Ok? ==> Wf(r.value) && r.value == fs[p := File(data)]
  {
    if p == [] then Err(IsADirectory)
    else if !Exists(fs, Parent(p)) then Err(NotFound)
    else if !IsDir(fs, Parent(p)) then Err(NotADirectory)
    else if p in fs && fs[p].Dir? then Err(IsADirectory)
    else Ok(fs[p := File(data)])
  }

  /** `std::fs::read`: the whole content of the file `p`. */
  function ReadFile(fs: FsState, p: Path): (r: Result<seq<Byte>, IoError>)
    ensures r.Ok? <==> IsFile(fs, p)
    ensures r.Ok? ==> r.value == fs[p].data
  {
    if IsFile(fs, p) then Ok(fs[p].data)
    else if IsDir(fs, p) then Err(IsADirectory)
    else Err(NotFound)
  }

  /** Open an existing file `p` for appending and write `data` at its end. */
  function AppendFile(fs: FsState, p: Path, data: seq<Byte>): (r: Result<FsState, IoError>)
    requires Wf(fs)
    ensures r.Ok? <==> IsFile(fs, p)
    ensures r.Ok? ==> Wf(r.value) && r.value == fs[p := File(fs[p].data + data)]
  {
    if IsFile(fs, p) then Ok(fs[p := File(fs[p].data + data)])
    else if IsDir(fs, p) then Err(IsADirectory)
    else Err(NotFound)
  }

  /**
   * `std::fs::copy`: the source must be a file; the target is created or
   * truncated. With `src == dst` the model keeps the file, whereas Rust
   * truncates it first and leaves it empty; no modelled caller copies a
   * file onto itself.
   */
  function CopyFile(fs: FsState, src: Path, dst: Path): (r: Result<FsState, IoError>)
    requires Wf(fs)
    ensures r.Ok? <==> IsFile(fs, src) && |dst| > 0 && IsDir(fs, Parent(dst)) && !IsDir(fs, dst)
    ensures r.Ok? ==> Wf(r.value) && r.value == fs[dst := fs[src]]
  {
    if !IsFile(fs, src) then Err(if Exists(fs, src) then InvalidInput else NotFound)
    else WriteFile(fs, dst, fs[src].data)
  }

  /**
   * `std::fs::rename` of a file: an existing file at the target is replaced;
   * renaming a path to itself changes nothing.
   */
  function RenameFile(fs: FsState, src: Path, dst: Path): (r: Result<FsState, IoError>)
    requires Wf(fs)
    ensures r.Ok? <==> IsFile(fs, src) && |dst| > 0 && IsDir(fs, Parent(dst)) && !IsDir(fs, dst)
    ensures r.Ok? && src == dst ==> r.value == fs
    ensures r.Ok? && src != dst ==> Wf(r.value) && r.value == (fs - {src})[dst := fs[src]]
    ensures r.Ok? ==> Wf(r.value)
  {
    if !IsFile(fs, src) then Err(if Exists(fs, src) then InvalidInput else NotFound)
    else if dst == [] then Err(IsADirectory)
    else if !Exists(fs, Parent(dst)) then Err(NotFound)
    else if !IsDir(fs, Parent(dst)) then Err(NotADirectory)
    else if IsDir(fs, dst) then Err(IsADirectory)
    else if src == dst then Ok(fs)
    else
      var m := (fs - {src})[dst := fs[src]];
      assert forall q :: q in m && |q| > 1 ==> Parent(q) in m && m[Parent(q)].Dir? by {
        forall q | q in m && |q| > 1 ensures Parent(q) in m && m[Parent(q)].Dir? {
          if q != dst {
            assert q in fs;
            assert Parent(q) != src;
          }
        }
      }
      Ok(m)
  }

  /** Every byte of `s` is an ASCII character. */
  predicate IsAscii(s: string) {
    forall i :: 0 <= i < |s| ==> s[i] as int < 128
  }

  function EncodeAscii(s: string): (b: seq<Byte>)
    requires IsAscii(s)
    ensures |b| == |s| && forall i :: 0 <= i < |s| ==> b[i] as int == s[i] as int
  {
    seq(|s|, i requires 0 <= i < |s| => s[i] as int as Byte)
  }

  /**
   * Reading a text file: the bytes as characters when every byte is ASCII;
   * any other content is reported as unreadable.
   */
  function DecodeAscii(b: seq<Byte>): (r: Option<string>)
    ensures r.Some? ==> |r.value| == |b| && forall i :: 0 <= i < |b| ==> r.value[i] as int == b[i] as int
  {
    if forall i :: 0 <= i < |b| ==> b[i] < 128 then Some(seq(|b|, i requires 0 <= i < |b| => b[i] as int as char))
    else None
  }

  lemma DecodeEncoded(s: string)
    requires IsAscii(s)
    ensures DecodeAscii(EncodeAscii(s)) == Some(s)
  {
    var b := EncodeAscii(s);
    assert forall i :: 0 <= i < |b| ==> b[i] < 128;
    assert DecodeAscii(b).value == s;
  }

  /**
   * Inside an existing directory, `create_dir_all` of a child adds just that
   * child, and fails only when a file already has its name.
   */
  lemma CreateChildDir(fs: FsState, dir: Path, x: OsName)
    requires Wf(fs) && IsDir(fs, dir)
    ensures CreateDirAll(fs, dir + [x]).Ok? <==> !IsFile(fs, dir + [x])
    ensures CreateDirAll(fs, dir + [x]).Ok? ==> CreateDirAll(fs, dir + [x]).value == fs[dir + [x] := Dir]
  {
    var c := dir + [x];
    assert Parent(c) == dir;
    DirHasNoFileAlong(fs, dir);
    var r := CreateDirAll(fs, c);
    if r.Ok? {
      var m := fs[c := Dir];
      forall q | q in r.value && q !in fs && q != c ensures false {
        InsideDir(fs, dir, x, q);
      }
      assert IsDir(r.value, c);
      assert r.value.Keys == m.Keys;
      forall q | q in m ensures r.value[q] == m[q] {
        if q != c {
          assert q in fs;
        }
      }
      assert r.value == m;
    }
  }

  lemma InsideDir(fs: FsState, dir: Path, x: OsName, q: Path)
    requires Wf(fs) && IsDir(fs, dir)
    requires |q| > 0 && IsPrefix(q, dir + [x]) && q != dir + [x]
    ensures q in fs
  {
    assert |q| <= |dir|;
    assert q == dir[..|q|] by { assert (dir + [x])[..|q|] == dir[..|q|]; }
    if |q| < |dir| {
      AncestorIsDir(fs, dir, |q|);
    } else {
      assert q == dir;
    }
  }
}

=== FILE: gittree.dfy ===
/**
 * The tree listing of the git hosting API: each entry's file mode arrives
 * as an octal string and is decoded into a mode, and the tree hands its
 * entries out in the order they were listed. Reading the JSON around the
 * modes is left to the caller: entries arrive here with every field but the
 * mode already read.
 */
module GitTrees {
  import opened Wrappers

  datatype Blob = File | Executable | Symlink

  datatype Mode = Blob(blob: Blob) | SubDirectory | SubModule

  const UnknownEntryType: string := "unknown entry type: "

  /** `deserialize_entry_type`: the five modes git writes, and nothing else. */
  function DecodeMode(s: string): (r: Result<Mode, string>)
    ensures r.Err? ==> r.error == UnknownEntryType + s
  {
    match s
    case "100644" => Ok(Blob(File))
    case "100755" => Ok(Blob(Executable))
    case "120000" => Ok(Blob(Symlink))
    case "040000" => Ok(SubDirectory)
    case "160000" => Ok(SubModule)
    case _ => Err(UnknownEntryType + s)
  }

  /** The code git writes for each mode: six octal digits. */
  function EncodeMode(m: Mode): (s: string)
    ensures |s| == 6 && forall j :: 0 <= j < 6 ==> '0' <= s[j] <= '7'
  {
    match m
    case Blob(File) => "100644"
    case Blob(Executable) => "100755"
    case Blob(Symlink) => "120000"
    case SubDirectory => "040000"
    case SubModule => "160000"
  }

  /** Every mode's code decodes back to it. */
  lemma DecodeEncode(m: Mode)
    ensures DecodeMode(EncodeMode(m)) == Ok(m)
  {
  }

  /** A code that decodes is the code of the mode it decodes to. */
  lemma EncodeDecode(s: string)
    ensures DecodeMode(s).Ok? ==> EncodeMode(DecodeMode(s).value) == s
  {
  }

  /** Distinct accepted codes decode to distinct modes. */
  lemma {:induction false} DecodeInjective(s: string, t: string)
    requires DecodeMode(s).Ok? && DecodeMode(t).Ok?
    requires DecodeMode(s) == DecodeMode(t)
    ensures s == t
  {
    EncodeDecode(s);
    EncodeDecode(t);
  }

  /** The code of a sub-directory needs its leading zero. */
  lemma LeadingZeroRequired()
    ensures DecodeMode("40000") == Err(UnknownEntryType + "40000")
    ensures DecodeMode("040000") == Ok(SubDirectory)
  {
  }

  /** An entry as listed, its mode not yet decoded. */
  datatype RawEntry = RawEntry(mode: string, path: string, sha: string, ty: string, url: Option<string>)

  datatype TreeEntry = TreeEntry(mode: Mode, path: string, sha: string, ty: string, url: Option<string>)

  datatype Tree = Tree(sha: string, truncated: bool, url: string, tree: seq<TreeEntry>)

  /** The entries with their modes decoded; the first mode that does not decode fails the whole listing. */
  function DecodeEntries(raws: seq<RawEntry>): (r: Result<seq<TreeEntry>, string>)
    ensures r.Ok? <==> forall i :: 0 <= i < |raws| ==> DecodeMode(raws[i].mode).Ok?
    ensures r.Ok? ==> |r.value| == |raws|
    ensures r.Ok? ==> forall i :: 0 <= i < |raws| ==>
              r.value[i] == TreeEntry(DecodeMode(raws[i].mode).value, raws[i].path, raws[i].sha, raws[i].ty, raws[i].url)
    ensures r.Err? ==> exists i :: 0 <= i < |raws| && DecodeMode(raws[i].mode).Err?
                                   && r.error == UnknownEntryType + raws[i].mode
                                   && forall j :: 0 <= j < i ==> DecodeMode(raws[j].mode).Ok?
  {
    if raws == [] then Ok([])
    else
      var raw := raws[0];
      match DecodeMode(raw.mode)
      case Err(e) => Err(e)
      case Ok(mode) =>
        match DecodeEntries(raws[1..])
        case Err(e) =>
          assert forall i :: 1 <= i < |raws| ==> raws[1..][i - 1] == raws[i];
          Err(e)
        case Ok(rest) => Ok([TreeEntry(mode, raw.path, raw.sha, raw.ty, raw.url)] + rest)
  }

  /** `Tree::iter`: the entries, first to last, each once. */
  function Iter(t: Tree): (es: seq<TreeEntry>)
    ensures |es| == |t.tree| && forall i :: 0 <= i < |es| ==> es[i] == t.tree[i]
  {
    t.tree
  }

  /**
   * A tree built from a listing hands out one entry per listed entry, in the
   * listed order, each with its listed path and its decoded mode.
   */
  lemma IterInListedOrder(sha: string, truncated: bool, url: string, raws: seq<RawEntry>)
    requires DecodeEntries(raws).Ok?
    ensures var es := Iter(Tree(sha, truncated, url, DecodeEntries(raws).value));
            && |es| == |raws|
            && forall i :: 0 <= i < |raws| ==> es[i].path == raws[i].path && EncodeMode(es[i].mode) == raws[i].mode
  {
    forall i | 0 <= i < |raws| ensures EncodeMode(DecodeEntries(raws).value[i].mode) == raws[i].mode {
      EncodeDecode(raws[i].mode);
    }
  }
}

=== FILE: install_props.dfy ===
/**
 * What `Release::install` guarantees about the cache: when it downloads,
 * when it stops early, what the marker holds afterwards, what the
 * extracted tree holds, and what a second install does.
 */
module InstallProperties {
  import opened Wrappers
  import opened Versions
  import opened Fs
  import opened AssetNames
  import opened Releases
  import Config

  /** Nothing can exist inside a path that does not exist. */
  lemma {:induction false} MissingHasNothingBelow(fs: FsState, p: Path, q: Path)
    requires Wf(fs) && p != [] && p !in fs && |q| > |p| && q[..|p|] == p
    ensures q !in fs
    decreases |q| - |p|
  {
    if |q| - 1 > |p| {
      assert Parent(q)[..|p|] == p;
      MissingHasNothingBelow(fs, p, Parent(q));
    }
  }

  /** With no asset for the host, install fails before touching the filesystem or the network. */
  lemma NoHostAssetChangesNothing(fs: FsState, ctx: Context, rel: Release, name: string)
    requires Wf(fs)
    requires forall i :: 0 <= i < |rel.assets| ==> !HostMatches(rel.assets[i].name.ty, ctx.host)
    ensures InstallSpec(fs, ctx, rel, name) == InstallResult(Fail(NoHostAsset), fs, false, false)
  {
  }

  /**
   * The asset is downloaded exactly when `.archive/<asset name>` does not
   * exist (once `.archive` itself is in place).
   */
  lemma FetchedIffMissing(fs: FsState, ctx: Context, rel: Release, name: string, a: Asset)
    requires Wf(fs) && GetPlatformAsset(rel.assets, ctx.host) == Some(a)
    requires PrepareArchive(fs, ctx).Ok?
    ensures InstallSpec(fs, ctx, rel, name).fetched <==> !Exists(fs, ArchiveFile(ctx.data, ctx.host, a.name.name))
  {
    var dir := ArchiveDir(ctx.data, ctx.host);
    var zip := ArchiveFile(ctx.data, ctx.host, a.name.name);
    if !Exists(fs, dir) {
      var fs1 := PrepareArchive(fs, ctx).value;
      assert zip !in fs by {
        assert zip[..|dir|] == dir;
        MissingHasNothingBelow(fs, dir, zip);
      }
      assert zip !in fs1 by {
        assert !IsPrefix(zip, dir);
      }
    }
  }

  /**
   * A marker that already reads as the tag ends the install at once: with
   * the asset in place nothing is written, nothing is downloaded and no
   * message is shown.
   */
  lemma UpToDateChangesNothing(fs: FsState, ctx: Context, rel: Release, name: string, a: Asset)
    requires Wf(fs) && GetPlatformAsset(rel.assets, ctx.host) == Some(a)
    requires Exists(fs, ArchiveFile(ctx.data, ctx.host, a.name.name))
    requires IsFile(fs, MarkerFile(ctx.data, ctx.host, name))
    requires ReadMarker(fs[MarkerFile(ctx.data, ctx.host, name)].data) == Ok(rel.tag)
    ensures InstallSpec(fs, ctx, rel, name) == InstallResult(Pass, fs, false, false)
  {
    var zip := ArchiveFile(ctx.data, ctx.host, a.name.name);
    assert Parent(zip) == ArchiveDir(ctx.data, ctx.host);
    assert Exists(fs, ArchiveDir(ctx.data, ctx.host));
  }

  /**
   * The same holds right after a download: the asset is saved, the marker is
   * left as it is and nothing is extracted.
   */
  lemma UpToDateAfterDownload(fs: FsState, ctx: Context, rel: Release, name: string, a: Asset)
    requires Wf(fs) && GetPlatformAsset(rel.assets, ctx.host) == Some(a)
    requires IsDir(fs, ArchiveDir(ctx.data, ctx.host))
    requires !Exists(fs, ArchiveFile(ctx.data, ctx.host, a.name.name))
    requires a.url in ctx.downloads
    requires IsFile(fs, MarkerFile(ctx.data, ctx.host, name))
    requires ReadMarker(fs[MarkerFile(ctx.data, ctx.host, name)].data) == Ok(rel.tag)
    ensures InstallSpec(fs, ctx, rel, name)
            == InstallResult(Pass, fs[ArchiveFile(ctx.data, ctx.host, a.name.name) := File(ctx.downloads[a.url])], true, true)
  {
    assert PrepareArchive(fs, ctx) == Ok(fs);
    var zip := ArchiveFile(ctx.data, ctx.host, a.name.name);
    assert Parent(zip) == ArchiveDir(ctx.data, ctx.host);
    var fs2 := fs[zip := File(ctx.downloads[a.url])];
    assert Fetch(fs, ctx, a) == Ok(fs2);
    MarkerKeptByDownload(fs, ctx, rel.tag, name, a.name.name, ctx.downloads[a.url]);
  }

  /** Saving the asset leaves the marker readable as it was, so the install stops at it. */
  lemma MarkerKeptByDownload(fs: FsState, ctx: Context, tag: Version, name: string, assetName: string, data: seq<Byte>)
    requires Wf(fs) && Wf(fs[ArchiveFile(ctx.data, ctx.host, assetName) := File(data)])
    requires IsFile(fs, MarkerFile(ctx.data, ctx.host, name))
    requires ReadMarker(fs[MarkerFile(ctx.data, ctx.host, name)].data) == Ok(tag)
    ensures UpdateMarker(fs[ArchiveFile(ctx.data, ctx.host, assetName) := File(data)], ctx, name, tag) == Ok(None)
  {
    var zip := ArchiveFile(ctx.data, ctx.host, assetName);
    var marker := MarkerFile(ctx.data, ctx.host, name);
    assert zip != marker by { assert |zip| != |marker|; }
  }

  /**
   * Whenever the install goes past the marker check, the marker is rewritten
   * before any extraction: a failure to open the archive leaves the new
   * marker behind.
   */
  lemma MarkerSavedBeforeExtraction(fs: FsState, ctx: Context, rel: Release, name: string)
    requires Wf(fs) && InstallSpec(fs, ctx, rel, name).outcome == Fail(ZipInvalid)
    ensures MarkerFile(ctx.data, ctx.host, name) in InstallSpec(fs, ctx, rel, name).fs
    ensures InstallSpec(fs, ctx, rel, name).fs[MarkerFile(ctx.data, ctx.host, name)] == File(MarkerBytes(rel.tag))
  {
    match GetPlatformAsset(rel.assets, ctx.host) {
      case Some(a) =>
        match PrepareArchive(fs, ctx) {
          case Ok(fs1) => ZipInvalidAfterArchive(fs1, ctx, rel.tag, name, a);
        }
    }
  }

  lemma ZipInvalidAfterArchive(fs: FsState, ctx: Context, tag: Version, name: string, a: Asset)
    requires Wf(fs) && FromArchive(fs, ctx, tag, name, a).outcome == Fail(ZipInvalid)
    ensures MarkerFile(ctx.data, ctx.host, name) in FromArchive(fs, ctx, tag, name, a).fs
    ensures FromArchive(fs, ctx, tag, name, a).fs[MarkerFile(ctx.data, ctx.host, name)] == File(MarkerBytes(tag))
  {
    if Exists(fs, ArchiveFile(ctx.data, ctx.host, a.name.name)) {
      ZipInvalidLeavesMarker(fs, ctx, tag, name, a, false);
    } else {
      ZipInvalidLeavesMarker(Fetch(fs, ctx, a).value, ctx, tag, name, a, true);
    }
  }

  lemma ZipInvalidLeavesMarker(fs: FsState, ctx: Context, tag: Version, name: string, a: Asset, fetched: bool)
    requires Wf(fs) && FromAsset(fs, ctx, tag, name, a, fetched).outcome == Fail(ZipInvalid)
    ensures MarkerFile(ctx.data, ctx.host, name) in FromAsset(fs, ctx, tag, name, a, fetched).fs
    ensures FromAsset(fs, ctx, tag, name, a, fetched).fs[MarkerFile(ctx.data, ctx.host, name)] == File(MarkerBytes(tag))
  {
    match UpdateMarker(fs, ctx, name, tag) {
      case Ok(Some(fs3)) =>
      case Ok(None) =>
      case Err(e) =>
    }
  }

  /** The entries land directly inside the extraction directory. */
  lemma {:induction false} TargetsAreChildren(dir: Path, items: seq<ZipItem>, q: Path)
    requires q in Targets(dir, items)
    ensures |q| == |dir| + 1 && q[..|dir|] == dir
    decreases |items|
  {
    if q !in Targets(dir, items[1..]) {
      var p := items[0].enclosed.value;
      assert q == Target(dir, p);
    } else {
      TargetsAreChildren(dir, items[1..], q);
    }
  }

  /** Paths that are neither inside `dir` nor on the way to it. */
  predicate Apart(dir: Path, q: Path) {
    !IsPrefix(dir, q) && !IsPrefix(q, dir)
  }

  /**
   * `<name>/` is made empty, and nothing apart from it and its ancestors
   * changes.
   */
  lemma ResetDirEmpties(fs: FsState, dir: Path)
    requires Wf(fs) && dir != [] && ResetDir(fs, dir).Ok?
    ensures Below(ResetDir(fs, dir).value, dir) == {}
    ensures forall q :: Apart(dir, q) ==> (q in ResetDir(fs, dir).value <==> q in fs)
    ensures forall q :: Apart(dir, q) && q in fs ==> ResetDir(fs, dir).value[q] == fs[q]
  {
    var c := ResetDir(fs, dir).value;
    forall q | q in Below(c, dir) ensures false {
      assert !IsPrefix(q, dir);
      if !Exists(fs, dir) {
        MissingHasNothingBelow(fs, dir, q);
      } else {
        assert IsPrefix(dir, q);
      }
    }
  }

  /**
   * Whatever its outcome, unpacking a `.zip` leaves every path apart from
   * `<name>/` as it was.
   */
  lemma UnpackKeeps(fs: FsState, ctx: Context, asset: Asset, name: string)
    requires Wf(fs)
    ensures forall q :: Apart(ExtractDir(ctx.data, ctx.host, name), q) ==>
              (q in Unpack(fs, ctx, asset, name).fs <==> q in fs)
    ensures forall q :: Apart(ExtractDir(ctx.data, ctx.host, name), q) && q in fs ==>
              Unpack(fs, ctx, asset, name).fs[q] == fs[q]
  {
    var dir := ExtractDir(ctx.data, ctx.host, name);
    var bytes := ReadFile(fs, ArchiveFile(ctx.data, ctx.host, asset.name.name));
    if bytes.Ok? && ctx.unzip(bytes.value).Some? && ResetDir(fs, dir).Ok? {
      var items := ctx.unzip(bytes.value).value;
      var clean := ResetDir(fs, dir).value;
      ResetDirEmpties(fs, dir);
      ExtractFootprint(clean, dir, items);
      assert Unpack(fs, ctx, asset, name).fs == Extract(clean, dir, items).fs;
      forall q | q in Targets(dir, items) ensures !Apart(dir, q) {
        TargetsAreChildren(dir, items, q);
      }
    }
  }

  /**
   * Unpacking a `.zip` leaves `<name>/` holding exactly the entries of the
   * archive that have an enclosed name, each directly inside it, and leaves
   * every path apart from `<name>/` as it was.
   */
  lemma UnpackResult(fs: FsState, ctx: Context, asset: Asset, name: string)
    requires Wf(fs) && Unpack(fs, ctx, asset, name).outcome.Pass?
    ensures var dir := ExtractDir(ctx.data, ctx.host, name);
            var items := ctx.unzip(fs[ArchiveFile(ctx.data, ctx.host, asset.name.name)].data).value;
            && IsDir(Unpack(fs, ctx, asset, name).fs, dir)
            && Below(Unpack(fs, ctx, asset, name).fs, dir) == Targets(dir, items)
    ensures forall q :: Apart(ExtractDir(ctx.data, ctx.host, name), q) ==>
              (q in Unpack(fs, ctx, asset, name).fs <==> q in fs)
    ensures forall q :: Apart(ExtractDir(ctx.data, ctx.host, name), q) && q in fs ==>
              Unpack(fs, ctx, asset, name).fs[q] == fs[q]
  {
    var dir := ExtractDir(ctx.data, ctx.host, name);
    var items := ctx.unzip(fs[ArchiveFile(ctx.data, ctx.host, asset.name.name)].data).value;
    var clean := ResetDir(fs, dir).value;
    ResetDirEmpties(fs, dir);
    ExtractFootprint(clean, dir, items);
    var done := Extract(clean, dir, items).fs;
    assert done == Unpack(fs, ctx, asset, name).fs;
    forall q | q in Targets(dir, items) ensures q in Below(done, dir) {
      TargetsAreChildren(dir, items, q);
    }
    UnpackKeeps(fs, ctx, asset, name);
  }

  /**
   * When the archive opens and `<name>/` is reset but an entry cannot be
   * extracted, the install stops there with `<name>/` holding exactly the
   * entries before the failing one: the old tree is gone and the new one is
   * partial.
   */
  lemma UnpackFailure(fs: FsState, ctx: Context, asset: Asset, name: string, items: seq<ZipItem>) returns (k: nat)
    requires Wf(fs)
    requires ReadFile(fs, ArchiveFile(ctx.data, ctx.host, asset.name.name)).Ok?
    requires ctx.unzip(ReadFile(fs, ArchiveFile(ctx.data, ctx.host, asset.name.name)).value) == Some(items)
    requires ResetDir(fs, ExtractDir(ctx.data, ctx.host, name)).Ok?
    requires Unpack(fs, ctx, asset, name).outcome.Fail?
    ensures var dir := ExtractDir(ctx.data, ctx.host, name);
            var u := Unpack(fs, ctx, asset, name);
            && k < |items|
            && IsDir(u.fs, dir)
            && Below(u.fs, dir) == Targets(dir, items[..k])
            && ExtractItem(u.fs, dir, items[k]).Err?
            && u.outcome == Fail(Io(ExtractItem(u.fs, dir, items[k]).error))
  {
    var dir := ExtractDir(ctx.data, ctx.host, name);
    var clean := ResetDir(fs, dir).value;
    ResetDirEmpties(fs, dir);
    var whole := Extract(clean, dir, items);
    assert Unpack(fs, ctx, asset, name) == Reached(Fail(Io(whole.outcome.error)), whole.fs);
    k := PartialExtraction(clean, dir, items);
  }

  /** Into an empty directory, a failed extraction leaves exactly the entries before the failing one. */
  lemma PartialExtraction(fs: FsState, dir: Path, items: seq<ZipItem>) returns (k: nat)
    requires Wf(fs) && IsDir(fs, dir) && Below(fs, dir) == {}
    requires Extract(fs, dir, items).outcome.Fail?
    ensures var after := Extract(fs, dir, items).fs;
            && k < |items|
            && Below(after, dir) == Targets(dir, items[..k])
            && ExtractItem(after, dir, items[k]) == Err(Extract(fs, dir, items).outcome.error)
  {
    k := ExtractFailure(fs, dir, items);
    var after := Extract(fs, dir, items).fs;
    ExtractFootprint(fs, dir, items[..k]);
    forall q | q in Targets(dir, items[..k]) ensures q in Below(after, dir) {
      TargetsAreChildren(dir, items[..k], q);
    }
  }

  /** The marker lies apart from `<name>/` and is neither the cached asset nor the renamed AppImage. */
  lemma MarkerApart(data: Path, host: Config.Target, name: string, assetName: string)
    ensures Apart(ExtractDir(data, host, name), MarkerFile(data, host, name))
    ensures MarkerFile(data, host, name) != ArchiveFile(data, host, assetName)
    ensures MarkerFile(data, host, name) != AppImageFile(data, host, name)
  {
    var e, m := ExtractDir(data, host, name), MarkerFile(data, host, name);
    assert |e| == |m|;
    assert |e[|e| - 1].text| != |m[|m| - 1].text|;
    assert m[..|e|] == m && e[..|m|] == e;
  }

  /** Unless the framework itself is called ".archive", the cached asset lies apart from `<name>/`. */
  lemma ArchiveApart(data: Path, host: Config.Target, name: string, assetName: string)
    requires name != ".archive"
    ensures Apart(ExtractDir(data, host, name), ArchiveFile(data, host, assetName))
  {
    var e, z := ExtractDir(data, host, name), ArchiveFile(data, host, assetName);
    var h := HostDir(data, host);
    assert |e| == |h| + 1 < |z|;
    assert e[|h|] != z[|h|];
    assert z[..|e|][|h|] == z[|h|];
  }

  /**
   * Whatever its outcome, the last stage keeps every path apart from
   * `<name>/`, except the two an AppImage rename touches.
   */
  lemma FromMarkerKeeps(fs: FsState, ctx: Context, name: string, a: Asset, fetched: bool, q: Path)
    requires Wf(fs)
    requires q in fs && Apart(ExtractDir(ctx.data, ctx.host, name), q)
    requires EndsWith(a.name.name, ".AppImage") ==>
               q != ArchiveFile(ctx.data, ctx.host, a.name.name) && q != AppImageFile(ctx.data, ctx.host, name)
    ensures q in FromMarker(fs, ctx, name, a, fetched).fs
    ensures FromMarker(fs, ctx, name, a, fetched).fs[q] == fs[q]
  {
    if EndsWith(a.name.name, ".zip") {
      assert FromMarker(fs, ctx, name, a, fetched).fs == Unpack(fs, ctx, a, name).fs;
      UnpackKeeps(fs, ctx, a, name);
    } else if EndsWith(a.name.name, ".AppImage") {
      var r := RenameAppImage(fs, ctx, a, name);
      if r.Ok? {
        assert FromMarker(fs, ctx, name, a, fetched).fs == r.value;
      }
    } else {
      assert FromMarker(fs, ctx, name, a, fetched).fs == fs;
    }
  }

  /**
   * Once the marker has been saved, a failure of the last stage leaves it
   * reading as the new tag, with the asset still cached: the next install of
   * the same release stops at the marker, reports success and changes
   * nothing, so a partially extracted `<name>/` is never repaired.
   */
  lemma FailureAfterMarkerNotRepaired(fs: FsState, ctx: Context, rel: Release, name: string, a: Asset, fetched: bool)
    requires Wf(fs) && GetPlatformAsset(rel.assets, ctx.host) == Some(a) && name != ".archive"
    requires Exists(fs, ArchiveFile(ctx.data, ctx.host, a.name.name))
    requires UpdateMarker(fs, ctx, name, rel.tag).Ok? && UpdateMarker(fs, ctx, name, rel.tag).value.Some?
    requires FromAsset(fs, ctx, rel.tag, name, a, fetched).outcome.Fail?
    ensures var after := FromAsset(fs, ctx, rel.tag, name, a, fetched).fs;
            && IsFile(after, MarkerFile(ctx.data, ctx.host, name))
            && ReadMarker(after[MarkerFile(ctx.data, ctx.host, name)].data) == Ok(rel.tag)
            && InstallSpec(after, ctx, rel, name) == InstallResult(Pass, after, false, false)
  {
    var marker := MarkerFile(ctx.data, ctx.host, name);
    var zip := ArchiveFile(ctx.data, ctx.host, a.name.name);
    var fs3 := UpdateMarker(fs, ctx, name, rel.tag).value.value;
    var after := FromAsset(fs, ctx, rel.tag, name, a, fetched).fs;
    assert after == FromMarker(fs3, ctx, name, a, fetched).fs;
    MarkerApart(ctx.data, ctx.host, name, a.name.name);
    MarkerRoundTrip(rel.tag);
    FromMarkerKeeps(fs3, ctx, name, a, fetched, marker);
    assert zip in fs3;
    if EndsWith(a.name.name, ".zip") {
      ArchiveApart(ctx.data, ctx.host, name, a.name.name);
      ZipIsNotAppImage(a.name.name);
      FromMarkerKeeps(fs3, ctx, name, a, fetched, zip);
    }
    UpToDateChangesNothing(after, ctx, rel, name, a);
  }

  /**
   * After the marker stage succeeds, the marker reads as the tag, and an
   * asset that was cached stays cached unless it is an AppImage.
   */
  lemma FromAssetPass(fs: FsState, ctx: Context, tag: Version, name: string, a: Asset, fetched: bool)
    requires Wf(fs) && FromAsset(fs, ctx, tag, name, a, fetched).outcome.Pass?
    ensures IsFile(FromAsset(fs, ctx, tag, name, a, fetched).fs, MarkerFile(ctx.data, ctx.host, name))
    ensures ReadMarker(FromAsset(fs, ctx, tag, name, a, fetched).fs[MarkerFile(ctx.data, ctx.host, name)].data) == Ok(tag)
    ensures name != ".archive" && !EndsWith(a.name.name, ".AppImage") && Exists(fs, ArchiveFile(ctx.data, ctx.host, a.name.name))
            ==> Exists(FromAsset(fs, ctx, tag, name, a, fetched).fs, ArchiveFile(ctx.data, ctx.host, a.name.name))
  {
    var marker := MarkerFile(ctx.data, ctx.host, name);
    var zip := ArchiveFile(ctx.data, ctx.host, a.name.name);
    MarkerApart(ctx.data, ctx.host, name, a.name.name);
    match UpdateMarker(fs, ctx, name, tag) {
      case Ok(None) =>
      case Ok(Some(fs3)) =>
        FromMarkerKeeps(fs3, ctx, name, a, fetched, marker);
        MarkerRoundTrip(tag);
        if name != ".archive" && !EndsWith(a.name.name, ".AppImage") && Exists(fs, zip) {
          ArchiveApart(ctx.data, ctx.host, name, a.name.name);
          assert zip in fs3;
          FromMarkerKeeps(fs3, ctx, name, a, fetched, zip);
        }
    }
  }

  lemma FromArchivePass(fs: FsState, ctx: Context, tag: Version, name: string, a: Asset)
    requires Wf(fs) && FromArchive(fs, ctx, tag, name, a).outcome.Pass?
    ensures IsFile(FromArchive(fs, ctx, tag, name, a).fs, MarkerFile(ctx.data, ctx.host, name))
    ensures ReadMarker(FromArchive(fs, ctx, tag, name, a).fs[MarkerFile(ctx.data, ctx.host, name)].data) == Ok(tag)
    ensures name != ".archive" && !EndsWith(a.name.name, ".AppImage")
            ==> Exists(FromArchive(fs, ctx, tag, name, a).fs, ArchiveFile(ctx.data, ctx.host, a.name.name))
  {
    if Exists(fs, ArchiveFile(ctx.data, ctx.host, a.name.name)) {
      FromAssetPass(fs, ctx, tag, name, a, false);
    } else {
      FromAssetPass(Fetch(fs, ctx, a).value, ctx, tag, name, a, true);
    }
  }

  /**
   * A successful install always leaves a marker that reads as the installed
   * tag, and keeps the downloaded archive (an AppImage is renamed instead).
   */
  lemma InstalledMarkerReadsTag(fs: FsState, ctx: Context, rel: Release, name: string)
    requires Wf(fs) && InstallSpec(fs, ctx, rel, name).outcome.Pass?
    ensures GetPlatformAsset(rel.assets, ctx.host).Some?
    ensures IsFile(InstallSpec(fs, ctx, rel, name).fs, MarkerFile(ctx.data, ctx.host, name))
    ensures ReadMarker(InstallSpec(fs, ctx, rel, name).fs[MarkerFile(ctx.data, ctx.host, name)].data) == Ok(rel.tag)
    ensures var a := GetPlatformAsset(rel.assets, ctx.host).value;
            name != ".archive" && !EndsWith(a.name.name, ".AppImage")
            ==> Exists(InstallSpec(fs, ctx, rel, name).fs, ArchiveFile(ctx.data, ctx.host, a.name.name))
  {
    var a := GetPlatformAsset(rel.assets, ctx.host).value;
    FromArchivePass(PrepareArchive(fs, ctx).value, ctx, rel.tag, name, a);
  }

  /**
   * Installing the same release twice in a row: the second call finds the
   * marker and the archive and does nothing at all.
   */
  lemma SecondInstallIsNoOp(fs: FsState, ctx: Context, rel: Release, name: string)
    requires Wf(fs) && InstallSpec(fs, ctx, rel, name).outcome.Pass? && name != ".archive"
    requires GetPlatformAsset(rel.assets, ctx.host).Some?
    requires !EndsWith(GetPlatformAsset(rel.assets, ctx.host).value.name.name, ".AppImage")
    ensures var after := InstallSpec(fs, ctx, rel, name).fs;
            InstallSpec(after, ctx, rel, name) == InstallResult(Pass, after, false, false)
  {
    var a := GetPlatformAsset(rel.assets, ctx.host).value;
    InstalledMarkerReadsTag(fs, ctx, rel, name);
    UpToDateChangesNothing(InstallSpec(fs, ctx, rel, name).fs, ctx, rel, name, a);
  }

  lemma AppImageIsNotZip(s: string)
    requires EndsWith(s, ".AppImage")
    ensures !EndsWith(s, ".zip")
  {
    assert s[|s| - 4] == s[|s| - 9..][5];
  }

  lemma ZipIsNotAppImage(s: string)
    requires EndsWith(s, ".zip")
    ensures !EndsWith(s, ".AppImage")
  {
    if EndsWith(s, ".AppImage") {
      AppImageIsNotZip(s);
    }
  }

  /** Making `.archive` creates directories only, so it never touches the marker. */
  lemma PrepareKeepsMarker(fs: FsState, ctx: Context, name: string)
    requires Wf(fs) && PrepareArchive(fs, ctx).Ok?
    ensures var m := MarkerFile(ctx.data, ctx.host, name);
            (m in PrepareArchive(fs, ctx).value <==> m in fs)
            && (m in fs ==> PrepareArchive(fs, ctx).value[m] == fs[m])
  {
    var m, d := MarkerFile(ctx.data, ctx.host, name), ArchiveDir(ctx.data, ctx.host);
    assert |m| == |d|;
    assert |m[|m| - 1].text| != |d[|d| - 1].text|;
    assert !IsPrefix(m, d);
  }

  /** A marker that does not already read as the tag sends the AppImage through the rename. */
  lemma AppImageStageRenames(fs: FsState, ctx: Context, tag: Version, name: string, a: Asset, fetched: bool)
    requires Wf(fs) && FromAsset(fs, ctx, tag, name, a, fetched).outcome.Pass?
    requires EndsWith(a.name.name, ".AppImage") && a.name.name != name + ".AppImage"
    requires var m := MarkerFile(ctx.data, ctx.host, name);
             !(IsFile(fs, m) && ReadMarker(fs[m].data) == Ok(tag))
    ensures !Exists(FromAsset(fs, ctx, tag, name, a, fetched).fs, ArchiveFile(ctx.data, ctx.host, a.name.name))
    ensures IsFile(FromAsset(fs, ctx, tag, name, a, fetched).fs, AppImageFile(ctx.data, ctx.host, name))
  {
    AppImageIsNotZip(a.name.name);
    var zip, app := ArchiveFile(ctx.data, ctx.host, a.name.name), AppImageFile(ctx.data, ctx.host, name);
    assert zip != app by {
      assert zip[|ctx.data| + 2] == Text(a.name.name) && app[|ctx.data| + 2] == Text(name + ".AppImage");
    }
    var up := UpdateMarker(fs, ctx, name, tag);
    assert up.Ok? && up.value.Some?;
    var ren := RenameFile(up.value.value, zip, app);
    assert FromMarker(up.value.value, ctx, name, a, fetched).fs == ren.value;
  }

  /**
   * An AppImage is moved out of the archive slot when it is installed, so
   * the next install of the same release finds no archive and downloads it
   * again, even though the marker already reads as the tag.
   */
  lemma AppImageDownloadedAgain(fs: FsState, ctx: Context, rel: Release, name: string)
    requires Wf(fs) && InstallSpec(fs, ctx, rel, name).outcome.Pass?
    requires GetPlatformAsset(rel.assets, ctx.host).Some?
    requires var a := GetPlatformAsset(rel.assets, ctx.host).value;
             EndsWith(a.name.name, ".AppImage") && a.name.name != name + ".AppImage"
    requires var m := MarkerFile(ctx.data, ctx.host, name);
             !(IsFile(fs, m) && ReadMarker(fs[m].data) == Ok(rel.tag))
    ensures var after := InstallSpec(fs, ctx, rel, name).fs;
            var a := GetPlatformAsset(rel.assets, ctx.host).value;
            !Exists(after, ArchiveFile(ctx.data, ctx.host, a.name.name))
            && IsFile(after, AppImageFile(ctx.data, ctx.host, name))
            && InstallSpec(after, ctx, rel, name).fetched
  {
    var a := GetPlatformAsset(rel.assets, ctx.host).value;
    var m := MarkerFile(ctx.data, ctx.host, name);
    var zip := ArchiveFile(ctx.data, ctx.host, a.name.name);
    var fs1 := PrepareArchive(fs, ctx).value;
    PrepareKeepsMarker(fs, ctx, name);
    if Exists(fs1, zip) {
      AppImageStageRenames(fs1, ctx, rel.tag, name, a, false);
    } else {
      var fs2 := Fetch(fs1, ctx, a).value;
      assert zip != m by { assert |zip| != |m|; }
      AppImageStageRenames(fs2, ctx, rel.tag, name, a, true);
    }
    var after := InstallSpec(fs, ctx, rel, name).fs;
    assert Parent(AppImageFile(ctx.data, ctx.host, name)) == ArchiveDir(ctx.data, ctx.host);
    FetchedIffMissing(after, ctx, rel, name, a);
  }
}

=== FILE: lock.dfy ===
/**
 * The lock file's table of installed addons, keyed by addon name. Reading
 * and writing it as JSON, and scanning the addons directory to create it,
 * are not part of this model.
 */
module Locks {
  import opened Wrappers
  import opened Addons

  class LockFile {
    /** The locked addons by name; the program keeps them in an ordered map. */
    var addons: map<string, Addon>

    constructor (addons: map<string, Addon>)
      ensures this.addons == addons
    {
      this.addons := addons;
    }

    /** Whether an addon is locked under `name`. */
    predicate Contains(name: string)
      reads this
      ensures Contains(name) <==> name in addons.Keys
    {
      name in addons
    }

    /**
     * `LockFile::update`: lock a new addon under its name and report a
     * change, or merge it into the addon already locked there and report
     * what the merge reports. An addon without a name (a GitHub source that
     * is not a repository URL) panics in the program: `None`, and nothing
     * changes.
     */
    method Update(addon: Addon) returns (r: Option<bool>)
      modifies this
      ensures Name(addon).None? ==> r.None? && addons == old(addons)
      ensures Name(addon).Some? ==> r.Some? && Contains(Name(addon).value)
      ensures Name(addon).Some? ==>
                var k := Name(addon).value;
                && (k !in old(addons) ==> r == Some(true) && addons == old(addons)[k := addon])
                && (k in old(addons) ==>
                      r == Some(Changed(old(addons)[k], addon))
                      && addons == old(addons)[k := Merged(old(addons)[k], addon)])
    {
      var name := Name(addon);
      if name.None? {
        return None;
      }
      var k := name.value;
      if k !in addons {
        addons := addons[k := addon];
        return Some(true);
      }
      var merged, diff := Merge(addons[k], addon);
      addons := addons[k := merged];
      r := Some(diff);
    }

    /** `LockFile::set`: lock `a` under `name`, whether or not something was locked there. */
    method Set(name: string, a: Addon)
      modifies this
      ensures addons == old(addons)[name := a]
      ensures forall n :: Contains(n) <==> n == name || old(Contains(n))
    {
      addons := addons[name := a];
    }
  }

  /**
   * After an update that does not panic the addon's name is locked, it maps
   * to the addon as given or as merged, and every other entry is as it was.
   */
  lemma UpdateLocks(before: map<string, Addon>, after: map<string, Addon>, addon: Addon, r: Option<bool>)
    requires Name(addon).Some?
    requires var k := Name(addon).value;
             && (k !in before ==> r == Some(true) && after == before[k := addon])
             && (k in before ==> r == Some(Changed(before[k], addon)) && after == before[k := Merged(before[k], addon)])
    ensures Name(addon).value in after && r.Some?
    ensures after[Name(addon).value].src == addon.src && after[Name(addon).value].target == addon.target
    ensures forall n :: n in before && n != Name(addon).value ==> n in after && after[n] == before[n]
    ensures forall n :: n in after ==> n in before || n == Name(addon).value
    ensures r == Some(false) ==> after == before
  {
    var k := Name(addon).value;
    if k in before && r == Some(false) {
      MergeReports(before[k], addon);
      assert Merged(before[k], addon) == before[k];
      assert after == before;
    }
  }

  /** Updating twice with the same addon leaves the table as the first update did. */
  lemma UpdateTwice(before: map<string, Addon>, addon: Addon)
    requires Name(addon).Some?
    ensures var k := Name(addon).value;
            var once := if k in before then before[k := Merged(before[k], addon)] else before[k := addon];
            once[k := Merged(once[k], addon)] == once
  {
    var k := Name(addon).value;
    if k in before {
      MergeReports(before[k], addon);
    } else {
      MergeReports(addon, addon);
      assert Merged(addon, addon) == addon;
    }
  }
}

=== FILE: release.dfy ===
/**
 * A published release of a framework and its installation into the local
 * cache. For a host platform the cache holds, under `<data>/<host os>`:
 *   .archive/<asset name>   the downloaded asset, kept between installs
 *   .<name>-version         a marker holding the installed release's tag
 *   <name>/                 the flattened contents of a `.zip` asset
 * and an `.AppImage` asset is renamed to `.archive/<name>.AppImage`.
 */
module Releases {
  import opened Wrappers
  import opened Decimal
  import opened Versions
  import opened Fs
  import opened AssetNames
  import Config

  /** A downloadable file of a release: where to fetch it and its classified name. */
  datatype Asset = Asset(url: string, name: AssetName)

  datatype Release = Release(tag: Version, assets: seq<Asset>)

  /** The asset type that a host platform downloads. */
  predicate HostMatches(ty: AssetType, host: Config.Target) {
    match host
    case Win64 => ty == Win64
    case Macos => ty == Macos
    case Linux => ty == Linux
    case Android => ty == Android
    case Ios => ty == Ios
  }

  /** `get_platform_asset`: the first asset, in list order, built for the host. */
  function GetPlatformAsset(assets: seq<Asset>, host: Config.Target): (r: Option<Asset>)
    ensures r.None? <==> forall i :: 0 <= i < |assets| ==> !HostMatches(assets[i].name.ty, host)
    ensures r.Some? ==> exists i :: 0 <= i < |assets| && assets[i] == r.value
                                    && HostMatches(assets[i].name.ty, host)
                                    && forall j :: 0 <= j < i ==> !HostMatches(assets[j].name.ty, host)
  {
    if assets == [] then None
    else if HostMatches(assets[0].name.ty, host) then Some(assets[0])
    else
      var r := GetPlatformAsset(assets[1..], host);
      assert forall i :: 1 <= i < |assets| ==> assets[i] == assets[1..][i - 1];
      if r.Some? then
        var k :| 0 <= k < |assets[1..]| && assets[1..][k] == r.value
                 && HostMatches(assets[1..][k].name.ty, host)
                 && forall j :: 0 <= j < k ==> !HostMatches(assets[1..][j].name.ty, host);
        assert forall j :: 0 <= j < k + 1 ==> !HostMatches(assets[j].name.ty, host) by {
          forall j | 0 <= j < k + 1 ensures !HostMatches(assets[j].name.ty, host) {
            if j > 0 {
              assert assets[j] == assets[1..][j - 1];
            }
          }
        }
        r
      else
        r
  }

  // ---------------------------------------------------------------------
  // Cache layout

  /** `<data>/<host os>`: the name of the host OS is that of its target. */
  function HostDir(data: Path, host: Config.Target): Path {
    data + [Text(Config.TargetName(host))]
  }

  function ArchiveDir(data: Path, host: Config.Target): Path {
    HostDir(data, host) + [Text(".archive")]
  }

  /** A downloaded asset is kept, under its own name, in the host's `.archive` directory. */
  function ArchiveFile(data: Path, host: Config.Target, assetName: string): (p: Path)
    ensures |p| == |data| + 3 && p[..|data| + 1] == HostDir(data, host)
    ensures p[|data| + 1] == Text(".archive") && p[|data| + 2] == Text(assetName)
  {
    ArchiveDir(data, host) + [Text(assetName)]
  }

  /**
   * The version marker `.<name>-version` sits in the host directory beside
   * the `.archive` directory and the extraction directory, and is neither.
   */
  function MarkerFile(data: Path, host: Config.Target, name: string): (p: Path)
    ensures |p| == |data| + 2 && p[..|data| + 1] == HostDir(data, host)
    ensures p != ArchiveDir(data, host) && p != ExtractDir(data, host, name)
  {
    var p := HostDir(data, host) + [Text("." + name + "-version")];
    assert p[|data| + 1] != ExtractDir(data, host, name)[|data| + 1] by {
      assert |"." + name + "-version"| != |name|;
    }
    p
  }

  function ExtractDir(data: Path, host: Config.Target, name: string): Path {
    HostDir(data, host) + [Text(name)]
  }

  /** An AppImage is kept in the host's `.archive` directory as `<name>.AppImage`, beside the downloads. */
  function AppImageFile(data: Path, host: Config.Target, name: string): (p: Path)
    ensures |p| == |data| + 3 && p[..|data| + 2] == ArchiveDir(data, host)
    ensures p[|data| + 2] == Text(name + ".AppImage")
    ensures p == ArchiveFile(data, host, name + ".AppImage")
  {
    ArchiveDir(data, host) + [Text(name + ".AppImage")]
  }

  /** The extracted tree of a framework is where the configuration looks for it. */
  lemma ExtractDirIsInstallPath(data: Path, f: Config.Framework, host: Config.Target)
    ensures ExtractDir(data, host, Config.FrameworkName(f)) == Config.InstallPath(data, f, host)
  {
  }

  // ---------------------------------------------------------------------
  // Text helpers

  predicate EndsWith(s: string, suffix: string) {
    |suffix| <= |s| && s[|s| - |suffix|..] == suffix
  }

  /** The ASCII characters `str::trim` removes: space and tab through carriage return. */
  predicate IsWhitespace(c: char) {
    c == ' ' || 9 <= c as int <= 13
  }

  function TrimStart(s: string): (r: string)
    ensures |r| <= |s| && r == s[|s| - |r|..]
    ensures |r| > 0 ==> !IsWhitespace(r[0])
    ensures forall i :: 0 <= i < |s| - |r| ==> IsWhitespace(s[i])
  {
    if s != [] && IsWhitespace(s[0]) then TrimStart(s[1..]) else s
  }

  function TrimEnd(s: string): (r: string)
    ensures |r| <= |s| && r == s[..|r|]
    ensures |r| > 0 ==> !IsWhitespace(r[|r| - 1])
    ensures forall i :: |r| <= i < |s| ==> IsWhitespace(s[i])
  {
    if s != [] && IsWhitespace(s[|s| - 1]) then TrimEnd(s[..|s| - 1]) else s
  }

  /**
   * `str::trim`: drop leading and trailing whitespace. What is left starts
   * and ends with non-whitespace, and text without whitespace is kept whole.
   */
  function Trim(s: string): (r: string)
    ensures |r| <= |s|
    ensures |r| > 0 ==> !IsWhitespace(r[0]) && !IsWhitespace(r[|r| - 1])
    ensures (forall i :: 0 <= i < |s| ==> !IsWhitespace(s[i])) ==> r == s
  {
    TrimEnd(TrimStart(s))
  }

  /** A printed version has no whitespace at either end, so trimming keeps it. */
  lemma TrimPrinted(v: Version)
    ensures Trim(ToString(v)) == ToString(v)
  {
    var s := ToString(v);
    PrintedIsAscii(v);
    assert !IsWhitespace(s[0]) && !IsWhitespace(s[|s| - 1]);
  }

  /** A printed version is ASCII text. */
  lemma PrintedIsAscii(v: Version)
    ensures IsAscii(ToString(v))
  {
  }

  /** The bytes `tag.to_string()` is saved as. */
  function MarkerBytes(tag: Version): seq<Byte> {
    PrintedIsAscii(tag);
    EncodeAscii(ToString(tag))
  }

  /** `read_to_string`, `trim` and `Version::from_str` on the marker's bytes. */
  function ReadMarker(bytes: seq<Byte>): (r: Result<Version, InstallError>)
    ensures r.Err? ==> r.error.Io? || r.error.MarkerInvalid?
  {
    match DecodeAscii(bytes)
    case None => Err(Io(InvalidData))
    case Some(text) =>
      match FromStr(Trim(text))
      case Err(k) => Err(MarkerInvalid(k))
      case Ok(v) => Ok(v)
  }

  /** The saved marker reads back as the tag it was written for. */
  lemma MarkerRoundTrip(tag: Version)
    ensures ReadMarker(MarkerBytes(tag)) == Ok(tag)
  {
    PrintedIsAscii(tag);
    TrimPrinted(tag);
    ParsePrinted(tag);
    ReadEncoded(ToString(tag), tag);
  }

  lemma ReadEncoded(s: string, v: Version)
    requires IsAscii(s) && Trim(s) == s && FromStr(s) == Ok(v)
    ensures ReadMarker(EncodeAscii(s)) == Ok(v)
  {
    DecodeEncoded(s);
  }

  // ---------------------------------------------------------------------
  // Zip entries

  /**
   * A path inside an archive that stays inside the extraction directory, one
   * component per element. Its last component is a file name: not empty,
   * `.` or `..`.
   */
  type EnclosedPath = p: seq<string> | |p| > 0 && p[|p| - 1] != "" && p[|p| - 1] != "." && p[|p| - 1] != ".."
    witness ["a"]

  /**
   * One entry of an opened zip archive: its raw name (a directory's ends in
   * '/'), its `enclosed_name` if it has one, and its uncompressed content.
   */
  datatype ZipItem = ZipItem(name: string, enclosed: Option<EnclosedPath>, data: seq<Byte>)

  /** Where an entry lands: directly inside `dir`, under the last component of its path. */
  function Target(dir: Path, p: EnclosedPath): Path {
    dir + [Text(p[|p| - 1])]
  }

  /** Extract one entry: skip it, make a directory, or create the file with its content. */
  function ExtractItem(fs: FsState, dir: Path, item: ZipItem): (r: Result<FsState, IoError>)
    requires Wf(fs) && IsDir(fs, dir)
    ensures r.Ok? ==> Wf(r.value)
    ensures r.Ok? && item.enclosed.None? ==> r.value == fs
    ensures r.Ok? && item.enclosed.Some? ==>
              r.value == fs[Target(dir, item.enclosed.value) := if EndsWith(item.name, "/") then Dir else File(item.data)]
  {
    match item.enclosed
    case None => Ok(fs)
    case Some(p) =>
      if EndsWith(item.name, "/") then MakeChildDir(fs, dir, p[|p| - 1])
      else WriteChildFile(fs, dir, p[|p| - 1], item.data)
  }

  /** `create_dir_all(dir/x)` inside the existing directory `dir`. */
  function MakeChildDir(fs: FsState, dir: Path, x: string): (r: Result<FsState, IoError>)
    requires Wf(fs) && IsDir(fs, dir)
    ensures r.Ok? ==> Wf(r.value) && r.value == fs[dir + [Text(x)] := Dir]
  {
    CreateChildDir(fs, dir, Text(x));
    CreateDirAll(fs, dir + [Text(x)])
  }

  /** `File::create(dir/x)` and the copy of the entry's content. */
  function WriteChildFile(fs: FsState, dir: Path, x: string, data: seq<Byte>): (r: Result<FsState, IoError>)
    requires Wf(fs) && IsDir(fs, dir)
    ensures r.Ok? ==> Wf(r.value) && r.value == fs[dir + [Text(x)] := File(data)]
  {
    WriteFile(fs, dir + [Text(x)], data)
  }

  /**
   * How a step-by-step operation ended, and the filesystem it reached: the
   * changes made before a failure stay.
   */
  datatype Reached<+E> = Reached(outcome: Outcome<E>, fs: FsState)

  /**
   * The entries extracted in archive order; the first failure stops the
   * extraction, and the entries extracted before it stay.
   */
  function Extract(fs: FsState, dir: Path, items: seq<ZipItem>): (r: Reached<IoError>)
    requires Wf(fs) && IsDir(fs, dir)
    ensures Wf(r.fs) && IsDir(r.fs, dir)
    decreases |items|
  {
    if items == [] then Reached(Pass, fs)
    else
      match ExtractItem(fs, dir, items[0])
      case Err(e) => Reached(Fail(e), fs)
      case Ok(next) =>
        assert IsDir(next, dir) by {
          if items[0].enclosed.Some? {
            assert Target(dir, items[0].enclosed.value) != dir;
          }
        }
        Extract(next, dir, items[1..])
  }

  /** The paths that the entries with an enclosed name land on. */
  function Targets(dir: Path, items: seq<ZipItem>): set<Path>
    decreases |items|
  {
    if items == [] then {}
    else
      (match items[0].enclosed case None => {} case Some(p) => {Target(dir, p)})
      + Targets(dir, items[1..])
  }

  /**
   * The tree is flattened: extraction adds or replaces only the entries
   * directly inside `dir` that the archive names, and leaves every other
   * path as it was; when it finishes, every named entry is there.
   */
  lemma {:induction false} ExtractFootprint(fs: FsState, dir: Path, items: seq<ZipItem>)
    requires Wf(fs) && IsDir(fs, dir)
    ensures forall q :: q in Extract(fs, dir, items).fs ==> q in fs || q in Targets(dir, items)
    ensures forall q :: q in fs && q !in Targets(dir, items) ==> q in Extract(fs, dir, items).fs
    ensures forall q :: q in fs && q !in Targets(dir, items) ==> Extract(fs, dir, items).fs[q] == fs[q]
    ensures Extract(fs, dir, items).outcome.Pass? ==> forall q :: q in Targets(dir, items) ==> q in Extract(fs, dir, items).fs
    decreases |items|
  {
    if items != [] && ExtractItem(fs, dir, items[0]).Ok? {
      var next := ExtractItem(fs, dir, items[0]).value;
      assert IsDir(next, dir) by {
        if items[0].enclosed.Some? {
          assert Target(dir, items[0].enclosed.value) != dir;
        }
      }
      ExtractFootprint(next, dir, items[1..]);
    }
  }

  /**
   * A failed extraction stops at the first entry that cannot be made: the
   * entries before it were all extracted, and the state they reached is the
   * one the extraction leaves.
   */
  lemma {:induction false} ExtractFailure(fs: FsState, dir: Path, items: seq<ZipItem>) returns (k: nat)
    requires Wf(fs) && IsDir(fs, dir) && Extract(fs, dir, items).outcome.Fail?
    ensures k < |items|
    ensures Extract(fs, dir, items[..k]) == Reached(Pass, Extract(fs, dir, items).fs)
    ensures ExtractItem(Extract(fs, dir, items).fs, dir, items[k]) == Err(Extract(fs, dir, items).outcome.error)
    decreases |items|
  {
    if ExtractItem(fs, dir, items[0]).Err? {
      k := 0;
      assert items[..0] == [];
    } else {
      var next := ExtractItem(fs, dir, items[0]).value;
      assert IsDir(next, dir) by {
        if items[0].enclosed.Some? {
          assert Target(dir, items[0].enclosed.value) != dir;
        }
      }
      var j := ExtractFailure(next, dir, items[1..]);
      k := j + 1;
      assert items[..k][0] == items[0] && items[..k][1..] == items[1..][..j];
    }
  }

  /** Entries without an enclosed name are skipped: dropping them changes nothing. */
  lemma {:induction false} ExtractSkipsUnenclosed(fs: FsState, dir: Path, items: seq<ZipItem>)
    requires Wf(fs) && IsDir(fs, dir)
    ensures Extract(fs, dir, items) == Extract(fs, dir, Enclosed(items))
    decreases |items|
  {
    if items != [] {
      match ExtractItem(fs, dir, items[0]) {
        case Err(_) =>
        case Ok(next) =>
          assert IsDir(next, dir) by {
            if items[0].enclosed.Some? {
              assert Target(dir, items[0].enclosed.value) != dir;
            }
          }
          ExtractSkipsUnenclosed(next, dir, items[1..]);
          if items[0].enclosed.Some? {
            assert Enclosed(items)[1..] == Enclosed(items[1..]);
          }
      }
    }
  }

  /** The entries that have an enclosed name, in archive order. */
  function Enclosed(items: seq<ZipItem>): (r: seq<ZipItem>)
    ensures forall i :: 0 <= i < |r| ==> r[i].enclosed.Some?
    decreases |items|
  {
    if items == [] then []
    else if items[0].enclosed.None? then Enclosed(items[1..])
    else [items[0]] + Enclosed(items[1..])
  }

  /** Extracting `items[i..]` is extracting `items[i]`, then the rest. */
  lemma ExtractAt(fs: FsState, dir: Path, items: seq<ZipItem>, i: nat)
    requires Wf(fs) && IsDir(fs, dir) && i < |items|
    ensures ExtractItem(fs, dir, items[i]).Err? ==> Extract(fs, dir, items[i..]) == Reached(Fail(ExtractItem(fs, dir, items[i]).error), fs)
    ensures ExtractItem(fs, dir, items[i]).Ok? ==>
              var next := ExtractItem(fs, dir, items[i]).value;
              IsDir(next, dir) && Extract(fs, dir, items[i..]) == Extract(next, dir, items[i + 1..])
  {
    assert items[i..][0] == items[i] && items[i..][1..] == items[i + 1..];
    if ExtractItem(fs, dir, items[i]).Ok? && items[i].enclosed.Some? {
      assert Target(dir, items[i].enclosed.value) != dir;
    }
  }

  /** `for i in 0..archive.len()`: extract the entries one at a time. */
  method ExtractAll(fs: FsState, dir: Path, items: seq<ZipItem>) returns (r: Reached<IoError>)
    requires Wf(fs) && IsDir(fs, dir)
    ensures r == Extract(fs, dir, items)
  {
    var cur := fs;
    var i := 0;
    while i < |items|
      invariant 0 <= i <= |items|
      invariant Wf(cur) && IsDir(cur, dir)
      invariant Extract(fs, dir, items) == Extract(cur, dir, items[i..])
    {
      var step := ExtractItem(cur, dir, items[i]);
      ExtractAt(cur, dir, items, i);
      if step.Err? {
        return Reached(Fail(step.error), cur);
      }
      cur := step.value;
      i := i + 1;
    }
    assert items[i..] == [];
    return Reached(Pass, cur);
  }

  // ---------------------------------------------------------------------
  // Install

  datatype InstallError =
    | NoHostAsset                       // no asset is built for the host
    | Io(e: IoError)                    // a filesystem operation failed
    | Network                           // the download failed
    | MarkerInvalid(k: IntErrorKind)    // the marker does not hold a version
    | ZipInvalid                        // the downloaded archive cannot be opened

  /**
   * What an install did: its outcome, the filesystem afterwards (changes made
   * before a failure stay), whether the asset was downloaded, and whether the
   * "Installed" message was shown.
   */
  datatype InstallResult = InstallResult(outcome: Outcome<InstallError>, fs: FsState, fetched: bool, announced: bool)

  /** The inputs that do not change during an install. */
  datatype Context = Context(
    data: Path,                                   // the data directory of the tool
    host: Config.Target,                          // the platform the tool runs on
    downloads: map<string, seq<Byte>>,            // what each URL serves; a missing URL fails
    unzip: seq<Byte> -> Option<seq<ZipItem>>)     // opening a zip archive; None when it is not one

  /** Step 1: make `.archive` unless something already exists at that path. */
  function PrepareArchive(fs: FsState, ctx: Context): (r: Result<FsState, IoError>)
    requires Wf(fs)
    ensures r.Ok? ==> Wf(r.value)
    ensures Exists(fs, ArchiveDir(ctx.data, ctx.host)) ==> r == Ok(fs)
  {
    var dir := ArchiveDir(ctx.data, ctx.host);
    if Exists(fs, dir) then Ok(fs) else CreateDirAll(fs, dir)
  }

  /** Step 2: download the asset into `.archive/<asset name>` (only called when it is missing). */
  function Fetch(fs: FsState, ctx: Context, asset: Asset): (r: Result<FsState, InstallError>)
    requires Wf(fs)
    ensures r.Ok? ==> Wf(r.value)
    ensures r.Ok? ==> asset.url in ctx.downloads
                      && r.value == fs[ArchiveFile(ctx.data, ctx.host, asset.name.name) := File(ctx.downloads[asset.url])]
    ensures asset.url !in ctx.downloads ==> r == Err(Network)
  {
    if asset.url !in ctx.downloads then Err(Network)
    else
      match WriteFile(fs, ArchiveFile(ctx.data, ctx.host, asset.name.name), ctx.downloads[asset.url])
      case Err(e) => Err(Io(e))
      case Ok(next) => Ok(next)
  }

  /**
   * Step 3: the marker. `Ok(None)` when the marker already names the tag,
   * so the install is finished; `Ok(Some(fs'))` after saving the tag into it.
   */
  function UpdateMarker(fs: FsState, ctx: Context, name: string, tag: Version): (r: Result<Option<FsState>, InstallError>)
    requires Wf(fs)
    ensures r.Ok? && r.value.Some? ==> Wf(r.value.value)
    ensures r.Ok? && r.value.Some? ==> r.value.value == fs[MarkerFile(ctx.data, ctx.host, name) := File(MarkerBytes(tag))]
    ensures r.Err? ==> !r.error.ZipInvalid?
  {
    var marker := MarkerFile(ctx.data, ctx.host, name);
    if Exists(fs, marker) then
      match ReadFile(fs, marker)
      case Err(e) => Err(Io(e))
      case Ok(bytes) =>
        match ReadMarker(bytes)
        case Err(e) => Err(e)
        case Ok(v) =>
          if v == tag then Ok(None)
          else
            match WriteFile(fs, marker, MarkerBytes(tag))
            case Err(e) => Err(Io(e))
            case Ok(next) => Ok(Some(next))
    else
      match WriteFile(fs, marker, MarkerBytes(tag))
      case Err(e) => Err(Io(e))
      case Ok(next) => Ok(Some(next))
  }

  /** Step 4a: `<name>/` removed if present, then made again, empty. */
  function ResetDir(fs: FsState, dir: Path): (r: Result<FsState, IoError>)
    requires Wf(fs)
    ensures r.Ok? ==> Wf(r.value) && IsDir(r.value, dir)
  {
    if !Exists(fs, dir) then CreateDirAll(fs, dir)
    else
      match RemoveDirAll(fs, dir)
      case Err(e) => Err(e)
      case Ok(cleared) => CreateDirAll(cleared, dir)
  }

  /**
   * Step 4 for a `.zip` asset: open it, reset `<name>/`, extract every entry
   * into it. A failed extraction leaves `<name>/` reset and holding the
   * entries extracted before the failure.
   */
  function Unpack(fs: FsState, ctx: Context, asset: Asset, name: string): (r: Reached<InstallError>)
    requires Wf(fs)
    ensures Wf(r.fs)
    ensures r.outcome.Fail? && !r.outcome.error.Io? ==> r.fs == fs
  {
    match ReadFile(fs, ArchiveFile(ctx.data, ctx.host, asset.name.name))
    case Err(e) => Reached(Fail(Io(e)), fs)
    case Ok(bytes) =>
      match ctx.unzip(bytes)
      case None => Reached(Fail(ZipInvalid), fs)
      case Some(items) =>
        match ResetDir(fs, ExtractDir(ctx.data, ctx.host, name))
        case Err(e) => Reached(Fail(Io(e)), fs)
        case Ok(clean) =>
          var done := Extract(clean, ExtractDir(ctx.data, ctx.host, name), items);
          match done.outcome
          case Fail(e) => Reached(Fail(Io(e)), done.fs)
          case Pass => Reached(Pass, done.fs)
  }

  /** Step 4 for an `.AppImage` asset: rename it to `.archive/<name>.AppImage`. */
  function RenameAppImage(fs: FsState, ctx: Context, asset: Asset, name: string): (r: Result<FsState, InstallError>)
    requires Wf(fs)
    ensures r.Ok? ==> Wf(r.value)
  {
    match RenameFile(fs, ArchiveFile(ctx.data, ctx.host, asset.name.name), AppImageFile(ctx.data, ctx.host, name))
    case Err(e) => Err(Io(e))
    case Ok(next) => Ok(next)
  }

  function Stop(e: InstallError, fs: FsState, fetched: bool): InstallResult {
    InstallResult(Fail(e), fs, fetched, false)
  }

  /** `Release::install` for the framework `name`, step by step. */
  function InstallSpec(fs: FsState, ctx: Context, rel: Release, name: string): (r: InstallResult)
    requires Wf(fs)
    ensures Wf(r.fs)
  {
    match GetPlatformAsset(rel.assets, ctx.host)
    case None => Stop(NoHostAsset, fs, false)
    case Some(asset) =>
      match PrepareArchive(fs, ctx)
      case Err(e) => Stop(Io(e), fs, false)
      case Ok(fs1) => FromArchive(fs1, ctx, rel.tag, name, asset)
  }

  /** With `.archive` in place: download the asset if it is missing. */
  function FromArchive(fs: FsState, ctx: Context, tag: Version, name: string, asset: Asset): (r: InstallResult)
    requires Wf(fs)
    ensures Wf(r.fs)
    ensures r.fetched <==> !Exists(fs, ArchiveFile(ctx.data, ctx.host, asset.name.name))
  {
    if Exists(fs, ArchiveFile(ctx.data, ctx.host, asset.name.name)) then FromAsset(fs, ctx, tag, name, asset, false)
    else
      match Fetch(fs, ctx, asset)
      case Err(e) => Stop(e, fs, true)
      case Ok(fs2) => FromAsset(fs2, ctx, tag, name, asset, true)
  }

  /** With the asset cached: stop if the marker names the tag, otherwise save the tag and unpack. */
  function FromAsset(fs: FsState, ctx: Context, tag: Version, name: string, asset: Asset, fetched: bool): (r: InstallResult)
    requires Wf(fs)
    ensures Wf(r.fs) && r.fetched == fetched
  {
    match UpdateMarker(fs, ctx, name, tag)
    case Err(e) => Stop(e, fs, fetched)
    case Ok(None) => InstallResult(Pass, fs, fetched, fetched)
    case Ok(Some(fs3)) => FromMarker(fs3, ctx, name, asset, fetched)
  }

  /** With the marker saved: extract a `.zip`, rename an `.AppImage`, leave anything else. */
  function FromMarker(fs: FsState, ctx: Context, name: string, asset: Asset, fetched: bool): (r: InstallResult)
    requires Wf(fs)
    ensures Wf(r.fs) && r.fetched == fetched
    ensures r.outcome.Fail? && !EndsWith(asset.name.name, ".zip") ==> r.fs == fs
    ensures r.outcome.Fail? && !r.outcome.error.Io? ==> r.fs == fs
  {
    if EndsWith(asset.name.name, ".zip") then
      var u := Unpack(fs, ctx, asset, name);
      match u.outcome
      case Fail(e) => Stop(e, u.fs, fetched)
      case Pass => InstallResult(Pass, u.fs, fetched, true)
    else if EndsWith(asset.name.name, ".AppImage") then
      match RenameAppImage(fs, ctx, asset, name)
      case Err(e) => Stop(e, fs, fetched)
      case Ok(fs4) => InstallResult(Pass, fs4, fetched, true)
    else InstallResult(Pass, fs, fetched, fetched)
  }

  /**
   * `Release::install`: the cache updated one step at a time, with the
   * `work_done` flag that decides whether the "Installed" message is shown.
   */
  method Install(fs: FsState, ctx: Context, rel: Release, name: string) returns (r: InstallResult)
    requires Wf(fs)
    ensures r == InstallSpec(fs, ctx, rel, name)
  {
    var found := GetPlatformAsset(rel.assets, ctx.host);
    if found.None? {
      return Stop(NoHostAsset, fs, false);
    }
    var asset := found.value;
    var cur := fs;
    var archiveDir := ArchiveDir(ctx.data, ctx.host);
    if !Exists(cur, archiveDir) {
      var made := CreateDirAll(cur, archiveDir);
      if made.Err? {
        return Stop(Io(made.error), cur, false);
      }
      cur := made.value;
    }
    r := InstallAsset(cur, ctx, rel.tag, name, asset);
  }

  /** The rest of `Release::install` once `.archive` exists: download the asset if it is missing. */
  method InstallAsset(fs: FsState, ctx: Context, tag: Version, name: string, asset: Asset) returns (r: InstallResult)
    requires Wf(fs)
    ensures r == FromArchive(fs, ctx, tag, name, asset)
  {
    var cur := fs;
    var fetched := false;
    var zipFile := ArchiveFile(ctx.data, ctx.host, asset.name.name);
    if !Exists(cur, zipFile) {
      fetched := true;
      if asset.url !in ctx.downloads {
        return Stop(Network, cur, true);
      }
      var written := WriteFile(cur, zipFile, ctx.downloads[asset.url]);
      if written.Err? {
        return Stop(Io(written.error), cur, true);
      }
      cur := written.value;
    }
    r := InstallMarked(cur, ctx, tag, name, asset, fetched);
  }

  /** The rest of `Release::install` once the asset is cached: compare and save the version marker. */
  method InstallMarked(fs: FsState, ctx: Context, tag: Version, name: string, asset: Asset, fetched: bool) returns (r: InstallResult)
    requires Wf(fs)
    ensures r == FromAsset(fs, ctx, tag, name, asset, fetched)
  {
    var marker := MarkerFile(ctx.data, ctx.host, name);
    if Exists(fs, marker) {
      var content := ReadFile(fs, marker);
      if content.Err? {
        return Stop(Io(content.error), fs, fetched);
      }
      var version := ReadMarker(content.value);
      if version.Err? {
        return Stop(version.error, fs, fetched);
      }
      if version.value == tag {
        return InstallResult(Pass, fs, fetched, fetched);
      }
    }
    var saved := WriteFile(fs, marker, MarkerBytes(tag));
    if saved.Err? {
      return Stop(Io(saved.error), fs, fetched);
    }
    r := InstallUnpacked(saved.value, ctx, name, asset, fetched);
  }

  /** The last step of `Release::install`: extract a `.zip`, rename an `.AppImage`. */
  method InstallUnpacked(fs: FsState, ctx: Context, name: string, asset: Asset, fetched: bool) returns (r: InstallResult)
    requires Wf(fs)
    ensures r == FromMarker(fs, ctx, name, asset, fetched)
  {
    var cur := fs;
    var workDone := fetched;
    var zipFile := ArchiveFile(ctx.data, ctx.host, asset.name.name);
    if EndsWith(asset.name.name, ".zip") {
      workDone := true;
      var bytes := ReadFile(cur, zipFile);
      if bytes.Err? {
        return Stop(Io(bytes.error), cur, fetched);
      }
      var items := ctx.unzip(bytes.value);
      if items.None? {
        return Stop(ZipInvalid, cur, fetched);
      }
      var dir := ExtractDir(ctx.data, ctx.host, name);
      var clean := ResetDir(cur, dir);
      if clean.Err? {
        return Stop(Io(clean.error), cur, fetched);
      }
      var extracted := ExtractAll(clean.value, dir, items.value);
      if extracted.outcome.Fail? {
        return Stop(Io(extracted.outcome.error), extracted.fs, fetched);
      }
      cur := extracted.fs;
    } else if EndsWith(asset.name.name, ".AppImage") {
      workDone := true;
      var moved := RenameFile(cur, zipFile, AppImageFile(ctx.data, ctx.host, name));
      if moved.Err? {
        return Stop(Io(moved.error), cur, fetched);
      }
      cur := moved.value;
    }
    return InstallResult(Pass, cur, fetched, workDone);
  }
}

=== FILE: version.dfy ===
/**
 * Version identifiers `major.minor[.patch]` of the game frameworks: parsing,
 * printing, the derived ordering and the fixed minimum and latest versions.
 */
module Versions {
  import opened Wrappers
  import opened Decimal

  datatype Version = Version(major: Usize, minor: Usize, patch: Option<Usize>)

  /**
   * `Display`: "major.minor", followed by ".patch" only when a patch is
   * present. The text is digits and dots and starts with a digit.
   */
  function ToString(v: Version): (s: string)
    ensures |s| > 0 && IsDigit(s[0])
    ensures forall j :: 0 <= j < |s| ==> IsDigit(s[j]) || s[j] == '.'
  {
    ToDecimalDigits(v.major);
    ToDecimalDigits(v.minor);
    match v.patch
    case Some(p) =>
      ToDecimalDigits(p);
      ToDecimal(v.major) + "." + ToDecimal(v.minor) + "." + ToDecimal(p)
    case None => ToDecimal(v.major) + "." + ToDecimal(v.minor)
  }

  /** Index of the first `c` in `s`, or |s| when there is none. */
  function IndexOf(s: string, c: char): (i: nat)
    ensures i <= |s|
    ensures i < |s| ==> s[i] == c
    ensures forall j :: 0 <= j < i ==> s[j] != c
  {
    if s == [] then 0 else if s[0] == c then 0 else 1 + IndexOf(s[1..], c)
  }

  /**
   * One step of `splitn(3, '.')`: the text before the first '.', and the text
   * after it when there is a '.' at all.
   */
  function SplitDot(s: string): (string, Option<string>) {
    var i := IndexOf(s, '.');
    if i == |s| then (s, None) else (s[..i], Some(s[i + 1..]))
  }

  /**
   * `FromStr`: the first part is the major number; a missing second part
   * reads as "0"; a third part, everything after the second '.', is the patch.
   * Errors are those of the first part that fails, in order. Only the empty
   * string (or an empty first part) is `Empty`; an accepted string starts
   * with a digit or '+', and one without a '.' is a major version alone.
   */
  function FromStr(s: string): (r: Result<Version, IntErrorKind>)
    ensures s == [] ==> r == Err(Empty)
    ensures r.Ok? ==> IsDigit(s[0]) || s[0] == '+'
    ensures r.Ok? && NoDot(s) ==> r.value.minor == 0 && r.value.patch == None
  {
    var (first, rest) := SplitDot(s);
    match ParseUsize(first)
    case Err(e) => Err(e)
    case Ok(major) =>
      match rest
      case None => Ok(Version(major, 0, None))
      case Some(r) =>
        var (second, tail) := SplitDot(r);
        match ParseUsize(second)
        case Err(e) => Err(e)
        case Ok(minor) =>
          match tail
          case None => Ok(Version(major, minor, None))
          case Some(t) =>
            match ParseUsize(t)
            case Err(e) => Err(e)
            case Ok(patch) => Ok(Version(major, minor, Some(patch)))
  }

  /**
   * `Deserialize`: drop exactly one leading 'v', then `FromStr`. What
   * `FromStr` accepts never starts with 'v', so it deserializes the same.
   */
  function Deserialize(s: string): (r: Result<Version, IntErrorKind>)
    ensures FromStr(s).Ok? ==> r == FromStr(s)
  {
    FromStr(if |s| > 0 && s[0] == 'v' then s[1..] else s)
  }

  /** The derived `Ord` on `Option`: `None` is below every `Some`. */
  predicate PatchLess(a: Option<Usize>, b: Option<Usize>) {
    match (a, b)
    case (None, Some(_)) => true
    case (Some(x), Some(y)) => x < y
    case _ => false
  }

  /** The derived `Ord` on `Version`: lexicographic on (major, minor, patch). */
  predicate Less(a: Version, b: Version)
    ensures Less(a, b) ==> a != b && a.major <= b.major && (a.major == b.major ==> a.minor <= b.minor)
  {
    a.major < b.major
    || (a.major == b.major && a.minor < b.minor)
    || (a.major == b.major && a.minor == b.minor && PatchLess(a.patch, b.patch))
  }

  predicate LessEq(a: Version, b: Version) {
    Less(a, b) || a == b
  }

  const MinLove := Version(11, 0, None)
  const MinLovr := Version(0, 15, Some(0))
  const LatestLove := Version(11, 5, None)
  const LatestLovr := Version(0, 17, Some(0))

  lemma IndexOfAfter(a: string, b: string, c: char)
    requires forall j :: 0 <= j < |a| ==> a[j] != c
    ensures IndexOf(a + [c] + b, c) == |a|
  {
    var s := a + [c] + b;
    assert s[|a|] == c;
    forall j | 0 <= j < |a| ensures s[j] != c {
      assert s[j] == a[j];
    }
  }

  lemma IndexOfNone(a: string, c: char)
    requires forall j :: 0 <= j < |a| ==> a[j] != c
    ensures IndexOf(a, c) == |a|
  {
  }

  lemma DecimalHasNoDot(n: nat)
    ensures forall j :: 0 <= j < |ToDecimal(n)| ==> ToDecimal(n)[j] != '.'
  {
    forall j | 0 <= j < |ToDecimal(n)| ensures ToDecimal(n)[j] != '.' {
      ToDecimalHasOnlyDigits(n, j);
    }
  }

  lemma SplitAtDot(a: string, b: string)
    requires NoDot(a)
    ensures SplitDot(a + "." + b) == (a, Some(b))
  {
    IndexOfAfter(a, b, '.');
    var s := a + "." + b;
    assert s[..|a|] == a;
    assert s[|a| + 1..] == b;
  }

  lemma SplitNoDot(a: string)
    requires NoDot(a)
    ensures SplitDot(a) == (a, None)
  {
    IndexOfNone(a, '.');
  }

  /** Reading back what `Display` printed gives the same version. */
  lemma {:induction false} ParsePrinted(v: Version)
    ensures FromStr(ToString(v)) == Ok(v)
  {
    var ma, mi := ToDecimal(v.major), ToDecimal(v.minor);
    DecimalHasNoDot(v.major);
    DecimalHasNoDot(v.minor);
    ParsePrintedUsize(v.major);
    ParsePrintedUsize(v.minor);
    match v.patch {
      case None =>
        assert ToString(v) == ma + "." + mi;
        SplitAtDot(ma, mi);
        SplitNoDot(mi);
      case Some(p) =>
        var pa := ToDecimal(p);
        ParsePrintedUsize(p);
        assert ToString(v) == ma + "." + (mi + "." + pa);
        SplitAtDot(ma, mi + "." + pa);
        SplitAtDot(mi, pa);
    }
  }

  /** `Display` output never starts with 'v', so `Deserialize` reads it back as well. */
  lemma DeserializePrinted(v: Version)
    ensures Deserialize(ToString(v)) == Ok(v)
    ensures Deserialize("v" + ToString(v)) == Ok(v)
  {
    ParsePrinted(v);
    ToDecimalHasOnlyDigits(v.major, 0);
    assert ("v" + ToString(v))[1..] == ToString(v);
  }

  /** `FromStr` itself does not accept the 'v' prefix that `Deserialize` strips. */
  lemma FromStrRejectsPrefix(v: Version)
    ensures FromStr("v" + ToString(v)) == Err(InvalidDigit)
    ensures Deserialize("vv" + ToString(v)) == Err(InvalidDigit)
  {
    var s := "v" + ToString(v);
    var first := SplitDot(s).0;
    assert s[0] == 'v';
    assert first[0] == 'v';
    assert ("vv" + ToString(v))[1..] == s;
  }

  /** A single number is the major version; the minor defaults to 0 and there is no patch. */
  lemma MajorOnly(n: Usize)
    ensures FromStr(ToDecimal(n)) == Ok(Version(n, 0, None))
  {
    DecimalHasNoDot(n);
    SplitNoDot(ToDecimal(n));
    ParsePrintedUsize(n);
  }

  predicate NoDot(s: string) {
    forall j :: 0 <= j < |s| ==> s[j] != '.'
  }

  /**
   * Everything after the second '.' is the patch, so a string with a third
   * '.' is never accepted ("1.2.3.4" fails on the patch "3.4").
   */
  lemma FourPartsRejected(a: string, b: string, c: string, d: string)
    requires NoDot(a) && NoDot(b)
    ensures FromStr(a + "." + b + "." + c + "." + d).Err?
  {
    var t := c + "." + d;
    var r := b + "." + t;
    assert a + "." + b + "." + c + "." + d == a + "." + r;
    SplitAtDot(a, r);
    SplitAtDot(b, t);
    DotIsNoDigit(c, d);
  }

  /** A number with a '.' in it does not parse. */
  lemma DotIsNoDigit(c: string, d: string)
    ensures ParseUsize(c + "." + d).Err?
  {
    var t := c + "." + d;
    var digits := if |t| > 0 && t[0] == '+' then t[1..] else t;
    assert digits[|digits| - |d| - 1] == '.';
    assert !AllDigits(digits);
  }

  lemma EmptyRejected()
    ensures FromStr("") == Err(Empty)
    ensures FromStr(".5") == Err(Empty)
  {
    assert SplitDot(".5") == ("", Some("5"));
  }

  lemma LessIrreflexive(a: Version)
    ensures !Less(a, a)
  {
  }

  lemma LessTransitive(a: Version, b: Version, c: Version)
    requires Less(a, b) && Less(b, c)
    ensures Less(a, c)
  {
  }

  /** Any two versions are equal or ordered one way: the order is total. */
  lemma LessTotal(a: Version, b: Version)
    ensures a == b || Less(a, b) || Less(b, a)
  {
  }

  /** An absent patch sorts below every present patch, so "11.0" < "11.0.0" and they differ. */
  lemma AbsentPatchSortsFirst(major: Usize, minor: Usize, p: Usize)
    ensures Less(Version(major, minor, None), Version(major, minor, Some(p)))
    ensures Version(major, minor, None) != Version(major, minor, Some(p))
  {
  }

  lemma ConstantsOrdered()
    ensures LessEq(MinLove, LatestLove) && LessEq(MinLovr, LatestLovr)
    ensures ToString(MinLove) == "11.0" && ToString(LatestLovr) == "0.17.0"
  {
  }
}

=== FILE: wrappers.dfy ===
/** Failure-carrying values shared by every module of the model. */
module Wrappers {

  /** An optional value, as Rust's `Option<T>`. */
  datatype Option<+T> = None | Some(value: T)

  /** A value or an error, as Rust's `Result<T, E>`. */
  datatype Result<+T, +E> = Ok(value: T) | Err(error: E)

  /** A unit result: success, or an error, as Rust's `Result<(), E>`. */
  datatype Outcome<+E> = Pass | Fail(error: E)
}
